=== FILE: README.md ===
# Bangkok Bank site blocks: a Dafny model

This project models the client-side behaviour of the Bangkok Bank site built on Adobe Edge Delivery Services with Universal Editor authoring. The site's block scripts turn authored tables (rows of cells) into interactive page widgets, and a few page-level scripts decorate links, icons and instrumentation attributes. The model keeps, for each widget, only the state its scripts read and write. That state is the flags they set (`aria-expanded`, `aria-hidden`, `is-active`, `is-open`, `is-scrolled`, `is-hidden`, body classes) and the structure they build from the authored rows.

Two kinds of code are modelled:

- **Open/closed state machines**, written as Dafny classes whose methods are the event handlers:
  - the desktop header with its megamenu and scroll rules, and the mobile drawer with its nested levels (`Header`);
  - the login panels, which share the desktop header bar as page state (`LoginPanel`, `Login`);
  - the megamenu block (`Megamenu`) and the footer accordion (`Footer`);
  - the accordion's expand-all button and hash activation (`Accordion`);
  - the two carousels' index, active and disabled logic (`Carousel`, `CarouselDotted`);
  - the social-share toggle (`SocialIcons`).

  Their contracts state the exclusivity rules: at most one nav item, login panel, megamenu title or footer group is open. They also state the flag pairs an open and a close leave behind, and that an index stays in range.
- **Text and structure functions**, written as Dafny functions with the loops of the scripts as methods proved against them:
  - breadcrumb trails (`Breadcrumb`, `Scripts.BuildBreadcrumb`);
  - language and URL segment matching (`TopNav`);
  - whitelisted configuration readers (`CarouselHelpers`);
  - attribute moving by prefix (`Scripts`);
  - button classification and icon-name splitting (`BblDecorators`);
  - row layout detection (`StoryCard`, `CarouselDotted`) and card buttons (`Cards`);
  - the field-injection list operation of the component-model build script (`InjectModelFields`).

Measured geometry (`scrollY`, element heights and widths, `innerWidth`, the media query) arrives as integer or boolean parameters of the handlers. URL parsing is also a parameter: a function from a link to its pathname or resolved URL. `Text` spells out the JavaScript string operations the scripts use. `Wrappers` holds optional values and results. `Exclusive` holds the vocabulary for rows of flags of which at most one is set.

## Model

| member | source | states |
|---|---|---|
| Header.BuildDesktopLayout | blocks/header/header.js:131-152 | the top nav sits directly in the header; every other block sits in the desktop bar, and every main-nav item sits in its right-hand part |
| Header.DesktopPlacesEveryBlockOnce | blocks/header/header.js:131-152 | the desktop layout places every block of the fragment exactly once (as a multiset) |
| Header.BuildMobileLayout | blocks/header/header.js:304-358 | the top nav ends up inside the drawer's content; exactly the brand logo and login go to the mobile top bar; no main-nav block is placed itself, and every nested nav item built in its stead goes to the drawer's content |
| Header.MobilePlacesEveryBlockOnce | blocks/header/header.js:304-358 | the mobile layout places every other block of the fragment exactly once, and one nested nav item per main-nav block (as a multiset) |
| Header.NestedItemParts | blocks/header/header.js:185-238 | `NestedItemFor` (a `mobile-nav-item-nested`): it keeps the main-nav block's trigger, and its entries are exactly the `.megamenu-column-links` cells of the block's columns; the home link and the cells without a list are not part of it |
| Header.LinkCellsSound | blocks/header/header.js:209-212 | every cell the nested item collects is a links cell of one of the columns |
| Header.LinkCellsComplete | blocks/header/header.js:209-212 | every links cell of every column is collected |
| Header.Decorate | blocks/header/header.js:368-388 | no layout without a fragment; otherwise the desktop layout exactly when the media query matches |
| Header.DesktopHeader.constructor | blocks/header/header.js:154 | the desktop bar starts with no active item, not scrolled, top nav shown, nothing measured |
| Header.DesktopHeader.MeasureForScroll | blocks/header/header.js:39-46 | a measured height is kept only when there is a top nav |
| Header.DesktopHeader.OnScroll | blocks/header/header.js:48-59 | measures once when still zero; past a positive top-nav height the top nav hides and the bar is scrolled; otherwise both reset unless a nav item is open |
| Header.DesktopHeader.ClearActive | blocks/header/header.js:84 | every main-nav item loses `is-active` |
| Header.DesktopHeader.CloseMegamenu | blocks/header/header.js:82-89 | re-measures, clears every active item and the shared flag, and drops `is-scrolled` only within the top nav's height |
| Header.DesktopHeader.Click | blocks/header/header.js:91-123 | keeps "at most one item active, and the flag says whether one is"; a click on an inactive item activates it alone; on the active item, or anywhere outside while one is open, closes the megamenu; clicks in a panel or on the bar change nothing |
| Header.ReopenScenario | blocks/header/header.js:101-110 | opening an item and clicking it again leaves no item active |
| Header.MobileHeader.constructor | blocks/header/header.js:164-178 | the drawer starts closed with every nested level collapsed; the initial scroll state is applied at once |
| Header.MobileHeader.OpenMenu | blocks/header/header.js:264-273 | all eight drawer flags take their open values |
| Header.MobileHeader.CloseMenu | blocks/header/header.js:253-262 | all eight drawer flags take their closed values |
| Header.MobileHeader.Click | blocks/header/header.js:205-289 | the hamburger opens the drawer, the overlay or an outside click closes it; the nested triggers and back buttons set or clear exactly one level flag; nothing else changes |
| Header.MobileHeader.Keydown | blocks/header/header.js:291-295 | Escape leaves the drawer closed and changes only the drawer flags; Escape with the drawer closed, and any other key, change nothing |
| Header.MobileHeader.OnScroll | blocks/header/header.js:165-175 | below the breakpoint the bar is scrolled exactly when `scrollY > 0`, with the padding equal to the bar's height; above it nothing changes |
| Header.DrawerRoundTrip | blocks/header/header.js:264-289 | opening (once or twice) then closing by the overlay or an outside click restores every drawer flag and leaves the levels alone |
| Header.DescentScenario | blocks/header/header.js:205-242 | descending two levels and pressing both back buttons restores both levels |
| Breadcrumb.StartIndex | blocks/breadcrumb/breadcrumb.js:18-19 | the first segment is skipped exactly when it is a language code (`en`, `en-US`) |
| Breadcrumb.Label | blocks/breadcrumb/breadcrumb.js:48-50 | same length, no hyphen left, and each character is upper-cased exactly when it starts a word |
| Breadcrumb.LabelIdempotent | blocks/breadcrumb/breadcrumb.js:48-50 | labelling a label changes nothing |
| Breadcrumb.CumulativePrefix | blocks/breadcrumb/breadcrumb.js:33-37 | each link's path extends every earlier link's path |
| Breadcrumb.CumulativeStart | blocks/breadcrumb/breadcrumb.js:33-37 | every link path starts with the first segment after the language |
| Breadcrumb.BuildTrail | blocks/breadcrumb/breadcrumb.js:14-58 | the homepage item exactly when no segment remains after the language; otherwise one item per remaining segment, each the item of its segment |
| Breadcrumb.OnlyLastIsCurrent | blocks/breadcrumb/breadcrumb.js:41-55 | exactly the last item is current; every other links to a path under its first remaining segment |
| Breadcrumb.LinksIgnoreFallback | scripts/scripts.js:87-106 | the block and `buildBreadcrumb` build identical links; they differ only in the last item's fallback |
| Breadcrumb.DecorateBlock | blocks/breadcrumb/breadcrumb.js:7-58 | `is-homepage` exactly for the homepage trail; otherwise one item per segment after the language, each the item `CrumbAt` gives with the document title as fallback, so the last is current with the short title, else the document title |
| Scripts.Element.constructor | scripts/scripts.js:24 | an element holds the attributes it is given |
| Scripts.MovingSplits | scripts/scripts.js:29-35 | a move takes exactly the asked-for attributes with a non-empty value, unchanged; what stays plus what moves is what the source had |
| Scripts.MovingTwice | scripts/scripts.js:29-35 | moving the same names again moves nothing |
| Scripts.MoveOne | scripts/scripts.js:30-34 | one attribute with a value leaves the source and is set on a distinct target |
| Scripts.MoveNames | scripts/scripts.js:29-35 | the source loses exactly the moved attributes; a distinct target gains them with their values |
| Scripts.AttributeNames | scripts/scripts.js:27 | the names listed are exactly the source's attribute names |
| Scripts.MoveAttributes | scripts/scripts.js:24-36 | without a list every attribute is asked for; the source loses and the target gains exactly what moves |
| Scripts.MoveInstrumentation | scripts/scripts.js:43-51 | the move asks for exactly the source's `data-aue-` and `data-richtext-` attributes |
| Scripts.InstrumentationOnly | scripts/scripts.js:47-49 | exactly the instrumentation attributes with a value move; every other attribute stays with its value |
| Scripts.BuildBreadcrumb | scripts/scripts.js:57-112 | the homepage exactly when no segment remains; otherwise links to the cumulative paths and a last current item with the short title, else the segment's label |
| Scripts.InsertsBreadcrumb | scripts/scripts.js:193-198 | inserted exactly when there is a footer and the metadata is absent or reads `true` in any case |
| Scripts.BreadcrumbSwitch | scripts/scripts.js:193-194 | for every metadata value: letter case never matters, there is no breadcrumb without a footer, and with a footer a non-empty value inserts it exactly when it reads `true` |
| BblDecorators.RoleOf | scripts/bbl-decorators.js:4-29 | primary, secondary and tertiary each exactly under its own parent/grandparent condition; never for a self-labelled link or one holding an image |
| BblDecorators.ContainerOf | scripts/bbl-decorators.js:14-28 | a container exactly for decorated anchors: the parent for tertiary, the grandparent otherwise |
| BblDecorators.DecorateAnchor | scripts/bbl-decorators.js:3-31 | title falls back to the text; the class becomes the role's class; only the anchor's own container gains `button-container` |
| BblDecorators.DecorateButtonsV1 | scripts/bbl-decorators.js:1-33 | every anchor of the (duplicate-free) selection decorated as above; of the page's elements, exactly those some anchor makes a container gain `button-container`, and no other element changes |
| BblDecorators.NoSeparatorSingleToken | scripts/bbl-decorators.js:38 | a class attribute without white space is one class name, or none |
| BblDecorators.TerritoryExact | scripts/bbl-decorators.js:38 | for a class attribute without white space the selector picks exactly the class `button` |
| BblDecorators.TerritoryLeavesDecorated | scripts/bbl-decorators.js:14-38 | no class the first decorator assigns is picked by the territory selector |
| BblDecorators.DecorateTerritoryButtons | scripts/bbl-decorators.js:35-41 | exactly the selected anchors become `button-tertiary`; titles are untouched |
| BblDecorators.IconPartsAreSplit | scripts/bbl-decorators.js:51 | the two parts are the first two pieces of the split on `-alt_-` |
| BblDecorators.IconPartsJoin | scripts/bbl-decorators.js:51 | neither part holds the separator, and the name starts with part, separator, part |
| BblDecorators.BasePath | scripts/bbl-decorators.js:55 | a prefix of the source ending in `/` (or empty), with no `/` after it |
| BblDecorators.SvgSrc | scripts/bbl-decorators.js:56 | the base path, then the icon's file part, then `.svg` |
| BblDecorators.SvgAlt | scripts/bbl-decorators.js:59 | no `_` or `-`, no surrounding white space, never longer than the part |
| BblDecorators.SvgSrcIdempotent | scripts/bbl-decorators.js:55-56 | rewriting an already rewritten source gives the same source |
| BblDecorators.SvgUpdate | scripts/bbl-decorators.js:48-61 | unselected images or names without `-alt_-` are untouched; otherwise the new source and alt text from the two parts |
| BblDecorators.SvgUpdateIdempotent | scripts/bbl-decorators.js:48-61 | decorating twice is decorating once |
| BblDecorators.DecorateImg | scripts/bbl-decorators.js:49-61 | one image's source and alt become those `SvgUpdate` gives |
| BblDecorators.DecorateSvgWithAltText | scripts/bbl-decorators.js:47-63 | every image of the list is updated as `SvgUpdate` says |
| StoryCard.TextContent | blocks/story-card/story-card.js:9-11 | the first paragraph's trimmed text; empty for a missing row or paragraph |
| StoryCard.RowAt | blocks/story-card/story-card.js:139-145 | a row exactly for an index inside the block, and then that row |
| StoryCard.FindPosition | blocks/story-card/story-card.js:123-126 | the first row reading `image-left` or `image-right` in any case, or -1 when no row does |
| StoryCard.PositionIndex | blocks/story-card/story-card.js:128-131 | the first row reading `image-left` or `image-right` when some row does; 5 when none does |
| StoryCard.LayoutOf | blocks/story-card/story-card.js:136-145 | with the position at 5 or later the alt row is row 1 and the fields rows 2-4; otherwise no alt row and the fields rows 1-3; the button row follows the position row |
| StoryCard.BuildContent | blocks/story-card/story-card.js:32-69 | each text element present exactly when its value is non-empty, with that value; the button present exactly when the button row has a cell, copied unchanged |
| StoryCard.DecorateUntouched | blocks/story-card/story-card.js:104-111 | `Decorate`, the block's `decorate`, leaves a block of fewer than five rows as authored and decorates any other; its other results are stated by `ImageSide`, `SectionTitle`, `PictureAlt`, `FullLayout` and `ShortLayout` |
| StoryCard.ImageSide | blocks/story-card/story-card.js:156-158 | the image goes right exactly when the position row exists and reads `image-right` |
| StoryCard.SectionTitle | blocks/story-card/story-card.js:163 | the section title is the eyebrow, else the title; empty only when both are |
| StoryCard.PictureAlt | blocks/story-card/story-card.js:147-149 | the picture keeps the image's source; its alt is the alt row's text when present and non-empty, else the image's own alt |
| StoryCard.FullLayout | blocks/story-card/story-card.js:128-145 | without a position row the full seven-row layout is assumed and the image goes left |
| StoryCard.ShortLayout | blocks/story-card/story-card.js:133-145 | a position row at index 4 means no alt row; the button is row 5 when present |
| Cards.ButtonClass | blocks/cards/cards.js:20-26 | `button` alone for an empty type, else `button` followed by the type |
| Cards.ButtonClassTokens | blocks/cards/cards.js:26 | the class names are `button` and, when given, the type |
| Cards.CardButton | blocks/cards/cards.js:6-32 | no button exactly when the target or the label is empty; otherwise target, label, a non-empty title defaulting to the label, and the type's class |
| Cards.CellAt | blocks/cards/cards.js:41-42 | a cell exactly for an index inside the row, and then that cell |
| Cards.ItemButton | blocks/cards/cards.js:39-63 | an item has a button exactly when the link cell gives a target and a label is found; it gets only the row's instrumentation attributes; short rows get no button |
| Cards.Decorate | blocks/cards/cards.js:34-67 | one item per row, in order, each the item of its row |
| InjectModelFields.PrototypeNameReplaced | scripts/inject-model-fields.js:13-16 | as written, a field named `constructor` mapped without rename maps gets an inherited member as its name; the corrected mapping leaves the field as it is |
| InjectModelFields.Rename | scripts/inject-model-fields.js:15-16 | a string value with a truthy own entry becomes that entry; anything else is kept |
| InjectModelFields.MapField | scripts/inject-model-fields.js:13-18 | a copy of the field with name and label renamed through their maps (empty when missing) and everything else kept |
| InjectModelFields.MapFieldAgrees | scripts/inject-model-fields.js:13-18 | without maps a field maps to itself; on names that are not prototype members the corrected and the written mapping agree |
| InjectModelFields.AsWrittenDiffersOnPrototypeNames | scripts/inject-model-fields.js:13-18 | `MapFieldAsWritten` (with `LookupAsWritten` and `RenameAsWritten`) renames a field differently from `MapField` exactly when its name or label is a prototype member the map does not hold itself; both keep the rest of the field |
| InjectModelFields.FindModel | scripts/inject-model-fields.js:21 | the first model with the id, or -1 when none has it |
| InjectModelFields.WithoutMembers | scripts/inject-model-fields.js:24-25 | the kept fields are exactly the fields whose name is not injected |
| InjectModelFields.WithoutTwice | scripts/inject-model-fields.js:24-25 | filtering out the injected names a second time removes nothing more |
| InjectModelFields.WithoutOwnNames | scripts/inject-model-fields.js:24-25 | filtering a list by its own names leaves nothing, so earlier copies of the injected fields never survive |
| InjectModelFields.InjectedShape | scripts/inject-model-fields.js:24-26 | the injected fields come last in order; every earlier field is a prior field with a name not injected; every such prior field is kept |
| InjectModelFields.InjectTwice | scripts/inject-model-fields.js:24-26 | injecting the same fields again changes nothing |
| InjectModelFields.InjectModel | scripts/inject-model-fields.js:20-27 | an error naming the target exactly when no model has the target id |
| InjectModelFields.InjectModelFrame | scripts/inject-model-fields.js:20-27 | only the first model with the id changes, and only in its fields |
| InjectModelFields.InjectModelTwice | scripts/inject-model-fields.js:20-27 | injecting into the same target twice gives the models injecting once gives |
| InjectModelFields.Defaults | scripts/inject-model-fields.js:37-43 | no sources, or a found source without targets, change nothing; a source file without models is an error |
| InjectModelFields.FailureStops | scripts/inject-model-fields.js:37-41 | once a source fails, later sources are not applied |
| InjectModelFields.TargetFailureStops | scripts/inject-model-fields.js:43-50 | once a target fails, later targets are not applied |
| InjectModelFields.ComponentModels.constructor | scripts/inject-model-fields.js:35 | the component models as read |
| InjectModelFields.ComponentModels.InjectFieldsIntoModel | scripts/inject-model-fields.js:20-27 | fails, changing nothing, exactly when `InjectModel` fails; otherwise the models become `InjectModel`'s (fields renamed by the corrected `MapField`, see ## Findings) |
| InjectModelFields.ComponentModels.InjectTargets | scripts/inject-model-fields.js:43-50 | the result and the new models are those of applying the targets in order, stopping at the first error (fields renamed by the corrected `MapField`, see ## Findings) |
| InjectModelFields.ComponentModels.InjectSource | scripts/inject-model-fields.js:37-50 | the result and the new models are those of applying one source (fields renamed by the corrected `MapField`, see ## Findings) |
| InjectModelFields.ComponentModels.InjectAll | scripts/inject-model-fields.js:29-55 | the result and the new models are those of applying all sources in order, stopping at the first error (fields renamed by the corrected `MapField`, see ## Findings) |
| Login.ParseBlockContent | blocks/login/login.js:11-22 | nothing exactly for an empty block; otherwise the rows after the first, and a non-empty button text: the first paragraph's trimmed text, else the row's trimmed text, else `Log on` |
| Login.CreateLoginButton | blocks/login/login.js:29-51 | collapsed, with a popup; a text span exactly on desktop (class `login-button primary`), the dropdown icon otherwise (class `login-button icon-login`) |
| Login.ItemFor | blocks/login/login.js:63-76 | a link exactly when the source item has an anchor, with its target and text; otherwise the item's text |
| Login.BuildLinkList | blocks/login/login.js:59-82 | the list's class, and one item per source item, in order |
| Login.NextListOrHeading | blocks/login/login.js:98-101 | the first `UL` or `H3` after the heading, skipping only other elements, or the end |
| Login.BuildSectionFromHeading | blocks/login/login.js:89-110 | a section exactly when the walk reaches a `UL` before an `H3`; then the heading's text and that list's items |
| Login.ListFor | blocks/login/login.js:59-82 | one item per source item |
| Login.Standalone | blocks/login/login.js:139-143 | everything emitted by the list walk is a standalone list |
| Login.NoStandaloneAfterHeading | blocks/login/login.js:140 | a cell whose every list directly follows a heading yields no standalone list |
| Login.StandaloneCount | blocks/login/login.js:139-143 | exactly one standalone list per list not directly after a heading |
| Login.BuildSections | blocks/login/login.js:134-137 | the sections of the cell's headings whose walk reaches a list, in heading order |
| Login.BuildStandalone | blocks/login/login.js:139-143 | one standalone list per list of the cell not directly after an `h3`, in order |
| Login.BuildCell | blocks/login/login.js:128-144 | one cell's parts: nothing without headings or lists, else its sections then its standalone lists |
| Login.CreateLoginPanel | blocks/login/login.js:117-149 | a hidden panel holding every content row's cells' parts, in order |
| Login.Decorate | blocks/login/login.js:267-288 | nothing for an empty block; otherwise the button for the parsed text and the hidden panel of the remaining rows |
| Login.ButtonClick | blocks/login/login.js:230-241 | keeps the page consistent; an open panel closes leaving none open, a closed one opens as the only open panel; on desktop opening forces the bar's `is-scrolled` and the top nav's `is-hidden`, closing clears them when no nav item is active and the page is not scrolled past the top nav; the bar's active items and heights never change, and on mobile the bar is untouched |
| Login.OverlayClick | blocks/login/login.js:243 | the panel closes and the body class goes; on a consistent page with this overlay showing, or nothing open, no panel stays open |
| Login.DocumentKeydown | blocks/login/login.js:245-250 | Escape leaves no panel open and keeps the page consistent, focusing a button that was open; other keys change nothing |
| Login.ButtonKeydown | blocks/login/login.js:252-257 | Enter and space act as a click on the button, with the same effect on the desktop bar; other keys change nothing |
| LoginPanel.Body.constructor | blocks/login/login-panel.js:12-17 | no overlay appended yet |
| LoginPanel.Wrapper.constructor | blocks/login/login-panel.js:26-31 | a wrapper records whether it has a button and a panel, and has no overlay yet |
| LoginPanel.GetLoginState | blocks/login/login-panel.js:26-37 | nothing for a missing wrapper, button or panel; otherwise the cached overlay, or a new one appended to the body on the first call |
| LoginPanel.GetLoginStateTwice | blocks/login/login-panel.js:31-36 | two calls give the same overlay, and only one overlay is appended |
| LoginPanel.LoginPanels.constructor | blocks/login/login.js:29-34 | every instance starts collapsed and hidden, and the page is consistent |
| LoginPanel.LoginPanels.OpenPanel | blocks/login/login-panel.js:43-56 | this button expands, its panel shows, its overlay activates, the body class is set; on desktop the bar scrolls and the top nav hides |
| LoginPanel.LoginPanels.ClosePanel | blocks/login/login-panel.js:62-80 | the reverse flags; on desktop the bar and top nav are restored only with no megamenu open and within the top nav's height |
| LoginPanel.LoginPanels.CloseOthers | blocks/login/login-panel.js:86-97 | every other expanded button collapses and its panel hides; every overlay deactivates; this instance is untouched |
| LoginPanel.AnySetExec | blocks/login/login-panel.js:73 | true exactly when some flag is set |
| LoginPanel.OpenCloseRestores | blocks/login/login-panel.js:43-80 | opening and then closing a panel on a consistent page restores all four page flags |
| Megamenu.TitleFor | blocks/megamenu/megamenu.js:28-39 | a title button exactly when the category has a title or a link; collapsed, never empty; it carries the link's target exactly when there is a link; text is the title, else the link's text, else `Menu` |
| Megamenu.ItemFor | blocks/megamenu/megamenu.js:92-107 | a link exactly when the source item has an anchor, with its target and text; otherwise the item's text |
| Megamenu.ColumnTitle | blocks/megamenu/megamenu.js:80-86 | a column title exactly when the list directly follows an `H3`, `H4` or `P`, and then that element's text |
| Megamenu.ColumnsPerList | blocks/megamenu/megamenu.js:69-112 | exactly one column per list of the content cell |
| Megamenu.BuildList | blocks/megamenu/megamenu.js:89-108 | one item per source item, in order |
| Megamenu.BuildPanel | blocks/megamenu/megamenu.js:63-157 | the panel `PanelFor` describes: columns exactly when the content cell holds a list, built from its lists in order; otherwise the cell's HTML copied; the promo cell carried over |
| Megamenu.MenuItemPanel | blocks/megamenu/megamenu.js:63-157 | the panel of a row with a content cell has exactly one column per list of that cell when it holds a list, its HTML otherwise, and the row's promo |
| Megamenu.BuildItem | blocks/megamenu/megamenu.js:14-162 | the item `MenuItemFor` describes: a category header exactly when there is a first cell, with its title button; a panel exactly when there is a second cell, built as `BuildPanel` builds it, with the promo |
| Megamenu.BuildMenu | blocks/megamenu/megamenu.js:7-167 | one menu item per row, in order, each the item `BuildItem` builds for its row, panel body and promo included |
| Megamenu.MegamenuState.constructor | blocks/megamenu/megamenu.js:34 | every title starts collapsed |
| Megamenu.MegamenuState.CollapseAllBut | blocks/megamenu/megamenu.js:45-50 | every title but the kept one collapses; the kept one is untouched |
| Megamenu.MegamenuState.TitleClick | blocks/megamenu/megamenu.js:42-54 | an expanded title collapses leaving none expanded; a collapsed one expands as the only one |
| Megamenu.MegamenuState.Keydown | blocks/megamenu/megamenu.js:170-177 | Escape collapses every title; other keys change nothing |
| Megamenu.MegamenuState.DocumentClick | blocks/megamenu/megamenu.js:180-187 | a click outside the block collapses every title; a click inside changes nothing |
| Footer.ColumnsAppend | blocks/footer/footer.js:32-78 | one more section adds its column, if it yields one, at the end |
| Footer.BottomAppend | blocks/footer/footer.js:93-99 | one more paragraph adds its HTML at the end unless it holds a `strong` |
| Footer.ColumnsFromSections | blocks/footer/footer.js:32-78 | every column comes from a section with a list and a title; never more columns than sections, and one per section when each has both |
| Footer.BottomKeepsPlainParagraphs | blocks/footer/footer.js:92-99 | the bottom bar holds exactly the paragraphs without `strong` |
| Footer.BuildColumns | blocks/footer/footer.js:32-78 | one column per section with a list and a title, in section order |
| Footer.BuildBottom | blocks/footer/footer.js:93-99 | the paragraphs without `strong`, in order |
| Footer.BuildFooterStructure | blocks/footer/footer.js:9-107 | nothing without a content wrapper or its main list; otherwise the columns of the sections and the plain paragraphs |
| Footer.Accordion.constructor | blocks/footer/footer.js:112-115 | every group starts closed |
| Footer.Accordion.Click | blocks/footer/footer.js:116-133 | from 992 pixels wide nothing changes; below it an open group closes leaving none open, a closed one opens as the only one |
| Footer.ClickTwiceCloses | blocks/footer/footer.js:116-133 | clicking the same title twice below the breakpoint leaves every group closed |
| Accordion.GetLabel | blocks/accordion/accordion.js:75-79 | the collapse label while all are expanded, the expand label otherwise; empty when that placeholder is missing |
| Accordion.Decorate | blocks/accordion/accordion.js:56-109 | nothing when the placeholders are missing or empty; otherwise one item per row after the third, with id `acc-<index>`, the trimmed first row as heading type, only the first expanded and only when the second row reads `true`; the expand-all button exactly when there are items |
| Accordion.ItemIdsDistinct | blocks/accordion/accordion.js:102-107 | no two items get the same id |
| Accordion.AccordionBlock.constructor | blocks/accordion/accordion.js:66-84 | expand-all off with the expand label; only the first item open, and only when asked |
| Accordion.AccordionBlock.ToggleAccordion | blocks/accordion/accordion.js:19-29 | with every panel present every item agrees with the flag; an item without a panel throws after its `active` is set and the later items stay as they were |
| Accordion.AccordionBlock.ExpandAllClick | blocks/accordion/accordion.js:85-96 | the flag flips, the button's state and the block attribute follow it; with every panel present the items agree and the label is the new one, otherwise the label is unchanged |
| Accordion.AccordionBlock.ActivateFromHash | blocks/accordion/accordion.js:31-54 | a non-empty fragment naming an accordion button inside an item with a panel opens exactly that item; anything else changes nothing |
| Accordion.ExpandAllTwice | blocks/accordion/accordion.js:85-96 | two expand-all clicks restore the flag and the label and leave every item collapsed |
| Carousel.NonEmptyText | blocks/carousel/carousel.js:85-86 | present exactly for a present, non-empty text, unchanged |
| Carousel.CardContent | blocks/carousel/carousel.js:27-90 | the card `CardFor` builds from a row has image wrappers exactly for image cells with a picture, and an eyebrow, title and description exactly when the cell's trimmed text or HTML is non-empty |
| Carousel.CardLink | blocks/carousel/carousel.js:81-104 | the card `CardFor` builds is wrapped in a link, and gets a call to action, exactly when the button cell has an anchor, with that anchor's values |
| Carousel.HeaderFor | blocks/carousel/carousel.js:229-241 | a header exactly when there is a title or a link; the title shown exactly when non-empty |
| Carousel.BuildCards | blocks/carousel/carousel.js:247-252 | one card per row, in order |
| Carousel.Decorate | blocks/carousel/carousel.js:224-277 | the header for the first two rows, one card per later row, and the slider set up exactly when there are cards |
| Carousel.OffsetMonotone | blocks/carousel/carousel.js:157-160 | the offset is never positive and strictly decreases as the index grows |
| Carousel.Slider.constructor | blocks/carousel/carousel.js:113-118 | index 0; positioned without animation on desktop, left as built below it |
| Carousel.Slider.Update | blocks/carousel/carousel.js:126-167 | the index is kept; on desktop only the current card is active, below it all are; the offset is the widths plus gaps (24 pixels from the desktop width on, 16 below) before the card; prev disabled exactly at the first card, next exactly at the last |
| Carousel.Slider.Prev | blocks/carousel/carousel.js:189-194 | moves back one card and updates with animation; at the first card nothing changes |
| Carousel.Slider.Next | blocks/carousel/carousel.js:196-201 | moves on one card and updates with animation; at the last card nothing changes |
| Carousel.Slider.Resize | blocks/carousel/carousel.js:205-212 | back to the first card without animation, offset 0, prev disabled, next disabled exactly when there is one card |
| Carousel.WalkToEnd | blocks/carousel/carousel.js:196-201 | repeated next clicks reach the last card, where next is disabled and prev is not |
| CarouselDotted.ReadBoolean | blocks/carousel-dotted/carousel-dotted.js:3-10 | the fallback for a missing cell; `true` or `false` in any case and padding; the fallback for anything else |
| CarouselDotted.ReadAlignment | blocks/carousel-dotted/carousel-dotted.js:12-18 | always an accepted alignment or the fallback; the normalised cell text when it is `left`, `center` or `right`; the fallback for a missing cell |
| CarouselDotted.DetectSeeMore | blocks/carousel-dotted/carousel-dotted.js:72-98 | a see-more link exactly when the third row has no picture, one cell and an anchor; then the optional text and title rows that follow it are consumed (`SeeMoreText`, `SeeMoreTitle`); slides start at `FirstSlideRow`, the third row when there is no link |
| CarouselDotted.SlideRowsAreTail | blocks/carousel-dotted/carousel-dotted.js:72-130 | the slide rows are the block's last rows: all but two without a see-more link, and with one all but the two configuration rows, the link and the text and title rows it consumed |
| CarouselDotted.SlideFor | blocks/carousel-dotted/carousel-dotted.js:20-64 | the slide keeps its index; a picture, badge, title and call to action exactly when their cells provide them; the call to action's class set gains `carousel-cta` |
| CarouselDotted.BlockClasses | blocks/carousel-dotted/carousel-dotted.js:103-104 | the alignment class first, and `carousel-dotted--no-dots` exactly when dots are off |
| CarouselDotted.MoreLink | blocks/carousel-dotted/carousel-dotted.js:177-186 | the link keeps its target, its class set gains `button-tertiary`, and it takes the text and title rows when non-empty |
| CarouselDotted.BuildSlides | blocks/carousel-dotted/carousel-dotted.js:126-130 | one slide per slide row, each with its index |
| CarouselDotted.BuildDotLabels | blocks/carousel-dotted/carousel-dotted.js:158-169 | one `Slide <n>` label per slide |
| CarouselDotted.Decorate | blocks/carousel-dotted/carousel-dotted.js:66-195 | the classes from the first two rows; dots shown as the first row says; one slide per slide row, the `k`-th being `SlideFor` of that row with index `k`; a dot label per slide; the see-more link exactly when detected, being `MoreLink` of the link with the text and title rows |
| CarouselDotted.DotLabelsDistinct | blocks/carousel-dotted/carousel-dotted.js:164 | different slides get different dot labels |
| CarouselDotted.Dots.constructor | blocks/carousel-dotted/carousel-dotted.js:188-191 | the first slide is active when there is one |
| CarouselDotted.Dots.SetActive | blocks/carousel-dotted/carousel-dotted.js:140-155 | exactly the chosen slide and dot are active, selected and focusable; every other is hidden and unfocusable |
| CarouselHelpers.ReadChoice | scripts/helper-files/carousel-helpers.js:15-50 | the result is an accepted value or the fallback; the fallback for a missing cell or an unaccepted value; the trimmed, lower-cased text when it is accepted |
| CarouselHelpers.ReadBoolean | scripts/helper-files/carousel-helpers.js:4-10 | the fallback for a missing cell; `true` or `false` in any case and padding; the fallback for anything else |
| CarouselHelpers.ReadDotsAlignment | scripts/helper-files/carousel-helpers.js:15-20 | `left`, `center`, `right` or the fallback; the fallback for a missing cell |
| CarouselHelpers.ReadArrowsAlignment | scripts/helper-files/carousel-helpers.js:25-30 | one of the five arrow placements or the fallback; the fallback for a missing cell |
| CarouselHelpers.ReadPosition | scripts/helper-files/carousel-helpers.js:35-40 | `inside-container`, `outside-container` or the fallback; the fallback for a missing cell |
| CarouselHelpers.ReadAnimation | scripts/helper-files/carousel-helpers.js:45-50 | `fade-in`, `fade-out` or the fallback; the fallback for a missing cell |
| CarouselHelpers.ReadChoiceRoundTrip | scripts/helper-files/carousel-helpers.js:15-50 | an accepted value written as itself reads back as itself |
| CarouselHelpers.ReadBooleanRoundTrip | scripts/helper-files/carousel-helpers.js:4-10 | `true` and `false` read back as the booleans they name, whatever the fallback |
| CarouselHelpers.ReadChoiceIgnoresCaseAndPadding | scripts/helper-files/carousel-helpers.js:15-50 | surrounding white space and letter case never change what a cell reads as |
| CarouselHelpers.ReadBooleanIgnoresCaseAndPadding | scripts/helper-files/carousel-helpers.js:4-10 | surrounding white space and letter case never change the boolean a cell reads as |
| CarouselHelpers.ArrowsDefaultOutsideAccepted | scripts/helper-files/carousel-helpers.js:25-28 | the arrows default `center` is not one of the accepted arrow placements, so a missing cell yields a value no authored cell can produce |
| MainNavItem.TriggerText | blocks/main-nav-item/main-nav-item.js:17-19 | never empty: the first row's trimmed paragraph when non-empty, else its trimmed text when non-empty, else `Navigation` |
| MainNavItem.LinkRowAsWritten | blocks/main-nav-item/main-nav-item.js:20-21 | throws exactly when the block has a single row; otherwise the second row's anchor target, or `#` |
| MainNavItem.LinkRow | blocks/main-nav-item/main-nav-item.js:20-21 | never empty; `#` for a single-row block; agrees with the code as written wherever that does not throw |
| MainNavItem.SingleRowThrows | blocks/main-nav-item/main-nav-item.js:20-21 | a block of one row makes the code as written throw, while the corrected link is `#` |
| MainNavItem.HomeLinkFor | blocks/main-nav-item/main-nav-item.js:50-55 | a home link exactly when the link is neither empty nor `#`; it keeps the target and reads `<trigger text> Home` |
| MainNavItem.AltSourceAsWritten | blocks/main-nav-item/main-nav-item.js:73 | throws exactly when the picture is in the row's last cell |
| MainNavItem.AltSource | blocks/main-nav-item/main-nav-item.js:73-78 | the next cell's first paragraph exactly when there is a next cell with a paragraph; agrees with the code as written wherever that does not throw |
| MainNavItem.PictureInLastCellThrows | blocks/main-nav-item/main-nav-item.js:70-73 | a picture in a row's last cell makes the code as written throw, while the corrected cell simply gets no alt text |
| MainNavItem.ListFor | blocks/main-nav-item/main-nav-item.js:85-98 | one item per list item, a category exactly when the item holds a heading |
| MainNavItem.CellAfterMeaning | blocks/main-nav-item/main-nav-item.js:69-101 | a cell is an image cell exactly when it holds a picture and a links cell exactly when it holds a list; its alt is the next cell's first paragraph, trimmed; it loses its own first paragraph exactly when the previous cell holds a picture |
| MainNavItem.DecorateLists | blocks/main-nav-item/main-nav-item.js:83-99 | one decorated list per list of the cell, each item a category exactly when it holds an `h3` |
| MainNavItem.DecorateCells | blocks/main-nav-item/main-nav-item.js:69-101 | the in-order pass over a row's cells, with each picture consuming the next cell's paragraph, yields the cells of `CellsAfter` |
| MainNavItem.CellsAfter | blocks/main-nav-item/main-nav-item.js:67-101 | one decorated cell per cell |
| MainNavItem.KeptColumnsAreRows | blocks/main-nav-item/main-nav-item.js:62-106 | every kept column is the decorated row at its `data-column-index`, and that row has cells |
| MainNavItem.KeptColumnsInOrder | blocks/main-nav-item/main-nav-item.js:63-65 | the `data-column-index` values increase strictly along the columns |
| MainNavItem.KeptColumnsComplete | blocks/main-nav-item/main-nav-item.js:103-105 | every column row with cells is kept |
| MainNavItem.BuildColumns | blocks/main-nav-item/main-nav-item.js:62-106 | the column pass yields exactly the kept columns |
| MainNavItem.Decorate | blocks/main-nav-item/main-nav-item.js:11-113 | nothing for an empty block; otherwise a collapsed trigger with a popup, a hidden panel, the home link and the kept columns, with the corrected `LinkRow` and `AltSource` (see ## Findings): a one-row block, which the code as written fails on, gets `#` as its link |
| TopNav.SomeSegmentMatches | blocks/top-nav/top-nav.js:3-4 | true exactly when some segment is the language code or starts with the code and a hyphen, ignoring case |
| TopNav.SplitAfterSlash | blocks/top-nav/top-nav.js:2-3 | splitting a path after an added leading slash gives one more empty segment at the front and nothing else |
| TopNav.PathnameSegmentMatchesIgnoresSlash | blocks/top-nav/top-nav.js:1-5 | `PathnameSegmentMatches` (`pathnameSegmentMatches`): adding the missing leading slash never changes whether a path matches, since the non-empty segments are the same |
| TopNav.NormalizeLang | blocks/top-nav/top-nav.js:16 | the lower-cased language up to its first hyphen, and it holds no hyphen |
| TopNav.UrlMatchesLangMeaning | blocks/top-nav/top-nav.js:14-25 | `UrlMatchesLang` (`urlMatchesLang`): an empty link, language or code never matches; otherwise a link matches exactly when a non-empty segment of its parsed pathname, or of the link itself when it cannot be parsed, names the language code |
| TopNav.ItemFor | blocks/top-nav/top-nav.js:41-87 | no item exactly when the row has neither an anchor nor non-empty text; an item keeps the row's kind, starts visible, and carries an icon exactly for a `link-logo` row with a picture; its content is a link exactly when the row has an anchor, with the anchor's `href` and text, and otherwise the row's trimmed text |
| TopNav.ItemsForAppend | blocks/top-nav/top-nav.js:41-88 | one more row adds its own item, if any, at the end of the list |
| TopNav.BuildItems | blocks/top-nav/top-nav.js:41-88 | the row loop yields the items of the rows in order |
| TopNav.CountLinkIcons | blocks/top-nav/top-nav.js:92-93 | the number of `link-icon` items |
| TopNav.HideCurrentLanguage | blocks/top-nav/top-nav.js:94-99 | each `link-icon` item whose link, resolved against the page, matches the document language is hidden, and every other item is left as it was |
| TopNav.Decorate | blocks/top-nav/top-nav.js:36-105 | the items of the rows, where an item is hidden exactly when there is more than one `link-icon` item, it is one, and its link, resolved against the page, matches the document language |
| TopNav.EmptyHrefFollowsPage | blocks/top-nav/top-nav.js:53-97 | a `link-icon` row whose anchor has no `href` yields an item whose link resolves to the page's own URL, so it is hidden exactly when the page's URL names the document language |
| TopNav.ItemsNeverHidden | blocks/top-nav/top-nav.js:41-88 | no item is hidden before the language pass |
| SocialIcons.LinksForAppend | blocks/social-icons/social-icons.js:36-80 | one more row adds its link at the end exactly when it has three cells or more |
| SocialIcons.LinksFromRows | blocks/social-icons/social-icons.js:36-80 | every link comes from a row of at least three cells; never more links than rows, and exactly as many when every row has three cells or more |
| SocialIcons.BuildList | blocks/social-icons/social-icons.js:36-80 | the row loop yields the links of the rows in order |
| SocialIcons.RemoveFirst | blocks/social-icons/social-icons.js:124 | the string itself when the pattern is absent; otherwise one occurrence of the pattern shorter, and putting the pattern back at its first position gives the string again |
| SocialIcons.PlatformRoundTrip | blocks/social-icons/social-icons.js:62-124 | the platform read back from a link's `icon-` class is the platform the link was built with |
| SocialIcons.LinkForPlatform | blocks/social-icons/social-icons.js:40-75 | the link `LinkFor` builds from a row carries the trimmed, lower-cased platform, which its class gives back and its label ends with; its target is the anchor's, else `#`; it has no icon exactly when the icon cell has neither picture nor image |
| SocialIcons.ShareUrl | blocks/social-icons/social-icons.js:132-148 | the Facebook sharer URL, the Twitter intent URL with page URL and title, the LINE share URL, or the link's own target for any other platform |
| SocialIcons.LinkClickAsWritten | blocks/social-icons/social-icons.js:123-158 | a window on the share URL exactly when that URL, computed from the resolved target, is neither empty nor `#` |
| SocialIcons.LinkClick | blocks/social-icons/social-icons.js:123-158 | no window for a placeholder link of an unrecognised platform; never a window on an empty URL or `#`; agrees with the code as written for every link that is not a placeholder |
| SocialIcons.PlaceholderLinkOpensWindow | blocks/social-icons/social-icons.js:50-150 | a row of an unrecognised platform without an anchor opens a window on the page itself as written, and none when corrected |
| SocialIcons.SocialShare.constructor | blocks/social-icons/social-icons.js:9-10 | the container starts collapsed |
| SocialIcons.SocialShare.Click | blocks/social-icons/social-icons.js:100-158 | a share-link click leaves the container as it is and opens the window the corrected `LinkClick` gives (none for a `#` placeholder, see ## Findings); any other click toggles the container and opens nothing |
| SocialIcons.SocialShare.Keydown | blocks/social-icons/social-icons.js:162-166 | Escape collapses the container; other keys leave it as it is |

## Left out

- Fragment and page loading (`loadFragment`, `getMetadata`, `loadHeader`/`loadFooter`, `loadEager`/`loadLazy`/`loadDelayed`, fonts, `sessionStorage`): asynchronous I/O. A header without a fragment and the `breadcrumbs` metadata value are inputs.
- Layout geometry (`getBoundingClientRect`, `offsetHeight`, `offsetWidth`, `scrollY`, `innerWidth`, `matchMedia`): values supplied by the browser. They are parameters here.
- Timers: the header's delayed top-nav measurement, the social-icons 100 ms listener delay and the carousel's resize debounce. Only the handlers' effects are modelled, as direct calls.
- `new URL`, `encodeURIComponent`, `window.open` and `document.baseURI`: browser library calls. They are parameters, or the value a call would receive.
- `createOptimizedPicture`, `createElementFromHTML`, `createAccordionItem`, `fetchLanguagePlaceholders` and `attachTestId` are not part of this model. Their results are known only by the fields the modelled code reads.
- The HTML-string templating of carousel cards (blocks/carousel/carousel.js:27-107): markup building. Only the card's content and link decisions are modelled.
- Nested DOM trees, node cloning and `querySelector` over descendants: a cell is modelled by the child elements or the facts the code queries. Moving a node into a new parent is modelled as the parent holding it.
- Focus: the one `focus()` call (blocks/login/login.js:248, after Escape) is modelled as `LoginPanel.LoginPanels.focused`. Focus that the browser moves by itself (tabbing, clicks) is not modelled.
- Event propagation: `preventDefault` and `stopPropagation` appear only as the routing that decides which handler sees a click. Listener registration is not modelled.
- The header chooses the desktop or the mobile layout once, at decoration time. There is no rebuild when the breakpoint is crossed, so none is modelled.
- The social-icons removal of an earlier `.social-share` in the parent (blocks/social-icons/social-icons.js:91-95) and the move of the social icons below the breadcrumb (scripts/scripts.js:200-214, blocks/breadcrumb/breadcrumb.js:60-77): DOM relocation with no state of its own.
- The `fs` reads and writes and the log line in the `main` of scripts/inject-model-fields.js (lines 2-11, 30-35, 53-54): file I/O. The parsed configuration and component models are inputs, and the written file is the models' final state.
- scripts/animation.js, the warning card, the importer scripts and the thin fixed-markup blocks (brand logo, location, search, hero, hero banner, menu cards, content-insert cards) are not part of this model. They are Web Animations API timing, date parsing, foreign-site scraping, or markup with a default or two.
- Letter case is ASCII only: `toLowerCase` and `toUpperCase` change ASCII letters only. `trim` removes ASCII white space, the no-break space (U+00A0) and the byte-order mark (U+FEFF), but not the other Unicode space separators or line terminators (U+1680, U+2000-U+200A, U+2028, U+2029, U+202F, U+205F, U+3000).
- `console.warn` and `console.log` output: logging only.
- Header.BuildMobileLayout: the mobile nav-item builder (blocks/header/header.js:189-192, 215, 228, 232) throws when a main-nav block lacks `.main-nav-trigger` or `.main-nav-item-wrapper`, or a column lacks `.megamenu-link-list`. That error path is not modelled: every main-nav block is assumed to have been decorated by its own block, which creates all three.
- Header.NestedItemFor: the nested item is modelled by what it holds (the trigger and the `.megamenu-column-links` cells). The back buttons it adds (blocks/header/header.js:196-203, 217-224) and its click listeners (lines 205-207, 226-233, 240-242) are not modelled; they only toggle `active` classes.
- The `moveInstrumentation(cardElement, card)` call in blocks/carousel/carousel.js:250 and the `moveInstrumentation(row, slide)` call in blocks/carousel-dotted/carousel-dotted.js:26 are not modelled per call. They copy authoring attributes only; attribute moving is modelled once, by `Scripts.MoveInstrumentation`.
- TopNav: the page URL an empty `href` resolves to, and URL resolution in general, are the `resolve` parameter (the link's `href` property); nothing of URL parsing beyond `pathname` is modelled.
- MainNavItem.AltSource: `cell.querySelector('img').alt` (blocks/main-nav-item/main-nav-item.js:76) throws for a picture holding no `img`. That error path is not modelled: a picture is assumed to hold an image.
- InjectModelFields.InjectModel: the `Set` of injected names compares by SameValueZero. Here that is the equality of the modelled JSON values.
- InjectModelFields.MapField: a rename map given as `null` is not modelled. Destructuring defaults apply only to `undefined`, so a `null` map makes the code as written throw.
- BblDecorators.DecorateButtonsV1: an anchor directly under the document root, whose grandparent is `null`, is not modelled. Every modelled anchor has a parent and a grandparent.
- Cards.Decorate: the `picture > img` optimisation pass (blocks/cards/cards.js:68-72) is not modelled. It replaces images with optimised copies and changes no structure the contract speaks about.
- The story card's thumbnail (blocks/story-card/story-card.js:78-91) is modelled as its source and alt text. The optimised picture and the `moveInstrumentation` call on it are not modelled; attribute moving is modelled once, by `Scripts.MoveInstrumentation`.
- Login: blocks/login/login.js has its own copies of `openPanel`, `closePanel` and `closeOtherLoginPanels` (lines 166-220). They are modelled once, by `LoginPanel.LoginPanels`.

## Findings

| source | as written | input that shows it | evidently intended | confidence | as-written member | corrected member |
|---|---|---|---|---|---|---|
| blocks/main-nav-item/main-nav-item.js:20-21 | `rows[1].querySelector('a')` reads the second row without checking that it exists | a main-nav-item block with a single row: `rows[1]` is `undefined` and the call throws a `TypeError`, so the block is left undecorated | a missing link row falls back to `#`, like a link row without an anchor | high (not executed) | MainNavItem.LinkRowAsWritten, MainNavItem.SingleRowThrows | MainNavItem.LinkRow |
| blocks/main-nav-item/main-nav-item.js:70-73 | a picture cell reads `cells[cellIndex + 1].querySelector('p')` without checking that a next cell exists | a column row whose last cell holds a picture: `cells[cellIndex + 1]` is `undefined` and the call throws | a picture without a following cell gets no alt text | high (not executed) | MainNavItem.AltSourceAsWritten, MainNavItem.PictureInLastCellThrows | MainNavItem.AltSource |
| blocks/social-icons/social-icons.js:147-150 | the fallback share URL is `link.href`, the resolved URL, and the guard compares it with `'#'` | a row for an unrecognised platform whose third cell has no anchor: the link's attribute is `#`, its resolved `href` is the page URL with an empty fragment, and a share window opens on the page itself | a placeholder link (`#`) opens no window | medium (not executed) | SocialIcons.LinkClickAsWritten, SocialIcons.PlaceholderLinkOpensWindow | SocialIcons.LinkClick |
| scripts/inject-model-fields.js:15-16 | `nameMap[next.name]` and `labelMap[next.label]` look up inherited members of `Object.prototype` as well as the map's own entries | a field named `constructor` mapped for a target without a `nameMap`: the default `{}` yields `Object`, a function that is truthy, so the field's name becomes a function and the JSON written leaves it out | only the map's own entries rename a field | medium (not executed) | InjectModelFields.MapFieldAsWritten, InjectModelFields.PrototypeNameReplaced | InjectModelFields.MapField |

=== FILE: accordion.dfy ===
/** The accordion block (blocks/accordion/accordion.js): the authored rows
    (heading type, expand-first flag, an ignored row, then the items), the
    expand-all button that flips every item at once, and the item named by
    the page's URL fragment opened on load.

    Each item is built by `createAccordionItem`, which is not part of this
    model: an item is known here by whether it has a button and a panel, and
    by its `active` class, its button's `aria-expanded` and its panel's
    `aria-hidden`. */
module Accordion {
  import opened Wrappers
  import opened Text

  // ---------------------------------------------------------------------
  // Layout of the authored rows
  // ---------------------------------------------------------------------

  /** What `createAccordionItem` is asked to build for one item row: the
      row (by its position among the block's rows), whether it starts
      expanded, its id and the heading type. */
  datatype ItemRequest = ItemRequest(row: nat, expanded: bool, id: string, headingType: Option<string>)

  /** The decorated block: the expand-all button, when present, and the items. */
  datatype Layout = Layout(expandAllButton: bool, items: seq<ItemRequest>)

  /** `acc-<index>`. */
  function ItemId(idx: nat): string {
    "acc-" + NatToString(idx)
  }

  /** The label the expand-all button shows: the collapse label while every
      item is expanded, the expand label otherwise; a label missing from the
      placeholders renders as empty text. */
  function GetLabel(isAllExpanded: bool, placeholder: map<string, string>): (r: string)
    ensures isAllExpanded && "accordionCollapseAll" in placeholder ==> r == placeholder["accordionCollapseAll"]
    ensures !isAllExpanded && "accordionExpandAll" in placeholder ==> r == placeholder["accordionExpandAll"]
    ensures ((isAllExpanded && "accordionCollapseAll" !in placeholder)
             || (!isAllExpanded && "accordionExpandAll" !in placeholder)) ==> r == ""
  {
    var key := if isAllExpanded then "accordionCollapseAll" else "accordionExpandAll";
    if key in placeholder then placeholder[key] else ""
  }

  /** `decorate`, for what it builds from the rows (`rows` are the rows'
      text contents): nothing when the placeholders are missing or empty;
      otherwise the first row gives the heading type, only the first item
      starts expanded and only when the second row's trimmed text is exactly
      `true`, the third row is dropped, and the expand-all button exists only
      when there are items. */
  function Decorate(rows: seq<string>, placeholder: Option<map<string, string>>): (r: Option<Layout>)
    ensures r.None? <==> placeholder.None? || |placeholder.value| == 0
    ensures r.Some? ==> |r.value.items| == (if |rows| > 3 then |rows| - 3 else 0)
    ensures r.Some? ==> (r.value.expandAllButton <==> |rows| > 3)
    ensures r.Some? ==> forall k | 0 <= k < |r.value.items| ::
      && r.value.items[k].row == k + 3
      && r.value.items[k].id == ItemId(k)
      && (r.value.items[k].expanded <==> k == 0 && Trim(rows[1]) == "true")
      && r.value.items[k].headingType == Some(Trim(rows[0]))
  {
    if placeholder.None? || |placeholder.value| == 0 then None
    else
      var headingType := if |rows| > 0 then Some(Trim(rows[0])) else None;
      var expandFirst := |rows| > 1 && Trim(rows[1]) == "true";
      var n := if |rows| > 3 then |rows| - 3 else 0;
      var items := seq(n, idx requires 0 <= idx => ItemRequest(idx + 3, expandFirst && idx == 0, ItemId(idx), headingType));
      Some(Layout(n > 0, items))
  }

  /** The items' ids are pairwise distinct. */
  lemma ItemIdsDistinct(rows: seq<string>, placeholder: Option<map<string, string>>)
    requires Decorate(rows, placeholder).Some?
    ensures var items := Decorate(rows, placeholder).value.items;
      forall j, k | 0 <= j < k < |items| :: items[j].id != items[k].id
  {
    var items := Decorate(rows, placeholder).value.items;
    forall j, k | 0 <= j < k < |items|
      ensures items[j].id != items[k].id
    {
      NatToStringInjective(j, k);
      assert items[j].id[4..] == NatToString(j);
      assert items[k].id[4..] == NatToString(k);
    }
  }

  // ---------------------------------------------------------------------
  // The live block
  // ---------------------------------------------------------------------

  /** The element the URL fragment names, by `document.getElementById`. */
  datatype HashTarget =
    | NoElement
    | OtherElement                       // not an `.accordion-button`
    | AccordionButton(item: Option<nat>) // its enclosing `.accordion-item`, if any

  class AccordionBlock {
    /** Whether each item has its `.accordion-button` and its `.accordion-panel`. */
    const hasButton: seq<bool>
    const hasPanel: seq<bool>
    const placeholder: map<string, string>
    /** The closure flag `isAllExpanded`. */
    var isAllExpanded: bool
    /** The expand-all button's `aria-expanded` and text, and the block's
        `data-expand-all-active`. */
    var allButtonExpanded: bool
    var buttonText: string
    var expandAllActive: bool
    /** Each item's `active`, its panel's `aria-hidden` and its button's
        `aria-expanded` (meaningful only where the item has them). */
    var active: seq<bool>
    var panelHidden: seq<bool>
    var buttonExpanded: seq<bool>

    ghost predicate Valid()
      reads this
    {
      && |hasPanel| == |hasButton| && |active| == |hasButton|
      && |panelHidden| == |hasButton| && |buttonExpanded| == |hasButton|
    }

    /** The items in agreement with one flag: every item `active` exactly
        when it is set, every panel hidden exactly when it is not, every
        present button expanded exactly when it is set. */
    ghost predicate AllAre(flag: bool)
      reads this
      requires Valid()
    {
      forall i | 0 <= i < |hasButton| ::
        && active[i] == flag
        && (hasPanel[i] ==> panelHidden[i] == !flag)
        && (hasButton[i] ==> buttonExpanded[i] == flag)
    }

    /** The block after `decorate`: expand-all off with its expand label,
        and only the first item open when it was asked to start expanded. */
    constructor (hasButton: seq<bool>, hasPanel: seq<bool>, expandFirst: bool, placeholder: map<string, string>)
      requires |hasPanel| == |hasButton|
      ensures Valid() && this.hasButton == hasButton && this.hasPanel == hasPanel && this.placeholder == placeholder
      ensures !isAllExpanded && !allButtonExpanded && !expandAllActive && buttonText == GetLabel(false, placeholder)
      ensures forall i | 0 <= i < |hasButton| ::
        active[i] == (expandFirst && i == 0) && panelHidden[i] == !active[i] && buttonExpanded[i] == active[i]
    {
      this.hasButton := hasButton;
      this.hasPanel := hasPanel;
      this.placeholder := placeholder;
      isAllExpanded := false;
      allButtonExpanded := false;
      expandAllActive := false;
      buttonText := GetLabel(false, placeholder);
      var initial := seq(|hasButton|, i => expandFirst && i == 0);
      active := initial;
      panelHidden := seq(|hasButton|, i requires 0 <= i < |hasButton| => !initial[i]);
      buttonExpanded := initial;
    }

    /** `toggleAccordion(flag)`: item by item, sets `active`, then the
        panel's `aria-hidden`, then the button's `aria-expanded` when there is
        a button. An item without a panel throws after its `active` is set:
        the items after it are left as they were and `thrown` is true. */
    method ToggleAccordion(flag: bool) returns (thrown: bool)
      requires Valid()
      modifies this
      ensures Valid()
      ensures isAllExpanded == old(isAllExpanded) && allButtonExpanded == old(allButtonExpanded)
      ensures buttonText == old(buttonText) && expandAllActive == old(expandAllActive)
      ensures thrown <==> exists i | 0 <= i < |hasPanel| :: !hasPanel[i]
      ensures !thrown ==> AllAre(flag)
      ensures thrown ==> exists m | 0 <= m < |hasPanel| ::
        && !hasPanel[m] && (forall i | 0 <= i < m :: hasPanel[i])
        && (forall i | 0 <= i < m ::
              active[i] == flag && panelHidden[i] == !flag
              && buttonExpanded[i] == (if hasButton[i] then flag else old(buttonExpanded[i])))
        && active[m] == flag && panelHidden[m] == old(panelHidden[m]) && buttonExpanded[m] == old(buttonExpanded[m])
        && (forall i | m < i < |hasPanel| ::
              active[i] == old(active[i]) && panelHidden[i] == old(panelHidden[i])
              && buttonExpanded[i] == old(buttonExpanded[i]))
    {
      thrown := false;
      var i := 0;
      while i < |hasButton|
        invariant 0 <= i <= |hasButton| && Valid()
        invariant isAllExpanded == old(isAllExpanded) && allButtonExpanded == old(allButtonExpanded)
        invariant buttonText == old(buttonText) && expandAllActive == old(expandAllActive)
        invariant forall j | 0 <= j < i :: hasPanel[j]
        invariant forall j | 0 <= j < i ::
          active[j] == flag && panelHidden[j] == !flag
          && buttonExpanded[j] == (if hasButton[j] then flag else old(buttonExpanded[j]))
        invariant forall j | i <= j < |hasButton| ::
          active[j] == old(active[j]) && panelHidden[j] == old(panelHidden[j])
          && buttonExpanded[j] == old(buttonExpanded[j])
      {
        active := active[i := flag];
        if !hasPanel[i] {
          return true;
        }
        panelHidden := panelHidden[i := !flag];
        if hasButton[i] {
          buttonExpanded := buttonExpanded[i := flag];
        }
        i := i + 1;
      }
    }

    /** A click on the expand-all button: flips `isAllExpanded`, mirrors it
        on the button and the block, applies it to every item and relabels
        the button; when an item lacks its panel the handler stops before
        relabelling. */
    method ExpandAllClick()
      requires Valid()
      modifies this
      ensures Valid()
      ensures isAllExpanded == !old(isAllExpanded)
      ensures allButtonExpanded == isAllExpanded && expandAllActive == isAllExpanded
      ensures (forall i | 0 <= i < |hasPanel| :: hasPanel[i]) ==>
        AllAre(isAllExpanded) && buttonText == GetLabel(isAllExpanded, placeholder)
      ensures (exists i | 0 <= i < |hasPanel| :: !hasPanel[i]) ==> buttonText == old(buttonText)
    {
      isAllExpanded := !isAllExpanded;
      allButtonExpanded := isAllExpanded;
      expandAllActive := isAllExpanded;
      var thrown := ToggleAccordion(isAllExpanded);
      if thrown {
        return;
      }
      buttonText := GetLabel(isAllExpanded, placeholder);
    }

    /** `activateAccordionFromHash`: opens the item whose button the URL
        fragment names, provided the fragment is not empty or a bare `#`, the
        element exists, is an `.accordion-button`, sits in an item and that
        item has a panel; otherwise nothing changes. */
    method ActivateFromHash(hash: string, target: HashTarget)
      requires Valid()
      requires target.AccordionButton? && target.item.Some? ==> target.item.value < |hasButton|
      modifies this
      ensures Valid()
      ensures (hash != "" && hash[1..] != "" && target.AccordionButton? && target.item.Some?
               && hasPanel[target.item.value]) ==>
        var k := target.item.value;
        && active == old(active)[k := true]
        && buttonExpanded == old(buttonExpanded)[k := true]
        && panelHidden == old(panelHidden)[k := false]
        && isAllExpanded == old(isAllExpanded) && buttonText == old(buttonText)
      ensures (!(hash != "" && hash[1..] != "" && target.AccordionButton? && target.item.Some?
                 && hasPanel[target.item.value])) ==> unchanged(this)
    {
      if hash == "" {
        return;
      }
      var id := hash[1..];
      if id == "" {
        return;
      }
      if !target.AccordionButton? || target.item.None? {
        return;
      }
      var k := target.item.value;
      if !hasPanel[k] {
        return;
      }
      active := active[k := true];
      buttonExpanded := buttonExpanded[k := true];
      panelHidden := panelHidden[k := false];
    }
  }

  /** With every panel present, two expand-all clicks bring the flag, the
      button and its label back, and leave every item collapsed. */
  method ExpandAllTwice(b: AccordionBlock)
    requires b.Valid() && forall i | 0 <= i < |b.hasPanel| :: b.hasPanel[i]
    requires !b.isAllExpanded
    modifies b
    ensures b.Valid() && b.isAllExpanded == old(b.isAllExpanded)
    ensures b.buttonText == GetLabel(false, b.placeholder) && b.AllAre(false)
  {
    b.ExpandAllClick();
    assert b.AllAre(true);
    b.ExpandAllClick();
  }
}

=== FILE: bbl_decorators.dfy ===
/** The link and icon decorators of scripts/bbl-decorators.js: anchors that
    stand alone in a paragraph become buttons, bare `button` anchors become
    tertiary buttons, and icon images whose name carries `-alt_-` get their
    own file and alt text from that name. */
module BblDecorators {
  import opened Wrappers
  import opened Text

  // ---------------------------------------------------------------------
  // decorateButtonsV1
  // ---------------------------------------------------------------------

  /** An element around an anchor: its tag, how many child nodes it has,
      and its class list. */
  class Node {
    const tag: string
    const childCount: nat
    var classes: set<string>

    constructor (tag: string, childCount: nat, classes: set<string>)
      ensures this.tag == tag && this.childCount == childCount && this.classes == classes
    {
      this.tag := tag;
      this.childCount := childCount;
      this.classes := classes;
    }
  }

  /** An anchor: its `title` and `className`, which the decorators assign;
      its text, its resolved `href`, whether it holds an `img`, and its
      parent and grandparent. */
  class Anchor {
    var title: string
    var className: string
    const text: string
    const href: string
    const hasImg: bool
    const up: Node
    const twoup: Node

    constructor (title: string, className: string, text: string, href: string, hasImg: bool, up: Node, twoup: Node)
      ensures this.title == title && this.className == className && this.text == text && this.href == href
      ensures this.hasImg == hasImg && this.up == up && this.twoup == twoup
    {
      this.title := title;
      this.className := className;
      this.text := text;
      this.href := href;
      this.hasImg := hasImg;
      this.up := up;
      this.twoup := twoup;
    }
  }

  /** What an anchor's surroundings say about it. */
  datatype Context = Context(text: string, href: string, hasImg: bool,
                             upTag: string, upChildren: nat, twoupTag: string, twoupChildren: nat)

  function ContextOf(a: Anchor): Context {
    Context(a.text, a.href, a.hasImg, a.up.tag, a.up.childCount, a.twoup.tag, a.twoup.childCount)
  }

  datatype Role = Primary | Secondary | Tertiary

  /** The button an anchor becomes, if any: primary as the only child of a
      `STRONG` that is the only child of a `P`, secondary the same with
      `EM`, tertiary as the only child of a `P` or `DIV`; never an anchor
      whose text is its own URL or that holds an image. */
  function RoleOf(c: Context): (r: Option<Role>)
    ensures r.Some? ==> c.href != c.text && !c.hasImg && c.upChildren == 1
    ensures r == Some(Primary) <==>
      c.href != c.text && !c.hasImg && c.upChildren == 1 && c.upTag == "STRONG" && c.twoupChildren == 1 && c.twoupTag == "P"
    ensures r == Some(Secondary) <==>
      c.href != c.text && !c.hasImg && c.upChildren == 1 && c.upTag == "EM" && c.twoupChildren == 1 && c.twoupTag == "P"
    ensures r == Some(Tertiary) <==>
      c.href != c.text && !c.hasImg && c.upChildren == 1 && (c.upTag == "P" || c.upTag == "DIV")
  {
    if c.href == c.text || c.hasImg then None
    else if c.upChildren == 1 && c.upTag == "STRONG" && c.twoupChildren == 1 && c.twoupTag == "P" then Some(Primary)
    else if c.upChildren == 1 && c.upTag == "EM" && c.twoupChildren == 1 && c.twoupTag == "P" then Some(Secondary)
    else if c.upChildren == 1 && (c.upTag == "P" || c.upTag == "DIV") then Some(Tertiary)
    else None
  }

  function ClassFor(role: Role): string {
    match role
    case Primary => "button primary"
    case Secondary => "button secondary"
    case Tertiary => "button-tertiary"
  }

  /** An anchor's class after the decorator: the role's class, or the class
      it had. */
  function ClassAfter(role: Option<Role>, before: string): string {
    if role.Some? then ClassFor(role.value) else before
  }

  /** The element that gets `button-container`: the grandparent for primary
      and secondary buttons, the parent for tertiary ones. */
  function ContainerOf(a: Anchor): (r: Option<Node>)
    ensures r.Some? <==> RoleOf(ContextOf(a)).Some?
    ensures r.Some? ==> r.value == (if RoleOf(ContextOf(a)) == Some(Tertiary) then a.up else a.twoup)
  {
    match RoleOf(ContextOf(a))
    case Some(Tertiary) => Some(a.up)
    case Some(_) => Some(a.twoup)
    case None => None
  }

  /** Whether one of the anchors makes `n` a button container. */
  predicate Marked(n: Node, anchors: seq<Anchor>) {
    exists k | 0 <= k < |anchors| :: ContainerOf(anchors[k]) == Some(n)
  }

  function Anchors(anchors: seq<Anchor>): set<Anchor> {
    set a | a in anchors
  }

  /** The container an anchor marks, as a set of at most one node. */
  function ContainerSet(a: Anchor): set<Node> {
    if ContainerOf(a).Some? then {ContainerOf(a).value} else {}
  }

  /** The containers the first `i` anchors mark. */
  function ContainersUpTo(anchors: seq<Anchor>, i: nat): set<Node>
    requires i <= |anchors|
  {
    if i == 0 then {} else ContainersUpTo(anchors, i - 1) + ContainerSet(anchors[i - 1])
  }

  /** The gathered containers are exactly the nodes the first `i` anchors mark. */
  lemma {:induction false} ContainersMarked(anchors: seq<Anchor>, i: nat, n: Node)
    requires i <= |anchors|
    ensures n in ContainersUpTo(anchors, i) <==> exists k | 0 <= k < i :: ContainerOf(anchors[k]) == Some(n)
  {
    if i > 0 {
      ContainersMarked(anchors, i - 1, n);
    }
  }

  /** A class list, with `button-container` added when `b` holds. */
  function WithContainer(classes: set<string>, b: bool): set<string> {
    if b then classes + {"button-container"} else classes
  }

  /** Adding `button-container` twice is adding it once. */
  lemma WithContainerTwice(classes: set<string>, b: bool, c: bool)
    ensures WithContainer(WithContainer(classes, b), c) == WithContainer(classes, b || c)
  {
    if b && c {
      assert classes + {"button-container"} + {"button-container"} == classes + {"button-container"};
    }
  }

  /** The body of the `forEach` for one anchor. */
  method DecorateAnchor(a: Anchor)
    modifies a, a.up, a.twoup
    ensures a.title == OrElse(old(a.title), a.text)
    ensures a.className == ClassAfter(RoleOf(ContextOf(a)), old(a.className))
    ensures forall n | n in {a.up, a.twoup} :: n.classes == WithContainer(old(n.classes), ContainerOf(a) == Some(n))
  {
    a.title := OrElse(a.title, a.text);
    if a.href != a.text {
      var up := a.up;
      var twoup := a.twoup;
      if !a.hasImg {
        if up.childCount == 1 && up.tag == "STRONG" && twoup.childCount == 1 && twoup.tag == "P" {
          a.className := "button primary";
          twoup.classes := twoup.classes + {"button-container"};
        }
        if up.childCount == 1 && up.tag == "EM" && twoup.childCount == 1 && twoup.tag == "P" {
          a.className := "button secondary";
          twoup.classes := twoup.classes + {"button-container"};
        }
        if up.childCount == 1 && (up.tag == "P" || up.tag == "DIV") {
          a.className := "button-tertiary";
          up.classes := up.classes + {"button-container"};
        }
      }
    }
  }

  /** One anchor's turn in `decorateButtonsV1`, seen from the nodes: each
      node's classes are its classes at the start (`classes0`) with
      `button-container` added exactly for the containers marked so far. */
  method DecorateAnchorStep(a: Anchor, ghost nodes: set<Node>, ghost classes0: map<Node, set<string>>, ghost containers: set<Node>)
    requires a.up in nodes && a.twoup in nodes
    requires forall n | n in nodes :: n in classes0 && n.classes == WithContainer(classes0[n], n in containers)
    modifies a, a.up, a.twoup
    ensures a.title == OrElse(old(a.title), a.text)
    ensures a.className == ClassAfter(RoleOf(ContextOf(a)), old(a.className))
    ensures forall n | n in nodes :: n.classes == WithContainer(classes0[n], n in containers + ContainerSet(a))
  {
    DecorateAnchor(a);
    forall n | n in nodes
      ensures n.classes == WithContainer(classes0[n], n in containers + ContainerSet(a))
    {
      WithContainerTwice(classes0[n], n in containers, ContainerOf(a) == Some(n));
    }
  }

  /** `decorateButtonsV1`: every anchor gets a title (its text when it had
      none) and the class of its role; of the page's `elements`, which hold
      every anchor's parent and grandparent, exactly the containers of the
      anchors with a role gain `button-container`, and no other changes. */
  method DecorateButtonsV1(anchors: seq<Anchor>, elements: set<Node>)
    requires forall i, j | 0 <= i < j < |anchors| :: anchors[i] != anchors[j]
    requires forall k | 0 <= k < |anchors| :: anchors[k].up in elements && anchors[k].twoup in elements
    modifies Anchors(anchors), elements
    ensures forall a | a in anchors :: a.title == OrElse(old(a.title), a.text)
    ensures forall a | a in anchors :: a.className == ClassAfter(RoleOf(ContextOf(a)), old(a.className))
    ensures forall n | n in elements :: n.classes == WithContainer(old(n.classes), Marked(n, anchors))
  {
    ghost var classes0 := map n | n in elements :: n.classes;
    ghost var containers: set<Node> := {};
    for i := 0 to |anchors|
      invariant forall k | 0 <= k < i ::
        && anchors[k].title == OrElse(old(anchors[k].title), anchors[k].text)
        && anchors[k].className == ClassAfter(RoleOf(ContextOf(anchors[k])), old(anchors[k].className))
      invariant forall k | i <= k < |anchors| ::
        anchors[k].title == old(anchors[k].title) && anchors[k].className == old(anchors[k].className)
      invariant containers == ContainersUpTo(anchors, i)
      invariant forall n | n in elements :: n.classes == WithContainer(classes0[n], n in containers)
    {
      var a := anchors[i];
      assert forall k | 0 <= k < |anchors| && k != i :: anchors[k] != a;
      DecorateAnchorStep(a, elements, classes0, containers);
      containers := containers + ContainerSet(a);
    }
    forall n | n in elements ensures n.classes == WithContainer(old(n.classes), Marked(n, anchors)) {
      ContainersMarked(anchors, |anchors|, n);
    }
  }

  // ---------------------------------------------------------------------
  // decorateTerritoryButtons
  // ---------------------------------------------------------------------

  /** The white space that separates class names. */
  const ClassSeparators: set<char> := {' ', '\t', '\n', '\U{000C}', '\r'}

  /** The class names of a `class` attribute. */
  function ClassTokens(c: string): seq<string> {
    NonEmpty(SplitOn(ReplaceChars(c, ClassSeparators, ' '), " "))
  }

  /** `a.button:not([class*=" "])`: the class list holds `button` and the
      attribute holds no space. */
  predicate TerritorySelected(c: string) {
    "button" in ClassTokens(c) && ' ' !in c
  }

  lemma NoSeparatorSingleToken(c: string)
    requires forall i | 0 <= i < |c| :: c[i] !in ClassSeparators
    ensures c != "" ==> ClassTokens(c) == [c]
    ensures c == "" ==> ClassTokens(c) == []
  {
    var t := ReplaceChars(c, ClassSeparators, ' ');
    assert t == c;
    forall k | 0 <= k ensures !OccursAt(c, " ", k) {
      if k + 1 <= |c| {
        assert c[k..k + 1][0] == c[k];
      }
    }
  }

  /** For a class attribute without white space the selector picks exactly
      the anchors whose class is `button`. */
  lemma TerritoryExact(c: string)
    requires forall i | 0 <= i < |c| :: c[i] !in ClassSeparators
    ensures TerritorySelected(c) <==> c == "button"
  {
    NoSeparatorSingleToken(c);
  }

  /** No class `decorateButtonsV1` assigns is picked up by
      `decorateTerritoryButtons`, nor is the class it assigns itself: the
      two decorators never undo each other, and running the territory pass
      again changes nothing. */
  lemma TerritoryLeavesDecorated(role: Role)
    ensures !TerritorySelected(ClassFor(role))
  {
    if role == Tertiary {
      var c := ClassFor(role);
      forall i | 0 <= i < |c| ensures c[i] !in ClassSeparators {
      }
      TerritoryExact(c);
    } else {
      assert ClassFor(role)[6] == ' ';
    }
  }

  /** `decorateTerritoryButtons`. */
  method DecorateTerritoryButtons(anchors: seq<Anchor>)
    requires forall i, j | 0 <= i < j < |anchors| :: anchors[i] != anchors[j]
    modifies Anchors(anchors)
    ensures forall a | a in anchors ::
      a.className == (if TerritorySelected(old(a.className)) then "button-tertiary" else old(a.className))
    ensures forall a | a in anchors :: a.title == old(a.title)
  {
    for i := 0 to |anchors|
      invariant forall k | 0 <= k < i ::
        anchors[k].className == (if TerritorySelected(old(anchors[k].className)) then "button-tertiary" else old(anchors[k].className))
      invariant forall k | i <= k < |anchors| :: anchors[k].className == old(anchors[k].className)
      invariant forall a | a in anchors :: a.title == old(a.title)
    {
      var a := anchors[i];
      assert forall k | 0 <= k < |anchors| && k != i :: anchors[k] != a;
      if TerritorySelected(a.className) {
        a.className := "button-tertiary";
      }
    }
  }

  // ---------------------------------------------------------------------
  // decorateSvgWithAltText
  // ---------------------------------------------------------------------

  const AltSeparator: string := "-alt_-"

  /** An image: whether it sits in a `span.icon`, its `src` and `alt`
      attributes, and its `data-icon-name`. */
  class Img {
    const inIconSpan: bool
    const iconName: Option<string>
    var src: Option<string>
    var alt: Option<string>

    constructor (inIconSpan: bool, iconName: Option<string>, src: Option<string>, alt: Option<string>)
      ensures this.inIconSpan == inIconSpan && this.iconName == iconName && this.src == src && this.alt == alt
    {
      this.inIconSpan := inIconSpan;
      this.iconName := iconName;
      this.src := src;
      this.alt := alt;
    }
  }

  /** `span.icon img[src$=".svg"]`. */
  predicate SvgSelected(inIconSpan: bool, src: Option<string>) {
    inIconSpan && src.Some? && EndsWith(src.value, ".svg")
  }

  /** The icon name names an alternative text. */
  predicate HasAltText(iconName: Option<string>) {
    iconName.Some? && Contains(iconName.value, AltSeparator)
  }

  /** The first two pieces of `iconName.split('-alt_-')`. */
  function IconParts(name: string): (string, string)
    requires Contains(name, AltSeparator)
  {
    var i := IndexOf(name, AltSeparator);
    var rest := name[i + |AltSeparator|..];
    var j := IndexOf(rest, AltSeparator);
    (name[..i], if j < 0 then rest else rest[..j])
  }

  /** The two parts are the split's first two pieces. */
  lemma IconPartsAreSplit(name: string)
    requires Contains(name, AltSeparator)
    ensures var parts := SplitOn(name, AltSeparator); |parts| >= 2 && IconParts(name) == (parts[0], parts[1])
  {
    var i := IndexOf(name, AltSeparator);
    var rest := name[i + |AltSeparator|..];
    assert SplitOn(name, AltSeparator) == [name[..i]] + SplitOn(rest, AltSeparator);
  }

  /** Neither part holds the separator. */
  lemma IconPartsClean(name: string)
    requires Contains(name, AltSeparator)
    ensures !Contains(IconParts(name).0, AltSeparator) && !Contains(IconParts(name).1, AltSeparator)
  {
    var i := IndexOf(name, AltSeparator);
    var rest := name[i + |AltSeparator|..];
    var j := IndexOf(rest, AltSeparator);
    NoEarlierOccurrence(name, AltSeparator, i);
    if j >= 0 {
      NoEarlierOccurrence(rest, AltSeparator, j);
    } else {
      NoEarlierOccurrence(rest, AltSeparator, |rest|);
      assert rest[..|rest|] == rest;
    }
  }

  /** With the separator between them, the parts make up the start of the name. */
  lemma IconPartsPrefix(name: string)
    requires Contains(name, AltSeparator)
    ensures StartsWith(name, IconParts(name).0 + AltSeparator + IconParts(name).1)
  {
    var i := IndexOf(name, AltSeparator);
    var rest := name[i + |AltSeparator|..];
    var alt := IconParts(name).1;
    assert StartsWith(rest, alt);
    var p := name[..i] + AltSeparator + alt;
    assert name[..i + |AltSeparator|] == name[..i] + AltSeparator;
    assert name[..|p|] == p by {
      assert name[..|p|] == name[..i + |AltSeparator|] + rest[..|alt|];
    }
  }

  /** Neither part holds the separator, and with it between them they
      make up the start of the name (all of it when the separator occurs
      once). */
  lemma IconPartsJoin(name: string)
    requires Contains(name, AltSeparator)
    ensures !Contains(IconParts(name).0, AltSeparator) && !Contains(IconParts(name).1, AltSeparator)
    ensures StartsWith(name, IconParts(name).0 + AltSeparator + IconParts(name).1)
  {
    IconPartsClean(name);
    IconPartsPrefix(name);
  }

  /** Cutting a string before the first occurrence of `p` leaves a string
      without `p`. */
  lemma NoEarlierOccurrence(s: string, p: string, i: int)
    requires |p| > 0
    requires 0 <= i <= |s| && forall k | 0 <= k < i :: !OccursAt(s, p, k)
    ensures !Contains(s[..i], p)
  {
    var t := s[..i];
    var r := IndexOf(t, p);
    if r >= 0 {
      assert OccursAt(t, p, r);
      assert t[r..r + |p|] == s[r..r + |p|];
      assert OccursAt(s, p, r);
      assert false;
    }
  }

  /** The folder of a `src`: up to and including its last `/`, or nothing. */
  function BasePath(src: string): (r: string)
    ensures StartsWith(src, r)
    ensures r == "" || r[|r| - 1] == '/'
    ensures forall k | |r| <= k < |src| :: src[k] != '/'
  {
    src[..LastIndexOfChar(src, '/') + 1]
  }

  /** The new `src`: the same folder, the file named by the part before
      `-alt_-`. */
  function SvgSrc(src: string, srcPart: string): (r: string)
    ensures StartsWith(r, BasePath(src)) && EndsWith(r, ".svg")
    ensures r[|BasePath(src)|..|r| - 4] == srcPart
  {
    BasePath(src) + srcPart + ".svg"
  }

  /** The new alt text: the part after `-alt_-` with underscores and
      hyphens as spaces, trimmed. */
  function SvgAlt(altPart: string): (r: string)
    ensures |r| <= |altPart|
    ensures '_' !in r && '-' !in r
    ensures r == [] || (!IsSpace(r[0]) && !IsSpace(r[|r| - 1]))
  {
    var t := ReplaceChars(altPart, {'_', '-'}, ' ');
    TrimKeepsAbsent(t, '_');
    TrimKeepsAbsent(t, '-');
    Trim(t)
  }

  /** Rewriting again keeps the `src` when the file part has no `/`. */
  lemma SvgSrcIdempotent(src: string, srcPart: string)
    requires '/' !in srcPart
    ensures SvgSrc(SvgSrc(src, srcPart), srcPart) == SvgSrc(src, srcPart)
  {
    var base := BasePath(src);
    var s := SvgSrc(src, srcPart);
    assert s == base + (srcPart + ".svg");
    assert forall k | |base| <= k < |s| :: s[k] != '/' by {
      forall k | |base| <= k < |s| ensures s[k] != '/' {
        if k < |base| + |srcPart| {
          assert s[k] == srcPart[k - |base|];
        }
      }
    }
    var r := LastIndexOfChar(s, '/');
    if base != "" {
      assert s[|base| - 1] == '/';
      assert r == |base| - 1;
    } else {
      assert r < 0;
    }
    assert BasePath(s) == base;
  }

  /** The `src` and `alt` an image has after the decorator: rewritten
      from its name when it is a selected icon whose name names an
      alternative text, as they were otherwise. */
  function SvgUpdate(inIconSpan: bool, iconName: Option<string>, src: Option<string>, alt: Option<string>)
    : (r: (Option<string>, Option<string>))
    ensures !(SvgSelected(inIconSpan, src) && HasAltText(iconName)) ==> r == (src, alt)
    ensures SvgSelected(inIconSpan, src) && HasAltText(iconName) ==>
      && r.0.Some? && r.1.Some?
      && EndsWith(r.0.value, ".svg") && StartsWith(r.0.value, BasePath(src.value))
      && r.0.value[|BasePath(src.value)|..|r.0.value| - 4] == SplitOn(iconName.value, AltSeparator)[0]
      && r.1.value == SvgAlt(SplitOn(iconName.value, AltSeparator)[1])
  {
    if SvgSelected(inIconSpan, src) && HasAltText(iconName) then
      var parts := IconParts(iconName.value);
      IconPartsAreSplit(iconName.value);
      (Some(SvgSrc(src.value, parts.0)), Some(SvgAlt(parts.1)))
    else (src, alt)
  }

  /** A second pass over a rewritten image rewrites it to the same `src`
      and `alt` when the file part of its name has no `/`. */
  lemma SvgUpdateIdempotent(inIconSpan: bool, iconName: Option<string>, src: Option<string>, alt: Option<string>)
    requires HasAltText(iconName) ==> '/' !in IconParts(iconName.value).0
    ensures var once := SvgUpdate(inIconSpan, iconName, src, alt);
      SvgUpdate(inIconSpan, iconName, once.0, once.1) == once
  {
    if SvgSelected(inIconSpan, src) && HasAltText(iconName) {
      var parts := IconParts(iconName.value);
      SvgSrcIdempotent(src.value, parts.0);
    }
  }

  /** One image of the `forEach`. */
  method DecorateImg(img: Img)
    modifies img
    ensures (img.src, img.alt) == SvgUpdate(img.inIconSpan, img.iconName, old(img.src), old(img.alt))
  {
    if SvgSelected(img.inIconSpan, img.src) {
      var name := img.iconName;
      if name.Some? && name.value != "" && Contains(name.value, AltSeparator) {
        var parts := IconParts(name.value);
        img.src := Some(SvgSrc(img.src.value, parts.0));
        img.alt := Some(SvgAlt(parts.1));
      }
    }
  }

  /** `decorateSvgWithAltText`: every image gets the `src` and `alt` that
      `SvgUpdate` gives. The list comes from one `querySelectorAll`, so it
      holds each image once. */
  method DecorateSvgWithAltText(imgs: seq<Img>)
    requires forall i, j | 0 <= i < j < |imgs| :: imgs[i] != imgs[j]
    modifies set img | img in imgs
    ensures forall img | img in imgs ::
      (img.src, img.alt) == SvgUpdate(img.inIconSpan, img.iconName, old(img.src), old(img.alt))
  {
    for i := 0 to |imgs|
      invariant forall k | 0 <= k < i ::
        (imgs[k].src, imgs[k].alt) == SvgUpdate(imgs[k].inIconSpan, imgs[k].iconName, old(imgs[k].src), old(imgs[k].alt))
      invariant forall k | i <= k < |imgs| :: imgs[k].src == old(imgs[k].src) && imgs[k].alt == old(imgs[k].alt)
    {
      assert forall k | 0 <= k < |imgs| && k != i :: imgs[k] != imgs[i];
      DecorateImg(imgs[i]);
    }
  }
}

=== FILE: breadcrumb.dfy ===
/** The breadcrumb trail built from the page's path, both by the breadcrumb
    block (blocks/breadcrumb/breadcrumb.js) and by `buildBreadcrumb` in
    scripts/scripts.js. The two share the segment split, the language skip,
    the homepage rule and the cumulative links; they differ only in the
    text of the last item. */
module Breadcrumb {
  import opened Text

  // ---------------------------------------------------------------------
  // Segments
  // ---------------------------------------------------------------------

  predicate IsLowerLetter(c: char) { 'a' <= c <= 'z' }
  predicate IsUpperLetter(c: char) { 'A' <= c <= 'Z' }

  /** `/^([a-z]{2}(-[A-Z]{2})?)$/`: `en`, `th`, `en-US`, … */
  predicate IsLangSegment(s: string) {
    || (|s| == 2 && IsLowerLetter(s[0]) && IsLowerLetter(s[1]))
    || (|s| == 5 && IsLowerLetter(s[0]) && IsLowerLetter(s[1]) && s[2] == '-'
        && IsUpperLetter(s[3]) && IsUpperLetter(s[4]))
  }

  /** The first segment is skipped exactly when it is a language. */
  function StartIndex(segments: seq<string>): (r: nat)
    ensures r == 1 <==> |segments| > 0 && IsLangSegment(segments[0])
    ensures r <= 1 && r <= |segments|
  {
    if |segments| > 0 && IsLangSegment(segments[0]) then 1 else 0
  }

  // ---------------------------------------------------------------------
  // Labels
  // ---------------------------------------------------------------------

  /** `\w`: an ASCII letter, digit or underscore. */
  predicate IsWordChar(c: char) {
    'a' <= c <= 'z' || 'A' <= c <= 'Z' || '0' <= c <= '9' || c == '_'
  }

  /** `replace(/-/g, ' ').replace(/\b\w/g, toUpperCase)`: hyphens become
      spaces and every word's first character is upper-cased. */
  function Label(segment: string): (r: string)
    ensures |r| == |segment|
    ensures forall i | 0 <= i < |r| :: r[i] != '-'
    ensures forall i | 0 <= i < |r| ::
      var t := ReplaceChars(segment, {'-'}, ' ');
      r[i] == if IsWordChar(t[i]) && (i == 0 || !IsWordChar(t[i - 1])) then UpperChar(t[i]) else t[i]
  {
    var t := ReplaceChars(segment, {'-'}, ' ');
    seq(|t|, i requires 0 <= i < |t| =>
      if IsWordChar(t[i]) && (i == 0 || !IsWordChar(t[i - 1])) then UpperChar(t[i]) else t[i])
  }

  /** A label is already a label: applying the transformation again
      changes nothing. */
  lemma LabelIdempotent(segment: string)
    ensures Label(Label(segment)) == Label(segment)
  {
    var l := Label(segment);
    var t := ReplaceChars(segment, {'-'}, ' ');
    assert ReplaceChars(l, {'-'}, ' ') == l;
    assert forall i | 0 <= i < |l| :: IsWordChar(l[i]) == IsWordChar(t[i]);
  }

  // ---------------------------------------------------------------------
  // The trail
  // ---------------------------------------------------------------------

  /** An item of the `ol`: a link, or the current page's plain text with
      `aria-current="page"`. */
  datatype Crumb = LinkCrumb(href: string, text: string) | CurrentCrumb(text: string)

  /** The homepage's single item, or one item per remaining segment. */
  datatype Trail = Homepage | Items(crumbs: seq<Crumb>)

  const HomepageText: string := "Homepage - Bangkok Bank"

  /** Which text the last item falls back to when there is no short title:
      the document title (the block) or the segment's label (`buildBreadcrumb`). */
  datatype LastFallback = PageTitle(title: string) | SegmentLabel

  /** `/a/b/c`: segments `from` up to `to`, each preceded by a slash. */
  function CumulativePath(segments: seq<string>, from: nat, to: nat): string
    requires from <= to <= |segments|
    decreases (to as int) - (from as int)
  {
    if to == from then "" else CumulativePath(segments, from, to - 1) + "/" + segments[to - 1]
  }

  /** Each link's path extends the one before it. */
  lemma {:induction false} CumulativePrefix(segments: seq<string>, from: nat, i: nat, j: nat)
    requires from <= i <= j <= |segments|
    ensures StartsWith(CumulativePath(segments, from, j), CumulativePath(segments, from, i))
    decreases j
  {
    if j > i {
      CumulativePrefix(segments, from, i, j - 1);
      var p, q := CumulativePath(segments, from, j - 1), CumulativePath(segments, from, i);
      assert CumulativePath(segments, from, j) == p + ("/" + segments[j - 1]);
      assert (p + ("/" + segments[j - 1]))[..|q|] == p[..|q|];
    }
  }

  /** A path starts with its first segment, so with the language skipped
      no link carries the language prefix. */
  lemma {:induction false} CumulativeStart(segments: seq<string>, from: nat, to: nat)
    requires from < to <= |segments|
    ensures StartsWith(CumulativePath(segments, from, to), "/" + segments[from])
  {
    CumulativePrefix(segments, from, from + 1, to);
    assert CumulativePath(segments, from, from + 1) == "/" + segments[from];
  }

  /** The last item's text: the short title when non-empty, else the fallback. */
  function LastText(shortTitle: string, fallback: LastFallback, segment: string): string {
    OrElse(shortTitle, if fallback.PageTitle? then fallback.title else Label(segment))
  }

  /** The item for segment `i` of a trail starting at `start`. */
  function CrumbAt(segments: seq<string>, start: nat, i: nat, shortTitle: string, fallback: LastFallback): Crumb
    requires start <= i < |segments|
  {
    if i == |segments| - 1 then CurrentCrumb(LastText(shortTitle, fallback, segments[i]))
    else LinkCrumb(CumulativePath(segments, start, i + 1), Label(segments[i]))
  }

  /** The trail for a pathname: the homepage item when no segment remains
      after the language skip; otherwise one item per remaining segment,
      each but the last linking to the path so far, the last one current. */
  method BuildTrail(pathname: string, shortTitle: string, fallback: LastFallback) returns (r: Trail)
    ensures var segments := Segments(pathname); var start := StartIndex(segments);
      && (r.Homepage? <==> |segments| == start)
      && (r.Items? ==>
            && |r.crumbs| == |segments| - start
            && forall k | 0 <= k < |r.crumbs| :: r.crumbs[k] == CrumbAt(segments, start, start + k, shortTitle, fallback))
  {
    var segments := Segments(pathname);
    var start := StartIndex(segments);
    if |segments| == start {
      return Homepage;
    }
    var currentPath := "";
    var crumbs := [];
    var i := start;
    while i < |segments|
      invariant start <= i <= |segments|
      invariant currentPath == CumulativePath(segments, start, i)
      invariant |crumbs| == i - start
      invariant forall k | 0 <= k < |crumbs| :: crumbs[k] == CrumbAt(segments, start, start + k, shortTitle, fallback)
    {
      var segment := segments[i];
      currentPath := currentPath + "/" + segment;
      var isLast := i == |segments| - 1;
      var crumb: Crumb;
      if isLast {
        crumb := CurrentCrumb(OrElse(shortTitle, if fallback.PageTitle? then fallback.title else Label(segment)));
      } else {
        crumb := LinkCrumb(currentPath, Label(segment));
      }
      assert currentPath == CumulativePath(segments, start, i + 1);
      crumbs := crumbs + [crumb];
      i := i + 1;
    }
    return Items(crumbs);
  }

  /** In a trail of items, only the last is current: every other item is a
      link whose path starts with its own first remaining segment. */
  lemma OnlyLastIsCurrent(segments: seq<string>, start: nat, i: nat, shortTitle: string, fallback: LastFallback)
    requires start <= i < |segments|
    ensures CrumbAt(segments, start, i, shortTitle, fallback).CurrentCrumb? <==> i == |segments| - 1
    ensures i < |segments| - 1 ==>
      StartsWith(CrumbAt(segments, start, i, shortTitle, fallback).href, "/" + segments[start])
  {
    if i < |segments| - 1 {
      CumulativeStart(segments, start, i + 1);
    }
  }

  /** The block and `buildBreadcrumb` build the same items except the
      last: every link is the same whichever fallback is used. */
  lemma LinksIgnoreFallback(segments: seq<string>, start: nat, i: nat, shortTitle: string, title: string)
    requires start <= i < |segments| - 1
    ensures CrumbAt(segments, start, i, shortTitle, PageTitle(title)) == CrumbAt(segments, start, i, shortTitle, SegmentLabel)
    ensures CrumbAt(segments, start, i, shortTitle, SegmentLabel).LinkCrumb?
  {
  }

  /** The block's decoration: the trail with the document title as the last
      item's fallback, and `is-homepage` on the block for the homepage. */
  method DecorateBlock(pathname: string, shortTitle: string, documentTitle: string) returns (r: Trail, isHomepage: bool)
    ensures isHomepage <==> r.Homepage?
    ensures isHomepage <==> |Segments(pathname)| == StartIndex(Segments(pathname))
    ensures r.Items? ==> |r.crumbs| > 0 && r.crumbs[|r.crumbs| - 1] == CurrentCrumb(OrElse(shortTitle, documentTitle))
    ensures var segments := Segments(pathname); var start := StartIndex(segments);
      r.Items? ==>
        && |r.crumbs| == |segments| - start
        && forall k | 0 <= k < |r.crumbs| :: r.crumbs[k] == CrumbAt(segments, start, start + k, shortTitle, PageTitle(documentTitle))
  {
    r := BuildTrail(pathname, shortTitle, PageTitle(documentTitle));
    isHomepage := r.Homepage?;
  }
}

=== FILE: cards.dfy ===
/** The cards block (blocks/cards/cards.js): each authored row becomes a
    list item holding an image wrapper and a body, the body ending with a
    button when the row's link cells describe one. */
module Cards {
  import opened Wrappers
  import opened Text
  import Scripts

  /** A cell: its text, its first anchor (resolved `href` and text), and
      whether it holds a `picture`. */
  datatype Anchor = Anchor(href: string, text: string)
  datatype Cell = Cell(text: string, anchor: Option<Anchor>, picture: bool)

  /** A row: its attributes and its cells (image, text, link, link text,
      link title, link type; any may be missing). */
  datatype Row = Row(attrs: map<string, string>, cells: seq<Cell>)

  /** The button: its `href`, text, `title` and `className`. */
  datatype Button = Button(href: string, text: string, title: string, className: string)

  /** `cell?.textContent?.trim()`, with `''` standing for a missing cell. */
  function CellText(cell: Option<Cell>): string {
    if cell.Some? then Trim(cell.value.text) else ""
  }

  /** The link target: the anchor's `href` when non-empty, else the link
      cell's trimmed text. */
  function ButtonHref(linkCell: Option<Cell>): string {
    var anchor := if linkCell.Some? then linkCell.value.anchor else None;
    OrElse(if anchor.Some? then anchor.value.href else "", CellText(linkCell))
  }

  /** The label: the link-text cell's trimmed text, else the anchor's
      trimmed text. */
  function ButtonLabel(linkCell: Option<Cell>, textCell: Option<Cell>): string {
    var anchor := if linkCell.Some? then linkCell.value.anchor else None;
    OrElse(CellText(textCell), if anchor.Some? then Trim(anchor.value.text) else "")
  }

  /** `['button', type].filter(Boolean).join(' ')`. */
  function ButtonClass(kind: string): (r: string)
    ensures kind == "" ==> r == "button"
    ensures kind != "" ==> r == "button " + kind
  {
    var parts := ["button", kind];
    assert parts[1..] == [kind] && [kind][1..] == [];
    assert NonEmpty(parts) == ["button"] + NonEmpty([kind]);
    assert NonEmpty([kind]) == (if kind != "" then [kind] else []) + NonEmpty([]);
    assert kind != "" ==> NonEmpty(parts) == ["button"] + [kind] + [] == parts;
    assert kind != "" ==> Join(["button", kind], " ") == "button" + " " + Join([kind], " ") == "button " + kind;
    Join(NonEmpty(parts), " ")
  }

  /** `buildCardButton`: no button without a target or without a label;
      otherwise a button whose title defaults to the label. */
  function CardButton(linkCell: Option<Cell>, textCell: Option<Cell>, titleCell: Option<Cell>, typeCell: Option<Cell>)
    : (r: Option<Button>)
    ensures r.None? <==> ButtonHref(linkCell) == "" || ButtonLabel(linkCell, textCell) == ""
    ensures r.Some? ==>
      && r.value.href == ButtonHref(linkCell) != ""
      && r.value.text == ButtonLabel(linkCell, textCell) != ""
      && r.value.title == OrElse(CellText(titleCell), r.value.text)
      && r.value.title != ""
      && r.value.className == ButtonClass(CellText(typeCell))
  {
    var href := ButtonHref(linkCell);
    if href == "" then None
    else
      var caption := ButtonLabel(linkCell, textCell);
      if caption == "" then None
      else Some(Button(href, caption, OrElse(CellText(titleCell), caption), ButtonClass(CellText(typeCell))))
  }

  /** The class names of a button are `button` and, when the type cell
      names one without spaces, that type. */
  lemma ButtonClassTokens(kind: string)
    requires ' ' !in kind
    ensures SplitOn(ButtonClass(kind), " ") == if kind == "" then ["button"] else ["button", kind]
  {
    var c := ButtonClass(kind);
    if kind == "" {
      assert IndexOf(c, " ") < 0 by {
        forall k | 0 <= k ensures !OccursAt(c, " ", k) {
          if k + 1 <= |c| {
            assert c[k..k + 1][0] == c[k];
          }
        }
      }
    } else {
      assert OccursAt(c, " ", 6);
      forall k | 0 <= k < 6 ensures !OccursAt(c, " ", k) {
        assert c[k..k + 1][0] == c[k];
      }
      assert IndexOf(c, " ") == 6;
      assert c[7..] == kind;
      assert c[..6] == "button";
      forall k | 0 <= k ensures !OccursAt(kind, " ", k) {
        if k + 1 <= |kind| {
          assert kind[k..k + 1][0] == kind[k];
        }
      }
      assert IndexOf(kind, " ") < 0;
      assert SplitOn(kind, " ") == [kind];
      assert SplitOn(c, " ") == [c[..6]] + SplitOn(c[7..], " ");
    }
  }

  /** A list item: the attributes moved onto it, the picture of the image
      cell (if any), the text cell's content (if any) and the button. */
  datatype Item = Item(attrs: map<string, string>, picture: bool, body: Option<string>, button: Option<Button>)

  function CellAt(cells: seq<Cell>, i: nat): (r: Option<Cell>)
    ensures r.Some? <==> i < |cells|
    ensures r.Some? ==> r.value == cells[i]
  {
    if i < |cells| then Some(cells[i]) else None
  }

  /** The item a row becomes. */
  function ItemFor(row: Row): Item {
    var cells := row.cells;
    var imageCell := CellAt(cells, 0);
    var textCell := CellAt(cells, 1);
    Item(
      Scripts.Moving(row.attrs, Scripts.InstrumentationNames(row.attrs)),
      imageCell.Some? && imageCell.value.picture,
      if textCell.Some? then Some(textCell.value.text) else None,
      CardButton(CellAt(cells, 2), CellAt(cells, 3), CellAt(cells, 4), CellAt(cells, 5)))
  }

  /** An item carries a button exactly when the row's link cell gives a
      target and its link-text cell or anchor gives a label; the item gets
      only the row's instrumentation attributes. */
  lemma ItemButton(row: Row)
    ensures ItemFor(row).button.Some? <==>
      ButtonHref(CellAt(row.cells, 2)) != "" && ButtonLabel(CellAt(row.cells, 2), CellAt(row.cells, 3)) != ""
    ensures forall n | n in ItemFor(row).attrs :: Scripts.IsInstrumentation(n) && n in row.attrs
    ensures |row.cells| < 3 ==> ItemFor(row).button.None?
  {
  }

  /** The `forEach` of `decorate`: one item per row, in order. */
  method Decorate(rows: seq<Row>) returns (items: seq<Item>)
    ensures |items| == |rows|
    ensures forall k | 0 <= k < |rows| :: items[k] == ItemFor(rows[k])
  {
    items := [];
    for i := 0 to |rows|
      invariant |items| == i
      invariant forall k | 0 <= k < i :: items[k] == ItemFor(rows[k])
    {
      items := items + [ItemFor(rows[i])];
    }
  }
}

=== FILE: carousel.dfy ===
/** The carousel block (blocks/carousel/carousel.js): a header from the
    first two rows, one card per remaining row, and a slider that moves one
    card at a time between the first and the last card.

    Card widths are layout results: each update is given the items' widths
    as measured after their `active` classes are set. */
module Carousel {
  import opened Wrappers
  import opened Text

  // ---------------------------------------------------------------------
  // Authored content
  // ---------------------------------------------------------------------

  /** An anchor: its `href`, `title`, text and class list. */
  datatype Link = Link(href: string, title: string, text: string, className: string)

  /** An image: `src` and `alt`. */
  datatype Image = Image(src: string, alt: string)

  /** A cell of a card row: whether it holds a picture, its first `img`, its
      text, its inner HTML and its first anchor. */
  datatype Cell = Cell(picture: bool, img: Option<Image>, text: string, html: string, anchor: Option<Link>)

  /** A row of the block: the text of its first `p`, its first anchor and
      its cells. */
  datatype Row = Row(firstParagraph: Option<string>, anchor: Option<Link>, cells: seq<Cell>)

  // ---------------------------------------------------------------------
  // Built structure
  // ---------------------------------------------------------------------

  /** `.carousel-header`: the `h2` title and the primary link, each when present. */
  datatype CarouselHeader = CarouselHeader(title: Option<string>, link: Option<Link>)

  /** A `.carousel-item`: the inactive and active image wrappers (each with
      its optimised picture when the cell had an `img`), the eyebrow, title,
      description and call to action when non-empty, and the link wrapping
      the content when the button cell had an anchor. */
  datatype Card = Card(
    inactive: Option<Option<Image>>, active: Option<Option<Image>>,
    eyebrow: Option<string>, title: Option<string>, description: Option<string>,
    cta: Option<(string, string)>, link: Option<(string, string)>)

  datatype Carousel = Carousel(header: Option<CarouselHeader>, cards: seq<Card>, initialised: bool)

  function CellAt(cells: seq<Cell>, k: nat): Option<Cell> {
    if k < |cells| then Some(cells[k]) else None
  }

  /** `x ? … : ''` on an optional trimmed text: present only when non-empty. */
  function NonEmptyText(s: Option<string>): (r: Option<string>)
    ensures r.Some? <==> s.Some? && s.value != ""
    ensures r.Some? ==> r.value == s.value
  {
    if s.Some? && s.value != "" then s else None
  }

  /** The image wrapper for a cell: present when the cell holds a picture. */
  function ImageWrapper(c: Option<Cell>): Option<Option<Image>> {
    if c.Some? && c.value.picture then Some(c.value.img) else None
  }

  /** The trimmed text of cell `k`, when there is such a cell. */
  function TrimmedText(cells: seq<Cell>, k: nat): Option<string> {
    if k < |cells| then Some(Trim(cells[k].text)) else None
  }

  /** The first anchor of the button cell (the sixth). */
  function ButtonLink(cells: seq<Cell>): Option<Link> {
    if |cells| > 5 then cells[5].anchor else None
  }

  /** `createCarouselCard`: cells are, in order, inactive image, active
      image, eyebrow, title, description and button. */
  function CardFor(cells: seq<Cell>): Card {
    var description := if |cells| > 4 then Some(cells[4].html) else None;
    var button := ButtonLink(cells);
    Card(
      ImageWrapper(CellAt(cells, 0)), ImageWrapper(CellAt(cells, 1)),
      NonEmptyText(TrimmedText(cells, 2)), NonEmptyText(TrimmedText(cells, 3)), NonEmptyText(description),
      if button.Some? then Some((button.value.className + " carousel-cta", button.value.text)) else None,
      if button.Some? then Some((button.value.href, button.value.title)) else None)
  }

  /** A card's image wrappers exist exactly for the image cells holding a
      picture, and its eyebrow, title and description exactly when the
      corresponding cell's (trimmed) text or HTML is non-empty. */
  lemma CardContent(cells: seq<Cell>)
    ensures var r := CardFor(cells);
      && (r.inactive.Some? <==> |cells| > 0 && cells[0].picture)
      && (r.active.Some? <==> |cells| > 1 && cells[1].picture)
      && (r.eyebrow.Some? <==> |cells| > 2 && Trim(cells[2].text) != "")
      && (r.title.Some? <==> |cells| > 3 && Trim(cells[3].text) != "")
      && (r.description.Some? <==> |cells| > 4 && cells[4].html != "")
  {
  }

  /** The content is wrapped in a link, and carries a call to action, exactly
      when the button cell has an anchor; both take that anchor's values. */
  lemma CardLink(cells: seq<Cell>)
    ensures var r := CardFor(cells);
      && (r.link.Some? <==> |cells| > 5 && cells[5].anchor.Some?)
      && (r.cta.Some? <==> r.link.Some?)
      && (r.link.Some? ==> r.link.value == (cells[5].anchor.value.href, cells[5].anchor.value.title))
      && (r.cta.Some? ==> r.cta.value == (cells[5].anchor.value.className + " carousel-cta", cells[5].anchor.value.text))
  {
  }

  /** The trimmed text of the first row's first paragraph, `''` without one. */
  function HeaderTitle(rows: seq<Row>): string {
    if |rows| > 0 && rows[0].firstParagraph.Some? then Trim(rows[0].firstParagraph.value) else ""
  }

  /** The second row's first anchor. */
  function HeaderLink(rows: seq<Row>): Option<Link> {
    if |rows| > 1 then rows[1].anchor else None
  }

  /** The header the first two rows give: present exactly when there is a
      non-empty title or a link, holding the title only when it is non-empty. */
  function HeaderFor(rows: seq<Row>): (r: Option<CarouselHeader>)
    ensures r.Some? <==> HeaderTitle(rows) != "" || HeaderLink(rows).Some?
    ensures r.Some? ==> r.value.link == HeaderLink(rows)
    ensures r.Some? ==> (r.value.title.Some? <==> HeaderTitle(rows) != "")
    ensures r.Some? && r.value.title.Some? ==> r.value.title.value == HeaderTitle(rows)
  {
    var title := HeaderTitle(rows);
    var link := HeaderLink(rows);
    if title != "" || link.Some? then Some(CarouselHeader(if title != "" then Some(title) else None, link)) else None
  }

  /** One card per row, in order: the row map of `decorate`. */
  method BuildCards(cardRows: seq<Row>) returns (cards: seq<Card>)
    ensures |cards| == |cardRows|
    ensures forall k | 0 <= k < |cards| :: cards[k] == CardFor(cardRows[k].cells)
  {
    cards := seq(|cardRows|, k requires 0 <= k < |cardRows| => CardFor(cardRows[k].cells));
  }

  /** `decorate`: the header, one card per row after the first two, in
      order, and the slider initialised only when there is a card. */
  method Decorate(rows: seq<Row>) returns (r: Carousel)
    ensures r.header == HeaderFor(rows)
    ensures |r.cards| == (if |rows| > 2 then |rows| - 2 else 0)
    ensures forall k | 0 <= k < |r.cards| :: r.cards[k] == CardFor(rows[k + 2].cells)
    ensures r.initialised <==> |rows| > 2
  {
    var header := HeaderFor(rows);
    var cardRows := if |rows| > 2 then rows[2..] else [];
    var cards := BuildCards(cardRows);
    r := Carousel(header, cards, |cardRows| > 0);
  }

  // ---------------------------------------------------------------------
  // The slider
  // ---------------------------------------------------------------------

  /** From this viewport width on, only the current card is active, the gap
      is wider and the slider is positioned on load. */
  const DesktopWidth: int := 1025

  /** The gap between cards, in pixels. */
  function Gap(innerWidth: int): nat {
    if innerWidth >= DesktopWidth then 24 else 16
  }

  /** The track's horizontal offset for a current index:
      `-Σ_{i < index} (widths[i] + gap)`. */
  function Offset(widths: seq<nat>, index: nat, gap: nat): int
    requires index <= |widths|
  {
    if index == 0 then 0 else Offset(widths, index - 1, gap) - (widths[index - 1] + gap)
  }

  /** Each step to the right moves the track left by the width of the card
      passed plus the gap; the track never sits right of its start. */
  lemma {:induction false} OffsetMonotone(widths: seq<nat>, i: nat, j: nat, gap: nat)
    requires i <= j <= |widths| && gap > 0
    ensures Offset(widths, j, gap) <= Offset(widths, i, gap) <= 0
    ensures i < j ==> Offset(widths, j, gap) < Offset(widths, i, gap)
  {
    if j > i {
      OffsetMonotone(widths, i, j - 1, gap);
    } else if i > 0 {
      OffsetMonotone(widths, i - 1, i - 1, gap);
    }
  }

  class Slider {
    /** The number of `.carousel-item` elements (never zero: the slider is
        not set up without cards). */
    const total: nat
    var index: nat
    /** Each item's `active` class. */
    var active: seq<bool>
    var offset: int
    /** Whether the last update animated the transform. */
    var animated: bool
    var prevDisabled: bool
    var nextDisabled: bool

    ghost predicate Valid()
      reads this
    {
      total > 0 && |active| == total && index < total
    }

    /** The state `updateCarousel` leaves behind for the current index. */
    ghost predicate Updated(innerWidth: int, widths: seq<nat>)
      reads this
      requires Valid() && |widths| == total
    {
      && (forall i | 0 <= i < total :: active[i] == (innerWidth < DesktopWidth || i == index))
      && offset == Offset(widths, index, Gap(innerWidth))
      && (prevDisabled <==> index == 0)
      && (nextDisabled <==> index >= total - 1)
    }

    /** `initCarousel`: index 0, positioned without animation on a desktop
        viewport and left untouched otherwise. */
    constructor (total: nat, innerWidth: int, widths: seq<nat>)
      requires total > 0 && |widths| == total
      ensures Valid() && this.total == total && index == 0
      ensures innerWidth >= DesktopWidth ==> Updated(innerWidth, widths) && !animated
      ensures innerWidth < DesktopWidth ==>
        active == seq(total, _ => false) && offset == 0 && !prevDisabled && !nextDisabled
    {
      this.total := total;
      index := 0;
      active := seq(total, _ => false);
      offset := 0;
      animated := false;
      prevDisabled := false;
      nextDisabled := false;
      new;
      if innerWidth >= DesktopWidth {
        Update(false, innerWidth, widths);
      }
    }

    /** `updateCarousel(animate)`: the active classes, the offset from the
        cumulative widths before the current card, and the buttons'
        `disabled` flags. */
    method Update(animate: bool, innerWidth: int, widths: seq<nat>)
      requires Valid() && |widths| == total
      modifies this
      ensures Valid() && index == old(index) && animated == animate
      ensures Updated(innerWidth, widths)
    {
      animated := animate;
      var gap := Gap(innerWidth);
      for i := 0 to total
        invariant Valid() && index == old(index) && animated == animate
        invariant forall j | 0 <= j < i :: active[j] == (innerWidth < DesktopWidth || j == index)
      {
        if innerWidth >= DesktopWidth {
          active := active[i := i == index];
        } else {
          active := active[i := true];
        }
      }
      var off: int := 0;
      for i := 0 to index
        invariant off == Offset(widths, i, gap)
      {
        off := off - (widths[i] + gap);
      }
      offset := off;
      prevDisabled := index == 0;
      nextDisabled := index >= total - 1;
    }

    /** The previous button: one card back unless at the first. */
    method Prev(innerWidth: int, widths: seq<nat>)
      requires Valid() && |widths| == total
      modifies this
      ensures Valid()
      ensures old(index) > 0 ==> index == old(index) - 1 && Updated(innerWidth, widths) && animated
      ensures old(index) == 0 ==> unchanged(this)
    {
      if index > 0 {
        index := index - 1;
        Update(true, innerWidth, widths);
      }
    }

    /** The next button: one card on unless at the last. */
    method Next(innerWidth: int, widths: seq<nat>)
      requires Valid() && |widths| == total
      modifies this
      ensures Valid()
      ensures old(index) < total - 1 ==> index == old(index) + 1 && Updated(innerWidth, widths) && animated
      ensures old(index) >= total - 1 ==> unchanged(this)
    {
      if index < total - 1 {
        index := index + 1;
        Update(true, innerWidth, widths);
      }
    }

    /** The debounced resize: back to the first card, without animation. */
    method Resize(innerWidth: int, widths: seq<nat>)
      requires Valid() && |widths| == total
      modifies this
      ensures Valid() && index == 0 && !animated && Updated(innerWidth, widths)
      ensures offset == 0 && prevDisabled && (nextDisabled <==> total == 1)
    {
      index := 0;
      Update(false, innerWidth, widths);
    }
  }

  /** Walking from the first card to the last with the next button, one
      click per card, ends on the last card with next disabled and prev
      enabled (when there is more than one card). */
  method WalkToEnd(s: Slider, innerWidth: int, widths: seq<nat>)
    requires s.Valid() && |widths| == s.total && s.index == 0
    modifies s
    ensures s.Valid() && s.index == s.total - 1
    ensures s.total > 1 ==> s.nextDisabled && !s.prevDisabled
  {
    var clicks := 0;
    while clicks < s.total - 1
      invariant s.Valid() && |widths| == s.total && s.index == clicks <= s.total - 1
      invariant clicks > 0 ==> s.Updated(innerWidth, widths)
    {
      s.Next(innerWidth, widths);
      clicks := clicks + 1;
    }
  }
}

=== FILE: carousel_dotted.dfy ===
/** The dotted carousel block (blocks/carousel-dotted/carousel-dotted.js):
    two configuration rows (show dots, dots alignment), an optional
    "see more" link with its text and title rows, then one slide per
    remaining row, with one dot per slide and exactly one slide active. */
module CarouselDotted {
  import opened Wrappers
  import opened Text
  import opened Exclusive
  import CarouselHelpers

  // ---------------------------------------------------------------------
  // Configuration
  // ---------------------------------------------------------------------

  /** This block's own `readBoolean`: the shared reader with a fallback of
      `true`. */
  function ReadBoolean(cell: Option<string>, fallback: bool := true): (r: bool)
    ensures cell.None? ==> r == fallback
    ensures cell.Some? && Normalize(cell.value) == "true" ==> r
    ensures cell.Some? && Normalize(cell.value) == "false" ==> !r
    ensures cell.Some? && Normalize(cell.value) != "true" && Normalize(cell.value) != "false" ==> r == fallback
  {
    CarouselHelpers.ReadBoolean(cell, fallback)
  }

  /** This block's own `readAlignment`: `left`, `center` or `right`, or the
      fallback `center`. */
  function ReadAlignment(cell: Option<string>, fallback: string := "center"): (r: string)
    ensures r in CarouselHelpers.DotsAlignments || r == fallback
    ensures cell.None? ==> r == fallback
    ensures cell.Some? && Normalize(cell.value) in CarouselHelpers.DotsAlignments ==> r == Normalize(cell.value)
  {
    CarouselHelpers.ReadDotsAlignment(cell, fallback)
  }

  // ---------------------------------------------------------------------
  // Authored rows
  // ---------------------------------------------------------------------

  /** An anchor: its `href`, text, `title` and class list (a set, as
      `classList.add` never adds a class twice). */
  datatype Link = Link(href: string, text: string, title: string, classes: set<string>)

  /** A slide row's cells: badge text, picture, title content, CTA anchor. */
  datatype Cell = Cell(text: string, picture: bool, html: string, anchor: Option<Link>)

  /** A row: its text, whether it holds a picture, its first anchor, its
      number of child elements and its cells. */
  datatype Row = Row(text: string, picture: bool, anchor: Option<Link>, childCount: nat, cells: seq<Cell>)

  function RowText(rows: seq<Row>, k: nat): Option<string> {
    if k < |rows| then Some(rows[k].text) else None
  }

  /** A row that can hold the see-more text or title: no picture, no anchor. */
  predicate Plain(r: Row) {
    !r.picture && r.anchor.None?
  }

  /** Row 2 is a see-more link: no picture, an anchor, a single child. */
  predicate IsSeeMoreRow(rows: seq<Row>) {
    |rows| > 2 && !rows[2].picture && rows[2].anchor.Some? && rows[2].childCount == 1
  }

  /** Row 3 holds the see-more text. */
  predicate HasTextRow(rows: seq<Row>) {
    |rows| > 3 && Plain(rows[3])
  }

  /** The row that may hold the see-more title: the one after the link, or
      after the text row when there is one. */
  function TitleAt(rows: seq<Row>): nat {
    if HasTextRow(rows) then 4 else 3
  }

  predicate HasTitleRow(rows: seq<Row>) {
    TitleAt(rows) < |rows| && Plain(rows[TitleAt(rows)])
  }

  /** The see-more text and title: the trimmed row text, empty when the row
      is absent. */
  function SeeMoreText(rows: seq<Row>): string {
    if HasTextRow(rows) then Trim(rows[3].text) else ""
  }

  function SeeMoreTitle(rows: seq<Row>): string {
    if HasTitleRow(rows) then Trim(rows[TitleAt(rows)].text) else ""
  }

  /** The index of the first slide row: 2 without a see-more link, otherwise
      the row after the link and the text and title rows it consumed. */
  function FirstSlideRow(rows: seq<Row>): nat {
    if !IsSeeMoreRow(rows) then 2 else TitleAt(rows) + (if HasTitleRow(rows) then 1 else 0)
  }

  /** The rows that become slides. */
  function SlideRows(rows: seq<Row>): seq<Row> {
    var first := FirstSlideRow(rows);
    if first < |rows| then rows[first..] else []
  }

  /** The slide rows are the block's last rows: all but the first two
      without a see-more link, and with one, all but the two configuration
      rows, the link and the one or two text and title rows that follow it. */
  lemma SlideRowsAreTail(rows: seq<Row>)
    ensures SlideRows(rows) == rows[|rows| - |SlideRows(rows)|..]
    ensures !IsSeeMoreRow(rows) ==> |SlideRows(rows)| == if |rows| > 2 then |rows| - 2 else 0
    ensures IsSeeMoreRow(rows) ==>
      |SlideRows(rows)| == |rows| - 3 - (if HasTextRow(rows) then 1 else 0) - (if HasTitleRow(rows) then 1 else 0)
    ensures forall k | 0 <= k < |SlideRows(rows)| :: SlideRows(rows)[k] == rows[FirstSlideRow(rows) + k]
  {
  }

  /** The see-more detection: the link, its text and title (empty when not
      consumed), and the index of the first slide row. */
  method DetectSeeMore(rows: seq<Row>) returns (nextIndex: nat, link: Option<Link>, text: string, title: string)
    ensures link.Some? <==> IsSeeMoreRow(rows)
    ensures link.None? ==> nextIndex == 2 && text == "" && title == ""
    ensures link.Some? ==> link.value == rows[2].anchor.value
    ensures link.Some? ==> text == SeeMoreText(rows) && title == SeeMoreTitle(rows) && nextIndex <= |rows|
    ensures nextIndex == FirstSlideRow(rows)
  {
    nextIndex := 2;
    link := None;
    text := "";
    title := "";
    if nextIndex < |rows| && !rows[nextIndex].picture {
      var row := rows[nextIndex];
      if row.anchor.Some? && row.childCount == 1 {
        link := row.anchor;
        nextIndex := nextIndex + 1;
        if nextIndex < |rows| && !rows[nextIndex].picture && rows[nextIndex].anchor.None? {
          text := Trim(rows[nextIndex].text);
          nextIndex := nextIndex + 1;
        }
        if nextIndex < |rows| && !rows[nextIndex].picture && rows[nextIndex].anchor.None? {
          title := Trim(rows[nextIndex].text);
          nextIndex := nextIndex + 1;
        }
      }
    }
  }

  // ---------------------------------------------------------------------
  // Slides and dots
  // ---------------------------------------------------------------------

  /** `buildSlide`: the background picture from cell 1, the badge from cell
      0's trimmed text when non-empty, the title from cell 2's content when
      the cell exists, and the CTA from cell 3's anchor with `carousel-cta`. */
  datatype Slide = Slide(index: nat, picture: bool, badge: Option<string>, title: Option<string>, cta: Option<Link>)

  function SlideFor(row: Row, index: nat): (r: Slide)
    ensures r.index == index
    ensures r.picture <==> |row.cells| > 1 && row.cells[1].picture
    ensures r.badge.Some? <==> |row.cells| > 0 && Trim(row.cells[0].text) != ""
    ensures r.title.Some? <==> |row.cells| > 2
    ensures r.cta.Some? <==> |row.cells| > 3 && row.cells[3].anchor.Some?
    ensures r.cta.Some? ==> r.cta.value == row.cells[3].anchor.value.(classes := row.cells[3].anchor.value.classes + {"carousel-cta"})
  {
    var cells := row.cells;
    var badge := if |cells| > 0 then Trim(cells[0].text) else "";
    var cta := if |cells| > 3 then cells[3].anchor else None;
    Slide(index,
      |cells| > 1 && cells[1].picture,
      if badge != "" then Some(badge) else None,
      if |cells| > 2 then Some(cells[2].html) else None,
      if cta.Some? then Some(cta.value.(classes := cta.value.classes + {"carousel-cta"})) else None)
  }

  /** A dot's `aria-label`: `Slide k`, counting from 1. */
  function DotLabel(index: nat): string {
    "Slide " + NatToString(index + 1)
  }

  /** The decorated block. */
  datatype Decorated = Decorated(
    classes: seq<string>, slides: seq<Slide>, dotLabels: seq<string>, dotsShown: bool,
    more: Option<Link>)

  /** `carousel-dotted--dots-<alignment>`, then `--no-dots` when dots are off. */
  function BlockClasses(showDots: bool, alignment: string): (r: seq<string>)
    ensures |r| >= 1 && r[0] == "carousel-dotted--dots-" + alignment
    ensures "carousel-dotted--no-dots" in r <==> !showDots
  {
    var first := "carousel-dotted--dots-" + alignment;
    assert first[17] != "carousel-dotted--no-dots"[17];
    [first] + (if showDots then [] else ["carousel-dotted--no-dots"])
  }

  /** The see-more link as appended: `button-tertiary` added, text and title
      replaced only by non-empty values. */
  function MoreLink(link: Link, text: string, title: string): (r: Link)
    ensures r.href == link.href && r.classes == link.classes + {"button-tertiary"}
    ensures r.text == (if text != "" then text else link.text)
    ensures r.title == (if title != "" then title else link.title)
  {
    link.(classes := link.classes + {"button-tertiary"},
          text := if text != "" then text else link.text,
          title := if title != "" then title else link.title)
  }

  /** One slide per row, numbered from 0. */
  method BuildSlides(slideRows: seq<Row>) returns (slides: seq<Slide>)
    ensures |slides| == |slideRows|
    ensures forall k | 0 <= k < |slides| :: slides[k] == SlideFor(slideRows[k], k)
    ensures forall k | 0 <= k < |slides| :: slides[k].index == k
  {
    slides := [];
    for index := 0 to |slideRows|
      invariant |slides| == index
      invariant forall k | 0 <= k < index :: slides[k] == SlideFor(slideRows[k], k)
    {
      slides := slides + [SlideFor(slideRows[index], index)];
    }
  }

  /** One dot per slide, labelled from 1. */
  method BuildDotLabels(count: nat) returns (labels: seq<string>)
    ensures |labels| == count
    ensures forall k | 0 <= k < count :: labels[k] == DotLabel(k)
  {
    labels := [];
    for index := 0 to count
      invariant |labels| == index
      invariant forall k | 0 <= k < index :: labels[k] == DotLabel(k)
    {
      labels := labels + [DotLabel(index)];
    }
  }

  /** `decorate`, for the structure it builds: one slide per row from the
      first slide row on, one dot per slide labelled from 1, dots attached
      only when shown, and the see-more link when detected. */
  method Decorate(rows: seq<Row>) returns (r: Decorated)
    ensures r.classes == BlockClasses(ReadBoolean(RowText(rows, 0)), ReadAlignment(RowText(rows, 1)))
    ensures r.dotsShown == ReadBoolean(RowText(rows, 0))
    ensures r.more.Some? <==> IsSeeMoreRow(rows)
    ensures IsSeeMoreRow(rows) ==> r.more == Some(MoreLink(rows[2].anchor.value, SeeMoreText(rows), SeeMoreTitle(rows)))
    ensures |r.slides| == |SlideRows(rows)|
    ensures forall k | 0 <= k < |r.slides| :: r.slides[k] == SlideFor(SlideRows(rows)[k], k)
    ensures !IsSeeMoreRow(rows) ==> |r.slides| == (if |rows| > 2 then |rows| - 2 else 0)
    ensures IsSeeMoreRow(rows) ==> |r.slides| <= |rows| - 3
    ensures forall k | 0 <= k < |r.slides| :: r.slides[k].index == k
    ensures |r.dotLabels| == |r.slides|
    ensures forall k | 0 <= k < |r.dotLabels| :: r.dotLabels[k] == DotLabel(k)
  {
    var showDots := ReadBoolean(RowText(rows, 0));
    var alignment := ReadAlignment(RowText(rows, 1));
    var nextIndex, link, text, title := DetectSeeMore(rows);
    var slideRows := if nextIndex < |rows| then rows[nextIndex..] else [];
    var slides := BuildSlides(slideRows);
    var labels := BuildDotLabels(|slides|);
    var more := if link.Some? then Some(MoreLink(link.value, text, title)) else None;
    r := Decorated(BlockClasses(showDots, alignment), slides, labels, showDots, more);
  }

  /** The dots' labels are pairwise distinct. */
  lemma DotLabelsDistinct(j: nat, k: nat)
    requires j != k
    ensures DotLabel(j) != DotLabel(k)
  {
    NatToStringInjective(j + 1, k + 1);
    assert DotLabel(j)[6..] == NatToString(j + 1);
    assert DotLabel(k)[6..] == NatToString(k + 1);
  }

  // ---------------------------------------------------------------------
  // The active slide
  // ---------------------------------------------------------------------

  class Dots {
    const count: nat
    /** Each slide's `is-active`, `slick-current` and `slick-active` (they
        are always toggled together) and its `aria-hidden`, unset before
        the first activation. */
    var slideActive: seq<bool>
    var slideHidden: seq<Option<bool>>
    /** Each dot's `slick-active`, its button's `aria-selected` (unset
        before the first activation) and `tabIndex`. */
    var dotActive: seq<bool>
    var dotSelected: seq<Option<bool>>
    var tabIndex: seq<int>

    ghost predicate Valid()
      reads this
    {
      && |slideActive| == count && |slideHidden| == count
      && |dotActive| == count && |dotSelected| == count && |tabIndex| == count
    }

    /** Slide and dot `index` active, every other one not. */
    ghost predicate ActiveAt(index: nat)
      reads this
      requires Valid()
    {
      && index < count
      && OnlyAt(slideActive, index) && OnlyAt(dotActive, index)
      && (forall i | 0 <= i < count ::
            slideHidden[i] == Some(i != index) && dotSelected[i] == Some(i == index)
            && tabIndex[i] == (if i == index then 0 else -1))
    }

    /** The slides and dots as built; the first slide is activated when
        there is one. */
    constructor (count: nat)
      ensures Valid() && this.count == count
      ensures count > 0 ==> ActiveAt(0)
    {
      this.count := count;
      slideActive := seq(count, _ => false);
      slideHidden := seq(count, _ => None);
      dotActive := seq(count, _ => false);
      dotSelected := seq(count, _ => None);
      tabIndex := seq(count, _ => 0);
      new;
      if count > 0 {
        SetActive(0);
      }
    }

    /** `setActive(index)`, also what a click on dot `index` does. */
    method SetActive(index: nat)
      requires Valid() && index < count
      modifies this
      ensures Valid() && ActiveAt(index)
    {
      for i := 0 to count
        invariant Valid()
        invariant forall j | 0 <= j < i :: slideActive[j] == (j == index) && slideHidden[j] == Some(j != index)
      {
        var active := i == index;
        slideActive := slideActive[i := active];
        slideHidden := slideHidden[i := Some(!active)];
      }
      for i := 0 to count
        invariant Valid()
        invariant forall j | 0 <= j < count :: slideActive[j] == (j == index) && slideHidden[j] == Some(j != index)
        invariant forall j | 0 <= j < i ::
          dotActive[j] == (j == index) && dotSelected[j] == Some(j == index)
          && tabIndex[j] == (if j == index then 0 else -1)
      {
        var active := i == index;
        dotActive := dotActive[i := active];
        dotSelected := dotSelected[i := Some(active)];
        tabIndex := tabIndex[i := if active then 0 else -1];
      }
    }
  }
}

=== FILE: carousel_helpers.dfy ===
/** Configuration readers shared by the carousel blocks
    (scripts/helper-files/carousel-helpers.js). A cell is modelled by its
    `textContent`, `None` when the row is missing. */
module CarouselHelpers {
  import opened Wrappers
  import opened Text

  const DotsAlignments: seq<string> := ["left", "center", "right"]
  const ArrowsAlignments: seq<string> := ["middle", "bottom-left", "bottom-right", "top-left", "top-right"]
  const Positions: seq<string> := ["inside-container", "outside-container"]
  const Animations: seq<string> := ["fade-in", "fade-out"]

  /** The shape every enumerated reader shares: the trimmed, lower-cased cell
      text when it is one of `allowed`, otherwise `fallback`. */
  function ReadChoice(cell: Option<string>, allowed: seq<string>, fallback: string): (r: string)
    ensures r in allowed || r == fallback
    ensures cell.None? ==> r == fallback
    ensures cell.Some? && Normalize(cell.value) in allowed ==> r == Normalize(cell.value)
    ensures cell.Some? && Normalize(cell.value) !in allowed ==> r == fallback
  {
    match cell
    case None => fallback
    case Some(text) =>
      var value := Normalize(text);
      if value in allowed then value else fallback
  }

  function ReadBoolean(cell: Option<string>, fallback: bool := false): (r: bool)
    ensures cell.None? ==> r == fallback
    ensures cell.Some? && Normalize(cell.value) == "true" ==> r
    ensures cell.Some? && Normalize(cell.value) == "false" ==> !r
    ensures cell.Some? && Normalize(cell.value) !in ["true", "false"] ==> r == fallback
  {
    match cell
    case None => fallback
    case Some(text) =>
      var value := Normalize(text);
      if value == "true" then true
      else if value == "false" then false
      else fallback
  }

  function ReadDotsAlignment(cell: Option<string>, fallback: string := "center"): (r: string)
    ensures r in DotsAlignments || r == fallback
    ensures cell.None? ==> r == fallback
  {
    ReadChoice(cell, DotsAlignments, fallback)
  }

  function ReadArrowsAlignment(cell: Option<string>, fallback: string := "center"): (r: string)
    ensures r in ArrowsAlignments || r == fallback
    ensures cell.None? ==> r == fallback
  {
    ReadChoice(cell, ArrowsAlignments, fallback)
  }

  function ReadPosition(cell: Option<string>, fallback: string := "inside-container"): (r: string)
    ensures r in Positions || r == fallback
    ensures cell.None? ==> r == fallback
  {
    ReadChoice(cell, Positions, fallback)
  }

  function ReadAnimation(cell: Option<string>, fallback: string := "no-animation"): (r: string)
    ensures r in Animations || r == fallback
    ensures cell.None? ==> r == fallback
  {
    ReadChoice(cell, Animations, fallback)
  }

  /** Writing an allowed value and reading it back gives that value, whatever
      the fallback. */
  lemma ReadChoiceRoundTrip(v: string, allowed: seq<string>, fallback: string)
    requires v in allowed && Normalize(v) == v
    ensures ReadChoice(Some(v), allowed, fallback) == v
  {
  }

  /** Writing a boolean as `true`/`false` and reading it back gives it back. */
  lemma {:induction false} ReadBooleanRoundTrip(b: bool, fallback: bool)
    ensures ReadBoolean(Some(if b then "true" else "false"), fallback) == b
  {
    if b {
      CanonicalNormalize("true");
    } else {
      CanonicalNormalize("false");
    }
  }

  /** Surrounding white space and letter case in a cell never change what an
      enumerated reader returns. */
  lemma {:induction false} ReadChoiceIgnoresCaseAndPadding(a: string, s: string, b: string, t: string, allowed: seq<string>, fallback: string)
    requires AllSpace(a) && AllSpace(b) && Lower(s) == Lower(t)
    ensures ReadChoice(Some(a + s + b), allowed, fallback) == ReadChoice(Some(t), allowed, fallback)
  {
    NormalizeIgnoresPadding(a, s, b);
    NormalizeIgnoresCase(s, t);
  }

  /** The same for the boolean reader. */
  lemma {:induction false} ReadBooleanIgnoresCaseAndPadding(a: string, s: string, b: string, t: string, fallback: bool)
    requires AllSpace(a) && AllSpace(b) && Lower(s) == Lower(t)
    ensures ReadBoolean(Some(a + s + b), fallback) == ReadBoolean(Some(t), fallback)
  {
    NormalizeIgnoresPadding(a, s, b);
    NormalizeIgnoresCase(s, t);
  }

  /** The arrows reader's default fallback is not one of the values it accepts. */
  lemma ArrowsDefaultOutsideAccepted()
    ensures ReadArrowsAlignment(None) !in ArrowsAlignments
  {
  }
}

=== FILE: exclusive.dfy ===
/** Vocabulary for rows of on/off flags where the widgets allow at most one
    entry to be open (nav items, login panels, megamenu titles, footer
    groups, carousel slides). */
module Exclusive {

  /** No two entries are set. */
  predicate AtMostOne(s: seq<bool>) {
    forall i, j | 0 <= i < j < |s| :: !(s[i] && s[j])
  }

  /** Some entry is set. */
  predicate AnySet(s: seq<bool>) {
    exists i | 0 <= i < |s| :: s[i]
  }

  /** Entry `k` is the only entry set. */
  predicate OnlyAt(s: seq<bool>, k: nat) {
    k < |s| && forall i | 0 <= i < |s| :: s[i] == (i == k)
  }

  /** `n` entries, none set. */
  function Cleared(n: nat): (r: seq<bool>)
    ensures |r| == n && !AnySet(r) && AtMostOne(r)
  {
    seq(n, _ => false)
  }

  /** `n` entries, only entry `k` set. */
  function Single(n: nat, k: nat): (r: seq<bool>)
    requires k < n
    ensures |r| == n && OnlyAt(r, k) && AnySet(r) && AtMostOne(r)
  {
    var r := seq(n, i => i == k);
    assert forall i | 0 <= i < n :: r[i] == (i == k);
    assert r[k];
    r
  }
}

=== FILE: footer.dfy ===
/** The footer block (blocks/footer/footer.js): the authored list of link
    sections rebuilt as titled columns plus a bottom bar of the remaining
    paragraphs, and an accordion on narrow screens that opens at most one
    column at a time. */
module Footer {
  import opened Wrappers
  import opened Text
  import opened Exclusive

  // ---------------------------------------------------------------------
  // Authored content
  // ---------------------------------------------------------------------

  /** One entry of the main list: its first nested `ul` (the outer HTML of
      every `li` inside it, in document order) and the text of its first
      `strong`. */
  datatype Section = Section(list: Option<seq<string>>, title: Option<string>)

  /** A `p` of the content wrapper, in document order. */
  datatype Paragraph = Paragraph(hasStrong: bool, html: string)

  /** `.default-content-wrapper`: its first `ul` (by that list's children)
      and all of its paragraphs. */
  datatype ContentWrapper = ContentWrapper(mainList: Option<seq<Section>>, paragraphs: seq<Paragraph>)

  // ---------------------------------------------------------------------
  // Built structure
  // ---------------------------------------------------------------------

  /** `.footer-column > .footer-group`: an `h3.footer-title` and a copy of
      the section's link items. */
  datatype Column = Column(title: string, links: seq<string>)

  /** `.footer-container`: the row of columns and the bottom bar. */
  datatype Structure = Structure(columns: seq<Column>, bottom: seq<string>)

  /** The column a section yields: none without a nested list or a title. */
  function ColumnFor(s: Section): Option<Column> {
    if s.list.None? || s.title.None? then None
    else Some(Column(Trim(s.title.value), s.list.value))
  }

  /** The column a section yields, as a list of at most one. */
  function ColumnOf(s: Section): seq<Column> {
    if ColumnFor(s).Some? then [ColumnFor(s).value] else []
  }

  /** The columns the sections yield, in order. */
  function Columns(sections: seq<Section>): seq<Column> {
    if sections == [] then [] else ColumnOf(sections[0]) + Columns(sections[1..])
  }

  /** The paragraphs the bottom bar keeps, in order. */
  function BottomParagraphs(ps: seq<Paragraph>): seq<string> {
    if ps == [] then []
    else (if ps[0].hasStrong then [] else [ps[0].html]) + BottomParagraphs(ps[1..])
  }

  lemma {:induction false} ColumnsAppend(sections: seq<Section>, s: Section)
    ensures Columns(sections + [s]) == Columns(sections) + ColumnOf(s)
  {
    if sections == [] {
      assert [s][1..] == [];
    } else {
      assert (sections + [s])[1..] == sections[1..] + [s];
      ColumnsAppend(sections[1..], s);
    }
  }

  lemma {:induction false} BottomAppend(ps: seq<Paragraph>, p: Paragraph)
    ensures BottomParagraphs(ps + [p]) == BottomParagraphs(ps) + (if p.hasStrong then [] else [p.html])
  {
    if ps == [] {
      assert [p][1..] == [];
    } else {
      assert (ps + [p])[1..] == ps[1..] + [p];
      BottomAppend(ps[1..], p);
    }
  }

  /** Every column comes from a complete section of the list, with the
      section's title trimmed and its link items copied unchanged; there are
      never more columns than sections, and exactly as many when every
      section is complete. */
  lemma {:induction false} ColumnsFromSections(sections: seq<Section>)
    ensures forall c | c in Columns(sections) ::
      exists s | s in sections :: s.list.Some? && s.title.Some? && c == Column(Trim(s.title.value), s.list.value)
    ensures |Columns(sections)| <= |sections|
    ensures (forall s | s in sections :: s.list.Some? && s.title.Some?) ==> |Columns(sections)| == |sections|
  {
    if sections != [] {
      ColumnsFromSections(sections[1..]);
      assert forall s | s in sections[1..] :: s in sections;
    }
  }

  /** The bottom bar keeps exactly the paragraphs without a `strong`: each
      kept one is such a paragraph, and every such paragraph is kept. */
  lemma {:induction false} BottomKeepsPlainParagraphs(ps: seq<Paragraph>)
    ensures forall h | h in BottomParagraphs(ps) :: exists p | p in ps :: !p.hasStrong && p.html == h
    ensures forall p | p in ps && !p.hasStrong :: p.html in BottomParagraphs(ps)
  {
    if ps != [] {
      BottomKeepsPlainParagraphs(ps[1..]);
      assert forall p | p in ps[1..] :: p in ps;
      assert forall p | p in ps :: p == ps[0] || p in ps[1..];
    }
  }

  /** The section loop of `buildFooterStructure`: one column per complete
      section, in order. */
  method BuildColumns(sections: seq<Section>) returns (columns: seq<Column>)
    ensures columns == Columns(sections)
  {
    columns := [];
    for i := 0 to |sections|
      invariant columns == Columns(sections[..i])
    {
      assert sections[..i + 1] == sections[..i] + [sections[i]];
      ColumnsAppend(sections[..i], sections[i]);
      var s := sections[i];
      if s.list.Some? && s.title.Some? {
        columns := columns + [Column(Trim(s.title.value), s.list.value)];
      }
    }
    assert sections[..|sections|] == sections;
  }

  /** The paragraph loop of `buildFooterStructure`: the paragraphs without a
      `strong`, in order. */
  method BuildBottom(ps: seq<Paragraph>) returns (bottom: seq<string>)
    ensures bottom == BottomParagraphs(ps)
  {
    bottom := [];
    for i := 0 to |ps|
      invariant bottom == BottomParagraphs(ps[..i])
    {
      assert ps[..i + 1] == ps[..i] + [ps[i]];
      BottomAppend(ps[..i], ps[i]);
      if !ps[i].hasStrong {
        bottom := bottom + [ps[i].html];
      }
    }
    assert ps[..|ps|] == ps;
  }

  /** `buildFooterStructure`: nothing is rebuilt without a content wrapper
      or without a list in it; otherwise one column per complete section and
      a bottom bar of the paragraphs without a `strong`, both in document
      order. */
  method BuildFooterStructure(wrapper: Option<ContentWrapper>) returns (r: Option<Structure>)
    ensures r.None? <==> wrapper.None? || wrapper.value.mainList.None?
    ensures r.Some? ==> r.value.columns == Columns(wrapper.value.mainList.value)
    ensures r.Some? ==> r.value.bottom == BottomParagraphs(wrapper.value.paragraphs)
  {
    if wrapper.None? {
      return None;
    }
    if wrapper.value.mainList.None? {
      return None;
    }
    var columns := BuildColumns(wrapper.value.mainList.value);
    var bottom := BuildBottom(wrapper.value.paragraphs);
    return Some(Structure(columns, bottom));
  }

  // ---------------------------------------------------------------------
  // Accordion
  // ---------------------------------------------------------------------

  /** Below this viewport width the column titles toggle their groups. */
  const AccordionMaxWidth: int := 992

  /** The `.footer-group` elements and their `active` class. */
  class Accordion {
    var active: seq<bool>

    /** Every group as built: inactive. */
    constructor (groups: nat)
      ensures active == Cleared(groups)
    {
      active := Cleared(groups);
    }

    /** A click on group `k`'s title: ignored at a width of 992 or more;
        otherwise every group is deactivated and `k` is activated unless it
        was active, so at most one group is open afterwards and a second
        click on the open one closes it. */
    method Click(k: nat, innerWidth: int)
      requires k < |active|
      modifies this
      ensures innerWidth >= AccordionMaxWidth ==> unchanged(this)
      ensures innerWidth < AccordionMaxWidth && old(active[k]) ==> active == Cleared(|old(active)|)
      ensures innerWidth < AccordionMaxWidth && !old(active[k]) ==> active == Single(|old(active)|, k)
      ensures innerWidth < AccordionMaxWidth ==> AtMostOne(active)
    {
      if innerWidth >= AccordionMaxWidth {
        return;
      }
      var wasActive := active[k];
      var n := |active|;
      for i := 0 to n
        invariant |active| == n
        invariant forall j | 0 <= j < i :: !active[j]
        invariant forall j | i <= j < n :: active[j] == old(active[j])
      {
        active := active[i := false];
      }
      if !wasActive {
        active := active[k := true];
      }
    }
  }

  /** On a narrow screen, clicking the same title twice from a closed
      footer leaves every group closed again. */
  method ClickTwiceCloses(a: Accordion, k: nat, innerWidth: int)
    requires k < |a.active| && !AnySet(a.active) && innerWidth < AccordionMaxWidth
    modifies a
    ensures a.active == Cleared(|old(a.active)|)
  {
    a.Click(k, innerWidth);
    a.Click(k, innerWidth);
  }
}

=== FILE: header.dfy ===
/** The site header (blocks/header/header.js): the desktop bar with its
    megamenu and scroll rules, the mobile drawer with its nested levels, and
    the choice between the two layouts.

    The page is modelled by the flags the script sets; measured geometry
    (`scrollY`, the top nav's height, the mobile bar's height) arrives as
    integer parameters of the handlers. */
module Header {
  import opened Wrappers
  import opened Exclusive
  import NavBlock = MainNavItem

  // ---------------------------------------------------------------------
  // Layout
  // ---------------------------------------------------------------------

  /** Which sub-blocks the loaded nav fragment holds. */
  datatype NavBlocks = NavBlocks(
    topNav: bool, brandLogo: bool, mainNavItems: nat,
    login: bool, location: bool, search: bool)

  /** A block of the fragment, or (on mobile only) the nested item built
      from a main-nav block. */
  datatype Block =
    | TopNav | BrandLogo | MainNavItem(index: nat) | Login | Location | Search
    | NestedNavItem(index: nat)

  /** The element a block is appended to. */
  datatype Container =
    | HeaderNav | MainNavDesktop | MainNavRight
    | MobileTopBar | MobileMenuTopRow | MobileNavContent

  datatype Placement = Placement(block: Block, container: Container)

  datatype Layout = DesktopLayout(desktop: seq<Placement>) | MobileLayout(mobile: seq<Placement>)

  function Opt<T>(present: bool, x: T): seq<T> {
    if present then [x] else []
  }

  /** The `i`-th main-nav block, or the nested item built from it. */
  function NavItemBlock(i: nat, nested: bool): Block {
    if nested then NestedNavItem(i) else MainNavItem(i)
  }

  function NavItemBlocks(n: nat, nested: bool): seq<Block> {
    seq(n, i requires 0 <= i => NavItemBlock(i, nested))
  }

  function Items(n: nat, c: Container, nested: bool): (r: seq<Placement>)
    ensures |r| == n && forall i | 0 <= i < n :: r[i] == Placement(NavItemBlock(i, nested), c)
    ensures forall x | x in r :: x.container == c && (if nested then x.block.NestedNavItem? else x.block.MainNavItem?)
  {
    seq(n, i requires 0 <= i => Placement(NavItemBlock(i, nested), c))
  }

  /** The blocks of a fragment, each once; with `nested`, each main-nav
      block is replaced by the nested item built from it. */
  function FragmentBlocks(b: NavBlocks, nested: bool): multiset<Block> {
    multiset(Opt(b.topNav, TopNav)) + multiset(Opt(b.brandLogo, BrandLogo))
    + multiset(NavItemBlocks(b.mainNavItems, nested))
    + multiset(Opt(b.login, Login)) + multiset(Opt(b.location, Location)) + multiset(Opt(b.search, Search))
  }

  /** The blocks a layout places, counted with multiplicity. */
  function Placed(ps: seq<Placement>): multiset<Block> {
    if ps == [] then multiset{} else multiset{ps[0].block} + Placed(ps[1..])
  }

  lemma {:induction false} PlacedAppend(xs: seq<Placement>, ys: seq<Placement>)
    ensures Placed(xs + ys) == Placed(xs) + Placed(ys)
  {
    if xs != [] {
      assert (xs + ys)[1..] == xs[1..] + ys;
      PlacedAppend(xs[1..], ys);
    } else {
      assert xs + ys == ys;
    }
  }

  lemma {:induction false} PlacedItems(n: nat, c: Container, nested: bool)
    ensures Placed(Items(n, c, nested)) == multiset(NavItemBlocks(n, nested))
  {
    if n > 0 {
      var last := Placement(NavItemBlock(n - 1, nested), c);
      assert Items(n, c, nested) == Items(n - 1, c, nested) + [last];
      assert NavItemBlocks(n, nested) == NavItemBlocks(n - 1, nested) + [NavItemBlock(n - 1, nested)];
      PlacedAppend(Items(n - 1, c, nested), [last]);
      PlacedItems(n - 1, c, nested);
      assert Placed([last]) == multiset{last.block} by {
        assert [last][1..] == [];
      }
    } else {
      assert Items(n, c, nested) == [];
    }
  }

  lemma PlacedOpt(present: bool, blk: Block, c: Container)
    ensures Placed(Opt(present, Placement(blk, c))) == multiset(Opt(present, blk))
  {
    if present {
      assert [Placement(blk, c)][1..] == [];
    }
  }

  /** Document order of `buildDesktopLayout`: the top nav directly in the
      header, then the bar holding the brand logo and, on its right, the nav
      items in fragment order followed by login, location and search. */
  function BuildDesktopLayout(b: NavBlocks): (r: seq<Placement>)
    ensures b.topNav ==> |r| > 0 && r[0] == Placement(TopNav, HeaderNav)
    ensures forall k | 0 <= k < |r| :: r[k].block != TopNav ==> (r[k].container == MainNavDesktop || r[k].container == MainNavRight)
    ensures forall k | 0 <= k < |r| :: r[k].block.MainNavItem? ==> r[k].container == MainNavRight
  {
    Opt(b.topNav, Placement(TopNav, HeaderNav))
    + Opt(b.brandLogo, Placement(BrandLogo, MainNavDesktop))
    + Items(b.mainNavItems, MainNavRight, false)
    + Opt(b.login, Placement(Login, MainNavRight))
    + Opt(b.location, Placement(Location, MainNavRight))
    + Opt(b.search, Placement(Search, MainNavRight))
  }

  /** Document order of `buildMobileLayout`: the top bar (brand logo, login),
      then the drawer's content: search and location, one nested item per
      main-nav block (its trigger and link columns, see `NestedItemFor`),
      and the top nav last. No main-nav block is appended itself. */
  function BuildMobileLayout(b: NavBlocks): (r: seq<Placement>)
    ensures forall x | x in r :: x.block == TopNav ==> x.container == MobileNavContent
    ensures forall x | x in r :: (x.block == BrandLogo || x.block == Login) <==> x.container == MobileTopBar
    ensures forall x | x in r :: !x.block.MainNavItem?
    ensures forall x | x in r :: x.block.NestedNavItem? ==> x.container == MobileNavContent
  {
    var topBar := Opt(b.brandLogo, Placement(BrandLogo, MobileTopBar))
      + Opt(b.login, Placement(Login, MobileTopBar));
    assert forall x | x in topBar :: MobilePlacement(x);
    var menuTop := topBar
      + Opt(b.search, Placement(Search, MobileMenuTopRow))
      + Opt(b.location, Placement(Location, MobileMenuTopRow));
    assert forall x | x in menuTop :: MobilePlacement(x);
    var items := Items(b.mainNavItems, MobileNavContent, true);
    assert forall x | x in items :: MobilePlacement(x);
    var r := menuTop + items + Opt(b.topNav, Placement(TopNav, MobileNavContent));
    assert forall x | x in r :: MobilePlacement(x);
    r
  }

  /** Where the mobile layout may put a block. */
  predicate MobilePlacement(x: Placement) {
    && !x.block.MainNavItem?
    && (x.block.NestedNavItem? ==> x.container == MobileNavContent)
    && (x.block == TopNav ==> x.container == MobileNavContent)
    && ((x.block == BrandLogo || x.block == Login) <==> x.container == MobileTopBar)
  }

  lemma PlacedAppend6(a: seq<Placement>, b: seq<Placement>, c: seq<Placement>,
                      d: seq<Placement>, e: seq<Placement>, f: seq<Placement>)
    ensures Placed(a + b + c + d + e + f) == Placed(a) + Placed(b) + Placed(c) + Placed(d) + Placed(e) + Placed(f)
  {
    PlacedAppend(a, b);
    PlacedAppend(a + b, c);
    PlacedAppend(a + b + c, d);
    PlacedAppend(a + b + c + d, e);
    PlacedAppend(a + b + c + d + e, f);
  }

  lemma Reorder<T>(a: multiset<T>, b: multiset<T>, c: multiset<T>, d: multiset<T>, e: multiset<T>, f: multiset<T>)
    ensures a + b + c + d + e + f == f + a + e + b + d + c
  {
  }

  /** The desktop layout places every block of the fragment exactly once. */
  lemma {:induction false} DesktopPlacesEveryBlockOnce(b: NavBlocks)
    ensures Placed(BuildDesktopLayout(b)) == FragmentBlocks(b, false)
  {
    PlacedAppend6(
      Opt(b.topNav, Placement(TopNav, HeaderNav)),
      Opt(b.brandLogo, Placement(BrandLogo, MainNavDesktop)),
      Items(b.mainNavItems, MainNavRight, false),
      Opt(b.login, Placement(Login, MainNavRight)),
      Opt(b.location, Placement(Location, MainNavRight)),
      Opt(b.search, Placement(Search, MainNavRight)));
    PlacedOpt(b.topNav, TopNav, HeaderNav);
    PlacedOpt(b.brandLogo, BrandLogo, MainNavDesktop);
    PlacedItems(b.mainNavItems, MainNavRight, false);
    PlacedOpt(b.login, Login, MainNavRight);
    PlacedOpt(b.location, Location, MainNavRight);
    PlacedOpt(b.search, Search, MainNavRight);
  }

  /** The mobile layout places every other block of the fragment exactly
      once, in a different order, and one nested item per main-nav block in
      place of the block itself. */
  lemma {:induction false} MobilePlacesEveryBlockOnce(b: NavBlocks)
    ensures Placed(BuildMobileLayout(b)) == FragmentBlocks(b, true)
  {
    PlacedAppend6(
      Opt(b.brandLogo, Placement(BrandLogo, MobileTopBar)),
      Opt(b.login, Placement(Login, MobileTopBar)),
      Opt(b.search, Placement(Search, MobileMenuTopRow)),
      Opt(b.location, Placement(Location, MobileMenuTopRow)),
      Items(b.mainNavItems, MobileNavContent, true),
      Opt(b.topNav, Placement(TopNav, MobileNavContent)));
    PlacedOpt(b.brandLogo, BrandLogo, MobileTopBar);
    PlacedOpt(b.login, Login, MobileTopBar);
    PlacedOpt(b.search, Search, MobileMenuTopRow);
    PlacedOpt(b.location, Location, MobileMenuTopRow);
    PlacedItems(b.mainNavItems, MobileNavContent, true);
    PlacedOpt(b.topNav, TopNav, MobileNavContent);
    Reorder(multiset(Opt(b.brandLogo, BrandLogo)), multiset(Opt(b.login, Login)),
      multiset(Opt(b.search, Search)), multiset(Opt(b.location, Location)),
      multiset(NavItemBlocks(b.mainNavItems, true)), multiset(Opt(b.topNav, TopNav)));
  }

  // ---------------------------------------------------------------------
  // The nested items of the mobile drawer
  // ---------------------------------------------------------------------

  /** What `buildMobileMainNavItems` moves out of a decorated main-nav block
      into its nested item: the trigger, then every `.megamenu-column-links`
      cell of the block's columns in document order, each in a first-level
      entry of its own. The home link and the cells without lists stay in
      the block, which is not shown. */
  datatype NestedItem = NestedItem(triggerText: string, columnLinks: seq<NavBlock.DecoratedCell>)

  /** The cells holding lists, in order. */
  function LinkCellsOf(cells: seq<NavBlock.DecoratedCell>): seq<NavBlock.DecoratedCell> {
    if cells == [] then [] else (if cells[0].links then [cells[0]] else []) + LinkCellsOf(cells[1..])
  }

  function LinkCells(columns: seq<NavBlock.ColumnRow>): seq<NavBlock.DecoratedCell> {
    if columns == [] then [] else LinkCellsOf(columns[0].cells) + LinkCells(columns[1..])
  }

  function NestedItemFor(item: NavBlock.NavItem): NestedItem {
    NestedItem(item.triggerText, LinkCells(item.columns))
  }

  lemma {:induction false} LinkCellsOfMeaning(cells: seq<NavBlock.DecoratedCell>)
    ensures forall c | c in LinkCellsOf(cells) :: c.links && c in cells
    ensures forall c | c in cells && c.links :: c in LinkCellsOf(cells)
    ensures |LinkCellsOf(cells)| <= |cells|
  {
    if cells != [] {
      LinkCellsOfMeaning(cells[1..]);
      assert forall c | c in cells[1..] :: c in cells;
      assert forall c | c in cells :: c == cells[0] || c in cells[1..];
    }
  }

  /** The nested item keeps the block's trigger text, and its first-level
      entries are exactly the list-holding cells of the block's columns:
      each entry is such a cell, and each such cell is an entry. */
  lemma {:induction false} NestedItemParts(item: NavBlock.NavItem)
    ensures NestedItemFor(item).triggerText == item.triggerText
    ensures forall c | c in NestedItemFor(item).columnLinks ::
      c.links && exists k | 0 <= k < |item.columns| :: c in item.columns[k].cells
    ensures forall k, c | 0 <= k < |item.columns| && c in item.columns[k].cells && c.links ::
      c in NestedItemFor(item).columnLinks
  {
    LinkCellsSound(item.columns);
    LinkCellsComplete(item.columns);
  }

  /** Every entry is a list-holding cell of some column. */
  lemma {:induction false} LinkCellsSound(columns: seq<NavBlock.ColumnRow>)
    ensures forall c | c in LinkCells(columns) :: c.links && exists k | 0 <= k < |columns| :: c in columns[k].cells
  {
    if columns != [] {
      var head, tail := LinkCellsOf(columns[0].cells), columns[1..];
      LinkCellsSound(tail);
      LinkCellsOfMeaning(columns[0].cells);
      assert LinkCells(columns) == head + LinkCells(tail);
      forall c | c in LinkCells(columns)
        ensures c.links && exists k | 0 <= k < |columns| :: c in columns[k].cells
      {
        if c in head {
          assert c in columns[0].cells;
        } else {
          var k :| 0 <= k < |tail| && c in tail[k].cells;
          assert tail[k] == columns[k + 1];
        }
      }
    }
  }

  /** Every list-holding cell of every column is an entry. */
  lemma {:induction false} LinkCellsComplete(columns: seq<NavBlock.ColumnRow>)
    ensures forall k, c | 0 <= k < |columns| && c in columns[k].cells && c.links :: c in LinkCells(columns)
  {
    if columns != [] {
      var head, tail := LinkCellsOf(columns[0].cells), columns[1..];
      LinkCellsComplete(tail);
      LinkCellsOfMeaning(columns[0].cells);
      assert LinkCells(columns) == head + LinkCells(tail);
      forall k, c | 0 <= k < |columns| && c in columns[k].cells && c.links
        ensures c in LinkCells(columns)
      {
        if k > 0 {
          assert columns[k] == tail[k - 1];
          assert c in LinkCells(tail);
        }
      }
    }
  }

  /** `decorate`: nothing without a fragment; otherwise the layout the media
      query selects at decoration time. */
  function Decorate(fragment: Option<NavBlocks>, isDesktop: bool): (r: Option<Layout>)
    ensures r.None? <==> fragment.None?
    ensures r.Some? ==> (r.value.DesktopLayout? <==> isDesktop)
    ensures r.Some? && isDesktop ==> r.value.desktop == BuildDesktopLayout(fragment.value)
    ensures r.Some? && !isDesktop ==> r.value.mobile == BuildMobileLayout(fragment.value)
  {
    match fragment
    case None => None
    case Some(b) => Some(if isDesktop then DesktopLayout(BuildDesktopLayout(b)) else MobileLayout(BuildMobileLayout(b)))
  }

  // ---------------------------------------------------------------------
  // Desktop bar: scroll rules and megamenu
  // ---------------------------------------------------------------------

  /** Where a click lands, as the desktop handlers see it. */
  datatype DesktopClick =
    | NavItem(item: nat, insidePanel: bool)  // inside nav item `item`; `insidePanel`: inside its `.megamenu-panel`
    | Bar                                    // inside `.main-nav-desktop`, outside every nav item
    | Elsewhere                              // anywhere else in the document

  class DesktopHeader {
    /** Whether the fragment had a top nav. */
    const hasTopNav: bool
    /** Number of main-nav items. */
    const count: nat
    /** `is-active` on each `.main-nav-item`. */
    var active: seq<bool>
    /** `desktopState.isNavItemActive`. */
    var navItemActive: bool
    /** `is-scrolled` on `.main-nav-desktop`. */
    var scrolled: bool
    /** `is-hidden` on the top nav. */
    var topNavHidden: bool
    /** The top nav height cached by the scroll behaviour. */
    var scrollTopNavHeight: nat
    /** The top nav height cached by the megamenu behaviour. */
    var menuTopNavHeight: nat

    ghost predicate Shaped()
      reads this
    {
      && |active| == count
      && (!hasTopNav ==> scrollTopNavHeight == 0 && menuTopNavHeight == 0 && !topNavHidden)
    }

    /** At most one nav item is active, and the shared flag says whether one is. */
    ghost predicate Valid()
      reads this
    {
      Shaped() && AtMostOne(active) && (navItemActive <==> AnySet(active))
    }

    /** `buildDesktopLayout`'s initial state. */
    constructor (hasTopNav: bool, count: nat)
      ensures Valid()
      ensures this.hasTopNav == hasTopNav && this.count == count
      ensures active == Cleared(count) && !navItemActive && !scrolled && !topNavHidden
      ensures scrollTopNavHeight == 0 && menuTopNavHeight == 0
    {
      this.hasTopNav := hasTopNav;
      this.count := count;
      active := Cleared(count);
      navItemActive := false;
      scrolled := false;
      topNavHidden := false;
      scrollTopNavHeight := 0;
      menuTopNavHeight := 0;
    }

    /** The scroll behaviour's delayed `getTopNavHeight`: the measurement is
        kept only when there is a top nav to measure. */
    method MeasureForScroll(measured: nat)
      requires Valid()
      modifies this`scrollTopNavHeight
      ensures Valid()
      ensures scrollTopNavHeight == if hasTopNav then measured else old(scrollTopNavHeight)
    {
      if hasTopNav {
        scrollTopNavHeight := measured;
      }
    }

    /** `handleDesktopScroll`. */
    method OnScroll(scrollY: int, measured: nat)
      requires Valid()
      modifies this`scrollTopNavHeight, this`topNavHidden, this`scrolled
      ensures Valid()
      ensures scrollTopNavHeight ==
        if old(scrollTopNavHeight) == 0 && hasTopNav then measured else old(scrollTopNavHeight)
      ensures scrollTopNavHeight > 0 && scrollY >= scrollTopNavHeight ==> topNavHidden && scrolled
      ensures !(scrollTopNavHeight > 0 && scrollY >= scrollTopNavHeight) && !navItemActive ==>
        !topNavHidden && !scrolled
      ensures !(scrollTopNavHeight > 0 && scrollY >= scrollTopNavHeight) && navItemActive ==>
        topNavHidden == old(topNavHidden) && scrolled == old(scrolled)
    {
      if scrollTopNavHeight == 0 {
        MeasureForScroll(measured);
      }
      if scrollY >= scrollTopNavHeight && scrollTopNavHeight > 0 {
        if hasTopNav {
          topNavHidden := true;
        }
        scrolled := true;
      } else if !navItemActive {
        if hasTopNav {
          topNavHidden := false;
        }
        scrolled := false;
      }
    }

    /** `mainNavBlocks.forEach((block) => block.classList.remove('is-active'))`. */
    method ClearActive()
      requires Shaped()
      modifies this`active
      ensures Shaped() && active == Cleared(count)
    {
      var k := 0;
      while k < count
        invariant 0 <= k <= count && |active| == count
        invariant forall i | 0 <= i < k :: !active[i]
      {
        active := active[k := false];
        k := k + 1;
      }
    }

    /** `closeMegamenu`: re-measures the top nav, deactivates every item, and
        drops `is-scrolled` only while the page is within the top nav's height. */
    method CloseMegamenu(scrollY: int, measured: nat)
      requires Shaped()
      modifies this`menuTopNavHeight, this`active, this`navItemActive, this`scrolled
      ensures Valid()
      ensures menuTopNavHeight == if hasTopNav then measured else old(menuTopNavHeight)
      ensures active == Cleared(count) && !navItemActive
      ensures scrolled == (if scrollY <= menuTopNavHeight then false else old(scrolled))
    {
      if hasTopNav {
        menuTopNavHeight := measured;
      }
      ClearActive();
      navItemActive := false;
      if scrollY <= menuTopNavHeight {
        scrolled := false;
      }
    }

    /** A click, run through the handlers it reaches: the nav item's own
        handler (which always stops propagation), the bar's handler (which
        stops propagation while an item is active), and the document's. */
    method Click(target: DesktopClick, scrollY: int, measured: nat)
      requires Valid()
      requires target.NavItem? ==> target.item < count
      modifies this
      ensures Valid()
      ensures topNavHidden == old(topNavHidden) && scrollTopNavHeight == old(scrollTopNavHeight)
      ensures target.NavItem? && !target.insidePanel && !old(active[target.item]) ==>
        active == Single(count, target.item) && navItemActive && scrolled
        && menuTopNavHeight == old(menuTopNavHeight)
      ensures target.NavItem? && !target.insidePanel && old(active[target.item]) ==>
        && active == Cleared(count) && !navItemActive
        && menuTopNavHeight == (if hasTopNav then measured else old(menuTopNavHeight))
        && scrolled == (if scrollY <= menuTopNavHeight then false else old(scrolled))
      ensures (target.NavItem? && target.insidePanel) || target.Bar? ==> unchanged(this)
      ensures target.Elsewhere? && !old(navItemActive) ==> unchanged(this)
      ensures target.Elsewhere? && old(navItemActive) ==>
        && active == Cleared(count) && !navItemActive
        && menuTopNavHeight == (if hasTopNav then measured else old(menuTopNavHeight))
        && scrolled == (if scrollY <= menuTopNavHeight then false else old(scrolled))
    {
      match target
      case NavItem(i, insidePanel) =>
        if insidePanel {
          return;
        }
        var wasActive := active[i];
        ClearActive();
        if !wasActive {
          active := active[i := true];
          navItemActive := true;
          scrolled := true;
          assert active == Single(count, i);
        } else {
          CloseMegamenu(scrollY, measured);
        }
      case Bar =>
        // While an item is active the bar stops propagation; otherwise the
        // document handler runs and finds no active item. Either way nothing changes.
      case Elsewhere =>
        if navItemActive {
          CloseMegamenu(scrollY, measured);
        }
    }
  }

  /** Opening one nav item and then clicking it again leaves no item active. */
  method ReopenScenario(h: DesktopHeader, i: nat, scrollY: int, measured: nat)
    requires h.Valid() && i < h.count && !h.active[i]
    modifies h
    ensures h.Valid() && !h.navItemActive && h.active == Cleared(h.count)
  {
    h.Click(NavItem(i, false), scrollY, measured);
    assert h.active[i];
    h.Click(NavItem(i, false), scrollY, measured);
  }

  // ---------------------------------------------------------------------
  // Mobile drawer and nested levels
  // ---------------------------------------------------------------------

  /** Where a click lands, as the mobile handlers see it. */
  datatype MobileClick =
    | Hamburger
    | Overlay
    | NavTrigger(item: nat)                   // a nav item's trigger inside the drawer
    | FirstLevelBack(item: nat)               // the back button of that item's first-level list
    | Column(item: nat, column: nat)          // a column entry, outside its back button
    | SecondLevelBack(item: nat, column: nat) // the back button of that column's link list
    | InsideMenu                              // anything else inside the drawer
    | Outside                                 // anywhere outside the drawer and the hamburger

  class MobileHeader {
    /** Number of link columns under each nav item. */
    const columns: seq<nat>
    /** `aria-expanded` on the hamburger. */
    var hamburgerExpanded: bool
    /** `aria-label` on the hamburger. */
    var hamburgerLabel: string
    /** `is-hidden` on the hamburger. */
    var hamburgerHidden: bool
    /** `aria-hidden` on the drawer. */
    var menuAriaHidden: bool
    /** `is-open` on the drawer. */
    var menuOpen: bool
    /** `aria-hidden` on the overlay. */
    var overlayAriaHidden: bool
    /** `is-visible` on the overlay. */
    var overlayVisible: bool
    /** `document.body.style.overflowY`. */
    var bodyOverflowY: string
    /** `active` on each nav item's first-level list. */
    var firstLevel: seq<bool>
    /** `active` on each column's link list. */
    var secondLevel: seq<seq<bool>>
    /** `is-scrolled` on the mobile top bar. */
    var barScrolled: bool
    /** The header's inline `padding-top` in pixels, `None` when cleared. */
    var paddingTop: Option<nat>

    ghost predicate DrawerOpen()
      reads this
    {
      hamburgerExpanded && hamburgerLabel == "Close navigation" && hamburgerHidden
      && !menuAriaHidden && menuOpen && !overlayAriaHidden && overlayVisible
      && bodyOverflowY == "hidden"
    }

    ghost predicate DrawerClosed()
      reads this
    {
      !hamburgerExpanded && hamburgerLabel == "Open navigation" && !hamburgerHidden
      && menuAriaHidden && !menuOpen && overlayAriaHidden && !overlayVisible
      && bodyOverflowY == ""
    }

    ghost predicate LevelsShaped()
      reads this
    {
      |firstLevel| == |columns| && |secondLevel| == |columns|
      && forall i | 0 <= i < |columns| :: |secondLevel[i]| == columns[i]
    }

    /** The drawer's flags always agree with each other. */
    ghost predicate Valid()
      reads this
    {
      (DrawerOpen() || DrawerClosed()) && LevelsShaped()
    }

    ghost predicate ValidTarget(t: MobileClick)
      reads this
    {
      match t
      case NavTrigger(i) => i < |columns|
      case FirstLevelBack(i) => i < |columns|
      case Column(i, c) => i < |columns| && c < columns[i]
      case SecondLevelBack(i, c) => i < |columns| && c < columns[i]
      case _ => true
    }

    /** `buildMobileLayout` and the immediate `applyScrollState()`. */
    constructor (columns: seq<nat>, scrollY: int, barHeight: nat)
      ensures Valid() && DrawerClosed() && this.columns == columns
      ensures forall i | 0 <= i < |columns| :: !firstLevel[i] && !AnySet(secondLevel[i])
      ensures barScrolled == (scrollY > 0)
      ensures paddingTop == if scrollY > 0 then Some(barHeight) else None
    {
      this.columns := columns;
      hamburgerExpanded := false;
      hamburgerLabel := "Open navigation";
      hamburgerHidden := false;
      menuAriaHidden := true;
      menuOpen := false;
      overlayAriaHidden := true;
      overlayVisible := false;
      bodyOverflowY := "";
      firstLevel := Cleared(|columns|);
      secondLevel := seq(|columns|, i requires 0 <= i < |columns| => Cleared(columns[i]));
      barScrolled := scrollY > 0;
      paddingTop := if scrollY > 0 then Some(barHeight) else None;
    }

    /** `openMobileMenu`. */
    method OpenMenu()
      requires Valid()
      modifies this`hamburgerExpanded, this`hamburgerLabel, this`hamburgerHidden, this`menuAriaHidden,
        this`menuOpen, this`overlayAriaHidden, this`overlayVisible, this`bodyOverflowY
      ensures Valid() && DrawerOpen()
    {
      hamburgerExpanded := true;
      hamburgerLabel := "Close navigation";
      hamburgerHidden := true;
      menuAriaHidden := false;
      menuOpen := true;
      overlayAriaHidden := false;
      overlayVisible := true;
      bodyOverflowY := "hidden";
    }

    /** `closeMobileMenu`. */
    method CloseMenu()
      requires Valid()
      modifies this`hamburgerExpanded, this`hamburgerLabel, this`hamburgerHidden, this`menuAriaHidden,
        this`menuOpen, this`overlayAriaHidden, this`overlayVisible, this`bodyOverflowY
      ensures Valid() && DrawerClosed()
    {
      hamburgerExpanded := false;
      hamburgerLabel := "Open navigation";
      hamburgerHidden := false;
      menuAriaHidden := true;
      menuOpen := false;
      overlayAriaHidden := true;
      overlayVisible := false;
      bodyOverflowY := "";
    }

    /** A click, run through the handlers it reaches. Clicks inside the drawer
        only move between nested levels; the second-level back button stops
        propagation, so its column's handler does not run. */
    method Click(target: MobileClick)
      requires Valid() && ValidTarget(target)
      modifies this
      ensures Valid()
      ensures barScrolled == old(barScrolled) && paddingTop == old(paddingTop)
      ensures target.Hamburger? ==> DrawerOpen()
      ensures target.Overlay? || target.Outside? ==> DrawerClosed()
      ensures !target.Hamburger? && !target.Overlay? && !target.Outside? ==>
        (DrawerOpen() <==> old(DrawerOpen()))
      ensures target.Hamburger? || target.Overlay? || target.Outside? || target.InsideMenu? ==>
        firstLevel == old(firstLevel) && secondLevel == old(secondLevel)
      ensures target.NavTrigger? ==>
        firstLevel == old(firstLevel)[target.item := true] && secondLevel == old(secondLevel)
      ensures target.FirstLevelBack? ==>
        firstLevel == old(firstLevel)[target.item := false] && secondLevel == old(secondLevel)
      ensures target.Column? ==>
        && firstLevel == old(firstLevel)
        && secondLevel == old(secondLevel)[target.item := old(secondLevel)[target.item][target.column := true]]
      ensures target.SecondLevelBack? ==>
        && firstLevel == old(firstLevel)
        && secondLevel == old(secondLevel)[target.item := old(secondLevel)[target.item][target.column := false]]
    {
      match target
      case Hamburger =>
        if !menuOpen {
          OpenMenu();
        }
      case Overlay =>
        CloseMenu();
      case Outside =>
        if menuOpen {
          CloseMenu();
        }
      case NavTrigger(i) =>
        firstLevel := firstLevel[i := true];
      case FirstLevelBack(i) =>
        firstLevel := firstLevel[i := false];
      case Column(i, c) =>
        secondLevel := secondLevel[i := secondLevel[i][c := true]];
      case SecondLevelBack(i, c) =>
        secondLevel := secondLevel[i := secondLevel[i][c := false]];
      case InsideMenu =>
    }

    /** The window `keydown` handler: Escape closes an open drawer. */
    method Keydown(code: string)
      requires Valid()
      modifies this`hamburgerExpanded, this`hamburgerLabel, this`hamburgerHidden, this`menuAriaHidden,
        this`menuOpen, this`overlayAriaHidden, this`overlayVisible, this`bodyOverflowY
      ensures Valid()
      ensures code == "Escape" ==> DrawerClosed()
      ensures code != "Escape" || !old(menuOpen) ==> unchanged(this)
      ensures firstLevel == old(firstLevel) && secondLevel == old(secondLevel)
      ensures barScrolled == old(barScrolled) && paddingTop == old(paddingTop)
    {
      if code == "Escape" && menuOpen {
        CloseMenu();
      }
    }

    /** `applyScrollState`: below the desktop breakpoint, the bar is
        `is-scrolled` exactly when the page is scrolled, and the header's top
        padding then equals the bar's height. */
    method OnScroll(scrollY: int, barHeight: nat, isDesktop: bool)
      requires Valid()
      modifies this`barScrolled, this`paddingTop
      ensures Valid()
      ensures isDesktop ==> barScrolled == old(barScrolled) && paddingTop == old(paddingTop)
      ensures !isDesktop ==> barScrolled == (scrollY > 0)
      ensures !isDesktop ==> paddingTop == if scrollY > 0 then Some(barHeight) else None
    {
      if isDesktop {
        return;
      }
      if scrollY > 0 {
        barScrolled := true;
        paddingTop := Some(barHeight);
      } else {
        barScrolled := false;
        paddingTop := None;
      }
    }
  }

  /** Opening the drawer and closing it again, by any of the three routes,
      returns every drawer flag to its closed value; opening twice is the same
      as opening once. */
  method DrawerRoundTrip(m: MobileHeader, close: MobileClick)
    requires m.Valid() && m.DrawerClosed()
    requires close.Overlay? || close.Outside?
    modifies m
    ensures m.Valid() && m.DrawerClosed()
    ensures m.firstLevel == old(m.firstLevel) && m.secondLevel == old(m.secondLevel)
  {
    m.Click(Hamburger);
    m.Click(Hamburger);
    assert m.DrawerOpen();
    m.Click(close);
  }

  /** Descending into nav item `i`, then column `c`, then pressing both back
      buttons leaves both levels collapsed again. */
  method DescentScenario(m: MobileHeader, i: nat, c: nat)
    requires m.Valid() && i < |m.columns| && c < m.columns[i]
    requires !m.firstLevel[i] && !m.secondLevel[i][c]
    modifies m
    ensures m.Valid() && m.firstLevel == old(m.firstLevel) && m.secondLevel == old(m.secondLevel)
  {
    m.Click(NavTrigger(i));
    m.Click(Column(i, c));
    m.Click(SecondLevelBack(i, c));
    m.Click(FirstLevelBack(i));
    assert m.secondLevel[i] == old(m.secondLevel)[i];
  }
}

=== FILE: inject_model_fields.dfy ===
/** The build script scripts/inject-model-fields.js: it copies the fields
    of source models into target models of the component models, renaming
    names and labels through per-target maps, and replacing any target
    field that has the name of an injected one.

    Property lookup in the rename maps: the maps are parsed JSON objects,
    so besides their own entries they inherit the members of
    `Object.prototype`. `MapFieldAsWritten` models that lookup;
    `MapField`, used by the rest of the model, looks at own entries only. */
module InjectModelFields {
  import opened Wrappers

  // ---------------------------------------------------------------------
  // Values
  // ---------------------------------------------------------------------

  /** A JSON value as the script sees it: a string, any other value
      (with its truthiness), or a member inherited from `Object.prototype`:
      a function, which `JSON.stringify` drops from an object, or, for
      `__proto__`, the prototype object itself, which it writes as `{}`. */
  datatype Json = JStr(s: string) | JOther(repr: string, truthy: bool) | JProto(member: string)

  predicate Truthy(v: Json) {
    match v
    case JStr(s) => s != ""
    case JOther(_, t) => t
    case JProto(_) => true
  }

  /** A field: its `name` and `label` (`fieldLabel`, possibly missing) and everything
      else it holds. */
  datatype Field = Field(name: Option<Json>, fieldLabel: Option<Json>, rest: string)

  /** A model: its `id`, its `fields` (possibly missing) and everything
      else it holds. */
  datatype Model = Model(id: string, fields: Option<seq<Field>>, rest: string)

  /** A target of a source: the model to inject into and the rename maps
      (each defaulting to `{}`). */
  datatype Target = Target(targetModelId: string, nameMap: Option<map<string, Json>>, labelMap: Option<map<string, Json>>)

  /** A source: the file holding the source model, its id, and its targets
      (defaulting to none). */
  datatype Source = Source(sourceFile: string, sourceModelId: string, targets: Option<seq<Target>>)

  datatype InjectError = TargetNotFound(targetModelId: string) | SourceNotFound(sourceModelId: string, sourceFile: string)

  // ---------------------------------------------------------------------
  // mapField
  // ---------------------------------------------------------------------

  /** The members every object inherits from `Object.prototype`. */
  const ObjectPrototypeMembers: set<string> := {
    "constructor", "hasOwnProperty", "isPrototypeOf", "propertyIsEnumerable", "toLocaleString",
    "toString", "valueOf", "__proto__", "__defineGetter__", "__defineSetter__",
    "__lookupGetter__", "__lookupSetter__"
  }

  /** `m[key]` on a parsed JSON object, as written: an own entry, else an
      inherited member, else `undefined`. */
  function LookupAsWritten(m: map<string, Json>, key: string): Option<Json> {
    if key in m then Some(m[key])
    else if key in ObjectPrototypeMembers then Some(JProto(key))
    else None
  }

  /** One of `name`/`label`, renamed as written. */
  function RenameAsWritten(v: Option<Json>, m: map<string, Json>): Option<Json> {
    if v.Some? && v.value.JStr? then
      var hit := LookupAsWritten(m, v.value.s);
      if hit.Some? && Truthy(hit.value) then hit else v
    else v
  }

  /** `mapField(field, target)` as written. */
  function MapFieldAsWritten(field: Field, t: Target): Field {
    field.(name := RenameAsWritten(field.name, t.nameMap.GetOr(map[])),
           fieldLabel := RenameAsWritten(field.fieldLabel, t.labelMap.GetOr(map[])))
  }

  /** A field named after a prototype member, mapped for a target without
      rename maps, has its name replaced by that member, which the written
      JSON then leaves out; the corrected mapping keeps the name. */
  lemma PrototypeNameReplaced(rest: string, t: Target)
    requires t.nameMap.None?
    ensures var field := Field(Some(JStr("constructor")), None, rest);
      && MapFieldAsWritten(field, t).name == Some(JProto("constructor"))
      && MapField(field, t) == field
  {
  }

  /** One of `name`/`label`, renamed through the map's own entries: a
      string with a truthy entry becomes that entry; anything else is kept. */
  function Rename(v: Option<Json>, m: map<string, Json>): (r: Option<Json>)
    ensures v.Some? && v.value.JStr? && v.value.s in m && Truthy(m[v.value.s]) ==> r == Some(m[v.value.s])
    ensures !(v.Some? && v.value.JStr? && v.value.s in m && Truthy(m[v.value.s])) ==> r == v
  {
    if v.Some? && v.value.JStr? && v.value.s in m && Truthy(m[v.value.s]) then Some(m[v.value.s]) else v
  }

  /** `mapField(field, target)`, with own entries only: a copy of the field
      whose name and label are renamed, everything else as it was. */
  function MapField(field: Field, t: Target): (r: Field)
    ensures r.rest == field.rest
    ensures r.name == Rename(field.name, t.nameMap.GetOr(map[]))
    ensures r.fieldLabel == Rename(field.fieldLabel, t.labelMap.GetOr(map[]))
  {
    field.(name := Rename(field.name, t.nameMap.GetOr(map[])),
           fieldLabel := Rename(field.fieldLabel, t.labelMap.GetOr(map[])))
  }

  /** Without rename maps, a field maps to itself; and the mapping agrees
      with the lookup as written on every name that is not a prototype
      member. */
  lemma MapFieldAgrees(field: Field, t: Target)
    ensures t.nameMap.None? && t.labelMap.None? ==> MapField(field, t) == field
    ensures (field.name.Some? && field.name.value.JStr? ==> field.name.value.s !in ObjectPrototypeMembers)
         && (field.fieldLabel.Some? && field.fieldLabel.value.JStr? ==> field.fieldLabel.value.s !in ObjectPrototypeMembers)
         ==> MapField(field, t) == MapFieldAsWritten(field, t)
  {
  }

  /** The lookup as written and the corrected one give a field a different
      name exactly when the name is a prototype member that the map does
      not hold itself, and likewise for the label; everything else in the
      field is kept by both. */
  lemma AsWrittenDiffersOnPrototypeNames(field: Field, t: Target)
    ensures MapFieldAsWritten(field, t).rest == field.rest
    ensures var m := t.nameMap.GetOr(map[]);
      MapFieldAsWritten(field, t).name != MapField(field, t).name <==>
        field.name.Some? && field.name.value.JStr? && field.name.value.s !in m
        && field.name.value.s in ObjectPrototypeMembers
    ensures var m := t.labelMap.GetOr(map[]);
      MapFieldAsWritten(field, t).fieldLabel != MapField(field, t).fieldLabel <==>
        field.fieldLabel.Some? && field.fieldLabel.value.JStr? && field.fieldLabel.value.s !in m
        && field.fieldLabel.value.s in ObjectPrototypeMembers
  {
  }

  // ---------------------------------------------------------------------
  // injectFieldsIntoModel
  // ---------------------------------------------------------------------

  /** `componentModels.find((m) => m.id === id)`: the first model with the
      id, or -1. */
  function FindModel(models: seq<Model>, id: string): (r: int)
    ensures -1 <= r < |models|
    ensures r >= 0 ==> models[r].id == id && forall k | 0 <= k < r :: models[k].id != id
    ensures r < 0 ==> forall k | 0 <= k < |models| :: models[k].id != id
  {
    if models == [] then -1
    else if models[0].id == id then 0
    else
      var r := FindModel(models[1..], id);
      assert forall k | 1 <= k < |models| :: models[k] == models[1..][k - 1];
      if r < 0 then -1 else r + 1
  }

  /** `new Set(fields.map((f) => f.name))`. */
  function NamesOf(fields: seq<Field>): set<Option<Json>> {
    set f | f in fields :: f.name
  }

  /** The fields whose name is not among `names`, in order. */
  function Without(fields: seq<Field>, names: set<Option<Json>>): (r: seq<Field>)
    ensures |r| <= |fields|
  {
    if fields == [] then []
    else (if fields[0].name !in names then [fields[0]] else []) + Without(fields[1..], names)
  }

  /** The fields kept are exactly those whose name is not among `names`. */
  lemma {:induction false} WithoutMembers(fields: seq<Field>, names: set<Option<Json>>)
    ensures forall f :: f in Without(fields, names) <==> f in fields && f.name !in names
  {
    if fields != [] {
      WithoutMembers(fields[1..], names);
      assert forall f | f in fields :: f == fields[0] || f in fields[1..];
    }
  }

  /** The target's new fields: its fields (none when missing) without
      those named like an injected one, then the injected ones. */
  function Injected(prior: Option<seq<Field>>, fields: seq<Field>): seq<Field> {
    Without(prior.GetOr([]), NamesOf(fields)) + fields
  }

  /** The injected fields come last, in order; every earlier field is a
      prior one whose name no injected field has; every such prior field is
      kept. */
  lemma InjectedShape(prior: Option<seq<Field>>, fields: seq<Field>)
    ensures var r := Injected(prior, fields);
      && |fields| <= |r|
      && r[|r| - |fields|..] == fields
      && (forall f | f in r[..|r| - |fields|] :: f in prior.GetOr([]) && f.name !in NamesOf(fields))
      && (forall f | f in prior.GetOr([]) && f.name !in NamesOf(fields) :: f in r)
  {
    var r := Injected(prior, fields);
    var kept := Without(prior.GetOr([]), NamesOf(fields));
    WithoutMembers(prior.GetOr([]), NamesOf(fields));
    assert r[..|r| - |fields|] == kept;
    assert r[|r| - |fields|..] == fields;
  }

  lemma {:induction false} WithoutAppend(a: seq<Field>, b: seq<Field>, names: set<Option<Json>>)
    ensures Without(a + b, names) == Without(a, names) + Without(b, names)
  {
    if a != [] {
      assert (a + b)[1..] == a[1..] + b;
      WithoutAppend(a[1..], b, names);
    } else {
      assert a + b == b;
    }
  }

  lemma {:induction false} WithoutTwice(a: seq<Field>, names: set<Option<Json>>)
    ensures Without(Without(a, names), names) == Without(a, names)
  {
    if a != [] {
      WithoutTwice(a[1..], names);
      var head := if a[0].name !in names then [a[0]] else [];
      WithoutAppend(head, Without(a[1..], names), names);
      if a[0].name !in names {
        assert head[1..] == [];
      }
    }
  }

  lemma {:induction false} WithoutOwnNames(fields: seq<Field>, names: set<Option<Json>>)
    requires NamesOf(fields) <= names
    ensures Without(fields, names) == []
  {
    if fields != [] {
      assert fields[0] in fields;
      assert NamesOf(fields[1..]) <= NamesOf(fields);
      WithoutOwnNames(fields[1..], names);
    }
  }

  /** Injecting the same fields twice gives the fields injecting them once
      gives. */
  lemma InjectTwice(prior: Option<seq<Field>>, fields: seq<Field>)
    ensures Injected(Some(Injected(prior, fields)), fields) == Injected(prior, fields)
  {
    var names := NamesOf(fields);
    var kept := Without(prior.GetOr([]), names);
    assert Injected(prior, fields) == kept + fields;
    assert Injected(Some(kept + fields), fields) == Without(kept + fields, names) + fields;
    WithoutAppend(kept, fields, names);
    WithoutTwice(prior.GetOr([]), names);
    WithoutOwnNames(fields, names);
    assert Without(kept + fields, names) == kept + [];
  }

  /** `injectFieldsIntoModel` on the models: an error when no model has the
      target id; otherwise the first such model with its new fields. */
  function InjectModel(models: seq<Model>, targetId: string, fields: seq<Field>): (r: Result<seq<Model>, InjectError>)
    ensures FindModel(models, targetId) < 0 <==> r.Failure?
    ensures r.Failure? ==> r.error == TargetNotFound(targetId)
  {
    var k := FindModel(models, targetId);
    if k < 0 then Failure(TargetNotFound(targetId))
    else Success(models[k := models[k].(fields := Some(Injected(models[k].fields, fields)))])
  }

  /** Only the target changes, and only in its fields: every model keeps
      its place and id, and every model but the first with the target id
      is unchanged. */
  lemma InjectModelFrame(models: seq<Model>, targetId: string, fields: seq<Field>)
    requires InjectModel(models, targetId, fields).Success?
    ensures var k := FindModel(models, targetId); var m := InjectModel(models, targetId, fields).value;
      && |m| == |models|
      && (forall j | 0 <= j < |models| && j != k :: m[j] == models[j])
      && m[k].id == targetId && m[k].rest == models[k].rest
      && m[k].fields == Some(Injected(models[k].fields, fields))
  {
  }

  /** Injecting the same fields into the same target twice gives the
      models injecting once gives. */
  lemma InjectModelTwice(models: seq<Model>, targetId: string, fields: seq<Field>)
    requires InjectModel(models, targetId, fields).Success?
    ensures InjectModel(InjectModel(models, targetId, fields).value, targetId, fields) == InjectModel(models, targetId, fields)
  {
    var k := FindModel(models, targetId);
    var m := InjectModel(models, targetId, fields).value;
    InjectModelFrame(models, targetId, fields);
    assert FindModel(m, targetId) == k;
    InjectTwice(models[k].fields, fields);
    assert m[k].(fields := Some(Injected(m[k].fields, fields))) == m[k];
    assert m[k := m[k]] == m;
  }

  // ---------------------------------------------------------------------
  // The component models and the script's run
  // ---------------------------------------------------------------------

  /** The application of one target: the source's fields mapped for the
      target and injected into it. */
  function ApplyTarget(models: seq<Model>, sourceFields: seq<Field>, t: Target): Result<seq<Model>, InjectError> {
    InjectModel(models, t.targetModelId, seq(|sourceFields|, i requires 0 <= i < |sourceFields| => MapField(sourceFields[i], t)))
  }

  /** The targets applied in order, stopping at the first error. */
  function ApplyTargets(models: seq<Model>, sourceFields: seq<Field>, targets: seq<Target>): Result<seq<Model>, InjectError>
    decreases |targets|
  {
    if targets == [] then Success(models)
    else
      var before := ApplyTargets(models, sourceFields, targets[..|targets| - 1]);
      if before.Failure? then before else ApplyTarget(before.value, sourceFields, targets[|targets| - 1])
  }

  /** One source: an error when its file has no model with its id;
      otherwise its targets (none when missing) applied. */
  function ApplySource(models: seq<Model>, s: Source, sourceModels: string -> Option<seq<Model>>): Result<seq<Model>, InjectError> {
    var candidates := sourceModels(s.sourceFile).GetOr([]);
    var k := FindModel(candidates, s.sourceModelId);
    if k < 0 then Failure(SourceNotFound(s.sourceModelId, s.sourceFile))
    else ApplyTargets(models, candidates[k].fields.GetOr([]), s.targets.GetOr([]))
  }

  /** The sources applied in order, stopping at the first error. */
  function ApplySources(models: seq<Model>, sources: seq<Source>, sourceModels: string -> Option<seq<Model>>): Result<seq<Model>, InjectError>
    decreases |sources|
  {
    if sources == [] then Success(models)
    else
      var before := ApplySources(models, sources[..|sources| - 1], sourceModels);
      if before.Failure? then before else ApplySource(before.value, sources[|sources| - 1], sourceModels)
  }

  /** Missing lists mean nothing to do: no sources, or a found source with
      no targets, leave the models as they are; a source whose model is
      missing is an error whatever its targets. */
  lemma Defaults(models: seq<Model>, s: Source, sourceModels: string -> Option<seq<Model>>)
    ensures ApplySources(models, [], sourceModels) == Success(models)
    ensures s.targets.None? && FindModel(sourceModels(s.sourceFile).GetOr([]), s.sourceModelId) >= 0 ==>
      ApplySource(models, s, sourceModels) == Success(models)
    ensures sourceModels(s.sourceFile).None? ==> ApplySource(models, s, sourceModels) == Failure(SourceNotFound(s.sourceModelId, s.sourceFile))
  {
  }

  lemma ApplySourcesStep(models: seq<Model>, sources: seq<Source>, i: nat, sourceModels: string -> Option<seq<Model>>)
    requires i < |sources| && ApplySources(models, sources[..i], sourceModels).Success?
    ensures ApplySources(models, sources[..i + 1], sourceModels)
         == ApplySource(ApplySources(models, sources[..i], sourceModels).value, sources[i], sourceModels)
  {
    assert sources[..i + 1][..i] == sources[..i];
  }

  /** An error stops the run: once a source fails, the later ones are not
      applied. */
  lemma {:induction false} FailureStops(models: seq<Model>, sources: seq<Source>, more: seq<Source>, sourceModels: string -> Option<seq<Model>>)
    requires ApplySources(models, sources, sourceModels).Failure?
    ensures ApplySources(models, sources + more, sourceModels) == ApplySources(models, sources, sourceModels)
    decreases |more|
  {
    if more != [] {
      var all := sources + more;
      assert all[..|all| - 1] == sources + more[..|more| - 1];
      FailureStops(models, sources, more[..|more| - 1], sourceModels);
    } else {
      assert sources + more == sources;
    }
  }

  /** An error stops the targets: once a target fails, the later ones are
      not applied. */
  lemma {:induction false} TargetFailureStops(models: seq<Model>, sourceFields: seq<Field>, targets: seq<Target>, more: seq<Target>)
    requires ApplyTargets(models, sourceFields, targets).Failure?
    ensures ApplyTargets(models, sourceFields, targets + more) == ApplyTargets(models, sourceFields, targets)
    decreases |more|
  {
    if more != [] {
      var all := targets + more;
      assert all[..|all| - 1] == targets + more[..|more| - 1];
      TargetFailureStops(models, sourceFields, targets, more[..|more| - 1]);
    } else {
      assert targets + more == targets;
    }
  }

  /** The component models, whose target models the script updates in place. */
  class ComponentModels {
    var models: seq<Model>

    constructor (models: seq<Model>)
      ensures this.models == models
    {
      this.models := models;
    }

    /** `injectFieldsIntoModel`: throws (and changes nothing) when no model
        has the target id; otherwise replaces the target's fields. */
    method InjectFieldsIntoModel(targetId: string, fields: seq<Field>) returns (r: Result<(), InjectError>)
      modifies this
      ensures var expected := InjectModel(old(models), targetId, fields);
        && (r.Failure? <==> expected.Failure?)
        && (r.Failure? ==> r.error == expected.error && models == old(models))
        && (r.Success? ==> models == expected.value)
    {
      var k := FindModel(models, targetId);
      if k < 0 {
        return Failure(TargetNotFound(targetId));
      }
      var target := models[k];
      var prior := if target.fields.Some? then target.fields.value else [];
      var names := NamesOf(fields);
      var kept := Without(prior, names);
      models := models[k := target.(fields := Some(kept + fields))];
      return Success(());
    }

    /** The inner `forEach` of `main`: each target in turn; an error stops
        the script. */
    method InjectTargets(sourceFields: seq<Field>, targets: seq<Target>) returns (r: Result<(), InjectError>)
      modifies this
      ensures var expected := ApplyTargets(old(models), sourceFields, targets);
        && (r.Failure? <==> expected.Failure?)
        && (r.Failure? ==> r.error == expected.error)
        && (r.Success? ==> models == expected.value)
    {
      for i := 0 to |targets|
        invariant ApplyTargets(old(models), sourceFields, targets[..i]) == Success(models)
      {
        assert targets[..i + 1][..i] == targets[..i];
        var t := targets[i];
        var mapped := seq(|sourceFields|, j requires 0 <= j < |sourceFields| => MapField(sourceFields[j], t));
        var step := InjectFieldsIntoModel(t.targetModelId, mapped);
        if step.Failure? {
          TargetFailureStops(old(models), sourceFields, targets[..i + 1], targets[i + 1..]);
          assert targets[..i + 1] + targets[i + 1..] == targets;
          return step;
        }
      }
      assert targets[..|targets|] == targets;
      return Success(());
    }

    /** One source of `main`: its model looked up in its file (an error
        when missing), then its targets (none when missing). */
    method InjectSource(s: Source, sourceModels: string -> Option<seq<Model>>) returns (r: Result<(), InjectError>)
      modifies this
      ensures var expected := ApplySource(old(models), s, sourceModels);
        && (r.Failure? <==> expected.Failure?)
        && (r.Failure? ==> r.error == expected.error)
        && (r.Success? ==> models == expected.value)
    {
      var candidates := if sourceModels(s.sourceFile).Some? then sourceModels(s.sourceFile).value else [];
      var k := FindModel(candidates, s.sourceModelId);
      if k < 0 {
        return Failure(SourceNotFound(s.sourceModelId, s.sourceFile));
      }
      var sourceFields := if candidates[k].fields.Some? then candidates[k].fields.value else [];
      var targets := if s.targets.Some? then s.targets.value else [];
      r := InjectTargets(sourceFields, targets);
    }

    /** `main` without the file reads and the write: the sources (none when
        missing) applied in order; on success these are the models the
        script writes back, and on an error it writes nothing. */
    method InjectAll(sources: Option<seq<Source>>, sourceModels: string -> Option<seq<Model>>) returns (r: Result<(), InjectError>)
      modifies this
      ensures var expected := ApplySources(old(models), sources.GetOr([]), sourceModels);
        && (r.Failure? <==> expected.Failure?)
        && (r.Failure? ==> r.error == expected.error)
        && (r.Success? ==> models == expected.value)
    {
      var list := if sources.Some? then sources.value else [];
      for i := 0 to |list|
        invariant ApplySources(old(models), list[..i], sourceModels) == Success(models)
      {
        ApplySourcesStep(old(models), list, i, sourceModels);
        var step := InjectSource(list[i], sourceModels);
        if step.Failure? {
          FailureStops(old(models), list[..i + 1], list[i + 1..], sourceModels);
          assert list[..i + 1] + list[i + 1..] == list;
          return step;
        }
      }
      assert list[..|list|] == list;
      return Success(());
    }
  }
}

=== FILE: login.dfy ===
/** The login block (blocks/login/login.js): reading the authored rows,
    building the button and the panel's sections and link lists, and the
    handlers bound to each instance.

    blocks/login/login.js carries its own copies of `openPanel`,
    `closePanel` and `closeOtherLoginPanels` (lines 166-220), identical to
    those of blocks/login/login-panel.js; both are modelled once, by
    `LoginPanel.LoginPanels`.

    A cell is modelled by the sequence of its child elements, which is what
    the sibling walks see. */
module Login {
  import opened Wrappers
  import opened Text
  import opened Exclusive
  import opened LoginPanel

  const DefaultButtonText: string := "Log on"

  // ---------------------------------------------------------------------
  // Authored content
  // ---------------------------------------------------------------------

  /** An authored `<li>`: its first anchor's `href` and text, if any, and its text. */
  datatype SourceItem = SourceItem(anchor: Option<(string, string)>, text: string)

  /** A child element of an authored cell. */
  datatype Element =
    | H3(text: string)
    | UL(items: seq<SourceItem>)
    | OtherElement

  /** An authored row: the text of its first `<p>` if it has one, its whole
      text, and its cells. */
  datatype Row = Row(paragraph: Option<string>, text: string, cells: seq<seq<Element>>)

  datatype Parsed = Parsed(buttonText: string, contentRows: seq<Row>)

  /** `parseBlockContent`. */
  function ParseBlockContent(rows: seq<Row>): (r: Option<Parsed>)
    ensures r.None? <==> rows == []
    ensures r.Some? ==> r.value.contentRows == rows[1..]
    ensures r.Some? ==> r.value.buttonText != ""
    ensures r.Some? && rows[0].paragraph.Some? && Trim(rows[0].paragraph.value) != "" ==>
      r.value.buttonText == Trim(rows[0].paragraph.value)
    ensures r.Some? && (rows[0].paragraph.None? || Trim(rows[0].paragraph.value) == "") ==>
      r.value.buttonText == (if Trim(rows[0].text) != "" then Trim(rows[0].text) else DefaultButtonText)
  {
    if rows == [] then None
    else
      var fromParagraph := match rows[0].paragraph case Some(p) => Trim(p) case None => "";
      Some(Parsed(OrElse(fromParagraph, OrElse(Trim(rows[0].text), DefaultButtonText)), rows[1..]))
  }

  // ---------------------------------------------------------------------
  // Button
  // ---------------------------------------------------------------------

  datatype ButtonContent = TextSpan(text: string) | DropdownIcon

  datatype LoginButton = LoginButton(
    className: string, ariaExpanded: bool, ariaHasPopup: bool, content: ButtonContent)

  /** `createLoginButton`: collapsed, announcing a popup; the desktop variant
      shows the text, the mobile variant an icon instead. */
  function CreateLoginButton(buttonText: string, isDesktop: bool): (r: LoginButton)
    ensures !r.ariaExpanded && r.ariaHasPopup
    ensures StartsWith(r.className, "login-button ")
    ensures r.content.TextSpan? <==> isDesktop
    ensures isDesktop ==> r.content.text == buttonText && r.className == "login-button primary"
    ensures !isDesktop ==> r.className == "login-button icon-login"
  {
    if isDesktop then LoginButton("login-button primary", false, true, TextSpan(buttonText))
    else LoginButton("login-button icon-login", false, true, DropdownIcon)
  }

  // ---------------------------------------------------------------------
  // Link lists and sections
  // ---------------------------------------------------------------------

  datatype LinkItem = Link(href: string, text: string) | PlainItem(text: string)

  datatype LinkList = LinkList(className: string, items: seq<LinkItem>)

  /** One `.login-link-item`: a link copying the anchor when there is one,
      otherwise the item's text. */
  function ItemFor(li: SourceItem): (r: LinkItem)
    ensures r.Link? <==> li.anchor.Some?
    ensures li.anchor.Some? ==> r == Link(li.anchor.value.0, li.anchor.value.1)
    ensures li.anchor.None? ==> r.text == li.text
  {
    match li.anchor
    case Some(a) => Link(a.0, a.1)
    case None => PlainItem(li.text)
  }

  function ListClass(extra: string): string {
    if extra == "" then "login-link-list" else "login-link-list " + extra
  }

  /** `buildLinkList`: one item per source item, in order. */
  method BuildLinkList(source: seq<SourceItem>, extra: string) returns (r: LinkList)
    ensures r.className == ListClass(extra)
    ensures |r.items| == |source|
    ensures forall k | 0 <= k < |source| :: r.items[k] == ItemFor(source[k])
  {
    var items: seq<LinkItem> := [];
    for k := 0 to |source|
      invariant |items| == k
      invariant forall j | 0 <= j < k :: items[j] == ItemFor(source[j])
    {
      items := items + [ItemFor(source[k])];
    }
    r := LinkList(ListClass(extra), items);
  }

  /** The position of the first `UL` or `H3` at or after `from`, or `|cell|`. */
  function NextListOrHeading(cell: seq<Element>, from: nat): (r: nat)
    requires from <= |cell|
    ensures from <= r <= |cell|
    ensures r < |cell| ==> cell[r].UL? || cell[r].H3?
    ensures forall j | from <= j < r :: cell[j].OtherElement?
    decreases |cell| - from
  {
    if from == |cell| || !cell[from].OtherElement? then from
    else NextListOrHeading(cell, from + 1)
  }

  datatype Section = Section(title: string, list: LinkList)

  /** `buildSectionFromHeading` for the heading at `h`: walks the following
      siblings past everything but `UL` and `H3`; a section exists only when
      a `UL` is reached first. */
  method BuildSectionFromHeading(cell: seq<Element>, h: nat) returns (r: Option<Section>)
    requires h < |cell| && cell[h].H3?
    ensures var n := NextListOrHeading(cell, h + 1);
      r.Some? <==> n < |cell| && cell[n].UL?
    ensures r.Some? ==>
      var n := NextListOrHeading(cell, h + 1);
      && r.value.title == cell[h].text
      && r.value.list.className == ListClass("")
      && r.value.list.items == seq(|cell[n].items|, k requires 0 <= k < |cell[n].items| => ItemFor(cell[n].items[k]))
  {
    var next := h + 1;
    while next < |cell| && !cell[next].UL? && !cell[next].H3?
      invariant h + 1 <= next <= |cell|
      invariant NextListOrHeading(cell, h + 1) == NextListOrHeading(cell, next)
      decreases |cell| - next
    {
      next := next + 1;
    }
    if next < |cell| && cell[next].UL? {
      var list := BuildLinkList(cell[next].items, "");
      return Some(Section(cell[h].text, list));
    }
    return None;
  }

  // ---------------------------------------------------------------------
  // Panel
  // ---------------------------------------------------------------------

  datatype PanelPart = SectionPart(section: Section) | StandaloneList(list: LinkList)

  datatype Panel = Panel(ariaHidden: bool, parts: seq<PanelPart>)

  function ListFor(items: seq<SourceItem>, extra: string): (r: LinkList)
    ensures |r.items| == |items|
  {
    LinkList(ListClass(extra), seq(|items|, k requires 0 <= k < |items| => ItemFor(items[k])))
  }

  /** The section the heading at `h` yields, if any. */
  function SectionAt(cell: seq<Element>, h: nat): Option<Section>
    requires h < |cell| && cell[h].H3?
  {
    var n := NextListOrHeading(cell, h + 1);
    if n < |cell| && cell[n].UL? then Some(Section(cell[h].text, ListFor(cell[n].items, ""))) else None
  }

  /** Whether the list at `k` follows a heading directly. */
  predicate AfterHeading(cell: seq<Element>, k: nat)
    requires k < |cell|
  {
    k > 0 && cell[k - 1].H3?
  }

  /** The sections of the headings at or after `from`, in order. */
  function Sections(cell: seq<Element>, from: nat): seq<PanelPart>
    requires from <= |cell|
    decreases |cell| - from
  {
    if from == |cell| then []
    else if cell[from].H3? then
      (match SectionAt(cell, from) case Some(s) => [SectionPart(s)] case None => [])
      + Sections(cell, from + 1)
    else Sections(cell, from + 1)
  }

  /** The standalone lists at or after `from`: the lists not directly preceded by a heading. */
  function Standalone(cell: seq<Element>, from: nat): (r: seq<PanelPart>)
    requires from <= |cell|
    ensures forall j | 0 <= j < |r| :: r[j].StandaloneList?
    decreases |cell| - from
  {
    if from == |cell| then []
    else if cell[from].UL? && !AfterHeading(cell, from) then
      [StandaloneList(ListFor(cell[from].items, "login-link-list-standalone"))] + Standalone(cell, from + 1)
    else Standalone(cell, from + 1)
  }

  predicate HasHeadingOrList(cell: seq<Element>) {
    exists k | 0 <= k < |cell| :: cell[k].H3? || cell[k].UL?
  }

  /** What one cell adds to the panel: its sections, then its standalone lists. */
  function CellParts(cell: seq<Element>): seq<PanelPart> {
    if !HasHeadingOrList(cell) then [] else Sections(cell, 0) + Standalone(cell, 0)
  }

  function RowParts(cells: seq<seq<Element>>): seq<PanelPart> {
    if cells == [] then [] else CellParts(cells[0]) + RowParts(cells[1..])
  }

  function PanelParts(rows: seq<Row>): seq<PanelPart> {
    if rows == [] then [] else RowParts(rows[0].cells) + PanelParts(rows[1..])
  }

  /** A list that directly follows a heading is never emitted as a
      standalone list: when every list of a cell does, the cell yields none. */
  lemma {:induction false} NoStandaloneAfterHeading(cell: seq<Element>, from: nat)
    requires from <= |cell|
    requires forall k | from <= k < |cell| :: cell[k].UL? ==> AfterHeading(cell, k)
    ensures Standalone(cell, from) == []
    decreases |cell| - from
  {
    if from < |cell| {
      NoStandaloneAfterHeading(cell, from + 1);
    }
  }

  /** Each standalone list comes from a list in the cell that does not
      directly follow a heading, and every such list yields one. */
  lemma {:induction false} StandaloneCount(cell: seq<Element>, from: nat)
    requires from <= |cell|
    ensures |Standalone(cell, from)| == |set k | from <= k < |cell| && cell[k].UL? && !AfterHeading(cell, k)|
    decreases |cell| - from
  {
    var s := set k | from <= k < |cell| && cell[k].UL? && !AfterHeading(cell, k);
    if from < |cell| {
      StandaloneCount(cell, from + 1);
      var s' := set k | from + 1 <= k < |cell| && cell[k].UL? && !AfterHeading(cell, k);
      if cell[from].UL? && !AfterHeading(cell, from) {
        assert s == s' + {from};
      } else {
        assert s == s';
      }
    } else {
      assert s == {};
    }
  }

  /** `createLoginPanel`: hidden, holding each content row's cells' parts in order. */
  method CreateLoginPanel(contentRows: seq<Row>) returns (r: Panel)
    ensures r.ariaHidden
    ensures r.parts == PanelParts(contentRows)
  {
    var parts: seq<PanelPart> := [];
    var i := 0;
    while i < |contentRows|
      invariant 0 <= i <= |contentRows|
      invariant parts + PanelParts(contentRows[i..]) == PanelParts(contentRows)
    {
      assert contentRows[i..][1..] == contentRows[i + 1..];
      var cells := contentRows[i].cells;
      var rowParts: seq<PanelPart> := [];
      var c := 0;
      while c < |cells|
        invariant 0 <= c <= |cells|
        invariant rowParts + RowParts(cells[c..]) == RowParts(cells)
      {
        assert cells[c..][1..] == cells[c + 1..];
        var cellParts := BuildCell(cells[c]);
        rowParts := rowParts + cellParts;
        c := c + 1;
      }
      assert cells[c..] == [];
      parts := parts + rowParts;
      i := i + 1;
    }
    assert contentRows[i..] == [];
    r := Panel(true, parts);
  }

  /** The heading loop of the per-cell callback: one section per heading
      whose walk reaches a list, in order. */
  method BuildSections(cell: seq<Element>) returns (sections: seq<PanelPart>)
    ensures sections == Sections(cell, 0)
  {
    sections := [];
    var h := 0;
    while h < |cell|
      invariant 0 <= h <= |cell|
      invariant sections + Sections(cell, h) == Sections(cell, 0)
    {
      if cell[h].H3? {
        var section := BuildSectionFromHeading(cell, h);
        if section.Some? {
          assert SectionAt(cell, h) == section;
          sections := sections + [SectionPart(section.value)];
        } else {
          assert SectionAt(cell, h).None?;
        }
      }
      h := h + 1;
    }
  }

  /** The list loop of the per-cell callback: one standalone list per list
      that does not directly follow a heading, in order. */
  method BuildStandalone(cell: seq<Element>) returns (lists: seq<PanelPart>)
    ensures lists == Standalone(cell, 0)
  {
    lists := [];
    var l := 0;
    while l < |cell|
      invariant 0 <= l <= |cell|
      invariant lists + Standalone(cell, l) == Standalone(cell, 0)
    {
      if cell[l].UL? && !(l > 0 && cell[l - 1].H3?) {
        var list := BuildLinkList(cell[l].items, "login-link-list-standalone");
        assert list == ListFor(cell[l].items, "login-link-list-standalone");
        lists := lists + [StandaloneList(list)];
      }
      l := l + 1;
    }
  }

  /** The body of the per-cell callback in `createLoginPanel`. */
  method BuildCell(cell: seq<Element>) returns (parts: seq<PanelPart>)
    ensures parts == CellParts(cell)
  {
    var any := false;
    for k := 0 to |cell|
      invariant any <==> exists j | 0 <= j < k :: cell[j].H3? || cell[j].UL?
    {
      if cell[k].H3? || cell[k].UL? {
        any := true;
      }
    }
    if !any {
      return [];
    }
    var sections := BuildSections(cell);
    var lists := BuildStandalone(cell);
    parts := sections + lists;
  }

  datatype LoginBlock = LoginBlock(button: LoginButton, panel: Panel)

  /** `decorate`: nothing for an empty block; otherwise a collapsed button and
      a hidden panel built from the rows after the first. */
  method Decorate(rows: seq<Row>, isDesktop: bool) returns (r: Option<LoginBlock>)
    ensures r.None? <==> rows == []
    ensures r.Some? ==>
      && r.value.button == CreateLoginButton(ParseBlockContent(rows).value.buttonText, isDesktop)
      && r.value.panel == Panel(true, PanelParts(rows[1..]))
  {
    var parsed := ParseBlockContent(rows);
    if parsed.None? {
      return None;
    }
    var button := CreateLoginButton(parsed.value.buttonText, isDesktop);
    var panel := CreateLoginPanel(parsed.value.contentRows);
    return Some(LoginBlock(button, panel));
  }

  // ---------------------------------------------------------------------
  // Handlers (bindPanelEvents)
  // ---------------------------------------------------------------------

  /** A click on instance `k`'s button: every other panel is closed first,
      then this one is toggled by its `aria-expanded`. Afterwards the page is
      consistent and at most this panel is open. */
  method ButtonClick(p: LoginPanels, k: nat, isDesktop: bool, scrollY: int, measured: nat)
    requires p.Valid() && k < p.count
    modifies p, p.bar
    ensures p.Valid() && p.focused == old(p.focused)
    ensures old(p.Consistent()) ==> p.Consistent()
    ensures old(p.expanded[k]) ==> p.expanded == Cleared(p.count)
    ensures !old(p.expanded[k]) ==> p.expanded == Single(p.count, k)
    ensures p.bar != null ==> p.bar.active == old(p.bar.active) && p.bar.navItemActive == old(p.bar.navItemActive)
    ensures p.bar != null ==> p.bar.menuTopNavHeight == old(p.bar.menuTopNavHeight) && p.bar.scrollTopNavHeight == old(p.bar.scrollTopNavHeight)
    ensures p.bar != null && !isDesktop ==> unchanged(p.bar)
    ensures p.bar != null && isDesktop && !old(p.expanded[k]) ==>
      p.bar.scrolled && (p.bar.hasTopNav ==> p.bar.topNavHidden)
    ensures p.bar != null && isDesktop && old(p.expanded[k]) && !AnySet(p.bar.active)
            && scrollY <= (if p.bar.hasTopNav then measured else 0) ==>
      !p.bar.scrolled && !p.bar.topNavHidden
  {
    ghost var was := p.expanded[k];
    p.CloseOthers(k);
    assert p.expanded[k] == was;
    if p.expanded[k] {
      p.ClosePanel(k, isDesktop, scrollY, measured);
      assert p.expanded == Cleared(p.count);
    } else {
      p.OpenPanel(k, isDesktop);
      assert p.expanded == Single(p.count, k);
    }
  }

  /** A click on instance `k`'s overlay closes its panel. On a consistent
      page where that overlay is the one showing (or none is), the page stays
      consistent with no panel open. */
  method OverlayClick(p: LoginPanels, k: nat, isDesktop: bool, scrollY: int, measured: nat)
    requires p.Valid() && k < p.count
    modifies p, p.bar
    ensures p.Valid() && p.focused == old(p.focused)
    ensures p.expanded == old(p.expanded)[k := false] && !p.bodyOpen
    ensures p.panelHidden == old(p.panelHidden)[k := true]
    ensures p.overlayActive == old(p.overlayActive)[k := false]
    ensures p.bar != null ==> p.bar.active == old(p.bar.active) && p.bar.navItemActive == old(p.bar.navItemActive)
    ensures p.bar != null ==> p.bar.menuTopNavHeight == old(p.bar.menuTopNavHeight) && p.bar.scrollTopNavHeight == old(p.bar.scrollTopNavHeight)
    ensures p.bar != null && isDesktop && !AnySet(p.bar.active)
            && scrollY <= (if p.bar.hasTopNav then measured else 0) ==>
      !p.bar.scrolled && !p.bar.topNavHidden
    ensures p.bar != null && !(isDesktop && !AnySet(old(p.bar.active))
            && scrollY <= (if p.bar.hasTopNav then measured else 0)) ==>
      unchanged(p.bar)
    ensures old(p.Consistent()) && (old(p.overlayActive[k]) || !old(AnySet(p.expanded))) ==>
      p.Consistent() && p.expanded == Cleared(p.count)
  {
    ghost var consistent := p.Consistent();
    ghost var showing := p.overlayActive[k];
    p.ClosePanel(k, isDesktop, scrollY, measured);
    if consistent && (showing || !old(AnySet(p.expanded))) {
      assert p.expanded == Cleared(p.count);
    }
  }

  /** A document `keydown`, run through the handler of every instance in
      document order: on Escape each expanded panel is closed and its button
      focused. */
  method DocumentKeydown(p: LoginPanels, key: string, isDesktop: bool, scrollY: int, measured: nat)
    requires p.Valid()
    modifies p, p.bar
    ensures p.Valid()
    ensures key != "Escape" ==> unchanged(p) && (p.bar != null ==> unchanged(p.bar))
    ensures key == "Escape" ==> p.expanded == Cleared(p.count)
    ensures key == "Escape" && old(p.Consistent()) ==> p.Consistent()
    ensures key == "Escape" && !old(AnySet(p.expanded)) ==>
      p.focused == old(p.focused) && p.bodyOpen == old(p.bodyOpen)
    ensures key == "Escape" && old(AnySet(p.expanded)) ==>
      !p.bodyOpen && p.focused.Some? && p.focused.value < p.count && old(p.expanded)[p.focused.value]
    ensures key == "Escape" ==> forall i | 0 <= i < p.count ::
      p.panelHidden[i] == (if old(p.expanded[i]) then true else old(p.panelHidden[i]))
    ensures key == "Escape" ==> forall i | 0 <= i < p.count ::
      p.overlayActive[i] == (if old(p.expanded[i]) then false else old(p.overlayActive[i]))
    ensures p.bar != null ==> p.bar.active == old(p.bar.active) && p.bar.navItemActive == old(p.bar.navItemActive)
    ensures p.bar != null ==> p.bar.menuTopNavHeight == old(p.bar.menuTopNavHeight) && p.bar.scrollTopNavHeight == old(p.bar.scrollTopNavHeight)
    ensures key == "Escape" && old(AnySet(p.expanded)) && p.bar != null && isDesktop && !AnySet(p.bar.active)
            && scrollY <= (if p.bar.hasTopNav then measured else 0) ==>
      !p.bar.scrolled && !p.bar.topNavHidden
    ensures p.bar != null && !(key == "Escape" && old(AnySet(p.expanded)) && isDesktop && !AnySet(old(p.bar.active))
            && scrollY <= (if p.bar.hasTopNav then measured else 0)) ==>
      unchanged(p.bar)
  {
    if key != "Escape" {
      return;
    }
    var k := 0;
    while k < p.count
      invariant 0 <= k <= p.count && p.Valid()
      invariant forall i | 0 <= i < k :: !p.expanded[i]
      invariant forall i | k <= i < p.count :: p.expanded[i] == old(p.expanded[i])
      invariant forall i | 0 <= i < p.count :: p.panelHidden[i] == (if old(p.expanded[i]) && i < k then true else old(p.panelHidden[i]))
      invariant forall i | 0 <= i < p.count :: p.overlayActive[i] == (if old(p.expanded[i]) && i < k then false else old(p.overlayActive[i]))
      invariant (exists i | 0 <= i < k :: old(p.expanded[i])) ==>
        !p.bodyOpen && p.focused.Some? && p.focused.value < k && old(p.expanded)[p.focused.value]
      invariant !(exists i | 0 <= i < k :: old(p.expanded[i])) ==>
        p.bodyOpen == old(p.bodyOpen) && p.focused == old(p.focused)
      invariant p.bar != null ==> p.bar.active == old(p.bar.active) && p.bar.navItemActive == old(p.bar.navItemActive)
      invariant p.bar != null ==> p.bar.menuTopNavHeight == old(p.bar.menuTopNavHeight) && p.bar.scrollTopNavHeight == old(p.bar.scrollTopNavHeight)
      invariant (exists i | 0 <= i < k :: old(p.expanded[i])) && p.bar != null && isDesktop && !AnySet(p.bar.active)
                && scrollY <= (if p.bar.hasTopNav then measured else 0) ==>
        !p.bar.scrolled && !p.bar.topNavHidden
      invariant p.bar != null && !((exists i | 0 <= i < k :: old(p.expanded[i])) && isDesktop && !AnySet(old(p.bar.active))
                && scrollY <= (if p.bar.hasTopNav then measured else 0)) ==>
        unchanged(p.bar)
    {
      if p.expanded[k] {
        p.ClosePanel(k, isDesktop, scrollY, measured);
        p.focused := Some(k);
      }
      k := k + 1;
    }
  }

  /** Enter or Space on instance `k`'s button acts as a click on it; other
      keys do nothing. */
  method ButtonKeydown(p: LoginPanels, k: nat, key: string, isDesktop: bool, scrollY: int, measured: nat)
    requires p.Valid() && k < p.count
    modifies p, p.bar
    ensures p.Valid()
    ensures key == "Enter" || key == " " ==>
      && (old(p.Consistent()) ==> p.Consistent())
      && (old(p.expanded[k]) ==> p.expanded == Cleared(p.count))
      && (!old(p.expanded[k]) ==> p.expanded == Single(p.count, k))
    ensures p.bar != null ==> p.bar.active == old(p.bar.active) && p.bar.navItemActive == old(p.bar.navItemActive)
    ensures p.bar != null ==> p.bar.menuTopNavHeight == old(p.bar.menuTopNavHeight) && p.bar.scrollTopNavHeight == old(p.bar.scrollTopNavHeight)
    ensures p.bar != null && !isDesktop ==> unchanged(p.bar)
    ensures (key == "Enter" || key == " ") && p.bar != null && isDesktop && !old(p.expanded[k]) ==>
      p.bar.scrolled && (p.bar.hasTopNav ==> p.bar.topNavHidden)
    ensures (key == "Enter" || key == " ") && p.bar != null && isDesktop && old(p.expanded[k])
            && !AnySet(p.bar.active) && scrollY <= (if p.bar.hasTopNav then measured else 0) ==>
      !p.bar.scrolled && !p.bar.topNavHidden
    ensures key != "Enter" && key != " " ==> unchanged(p) && (p.bar != null ==> unchanged(p.bar))
  {
    if key == "Enter" || key == " " {
      ButtonClick(p, k, isDesktop, scrollY, measured);
    }
  }
}

=== FILE: login_panel.dfy ===
/** The login panels' shared behaviour (blocks/login/login-panel.js): the
    per-wrapper state lookup with its cached overlay, opening and closing one
    panel, and closing every other panel on the page.

    The page holds `count` login instances, numbered in document order. Each
    has a button (`aria-expanded`), a panel (`aria-hidden`) and an overlay
    (`is-active`); the body carries `login-panel-open`. Opening and closing
    also read and write the desktop header bar, which is shared page state. */
module LoginPanel {
  import opened Wrappers
  import opened Exclusive
  import opened Header

  // ---------------------------------------------------------------------
  // getLoginState
  // ---------------------------------------------------------------------

  /** The document body, as far as overlays are concerned: how many
      `.login-overlay` elements have been appended to it. */
  class Body {
    var overlays: nat

    constructor ()
      ensures overlays == 0
    {
      overlays := 0;
    }
  }

  /** A `.login-wrapper` element: whether it holds a button and a panel, and
      the overlay cached on it (`wrapper.loginOverlay`), by its number among
      the body's overlays. */
  class Wrapper {
    const hasButton: bool
    const hasPanel: bool
    var overlay: Option<nat>

    constructor (hasButton: bool, hasPanel: bool)
      ensures this.hasButton == hasButton && this.hasPanel == hasPanel && overlay.None?
    {
      this.hasButton := hasButton;
      this.hasPanel := hasPanel;
      overlay := None;
    }
  }

  /** `{ button, panel, overlay }`; button and panel are the wrapper's own. */
  datatype LoginState = LoginState(overlay: nat)

  /** `getLoginState`: `None` for a missing wrapper or one lacking its button
      or panel; otherwise the wrapper's overlay, created and appended to the
      body on the first call only. */
  method GetLoginState(wrapper: Wrapper?, body: Body) returns (r: Option<LoginState>)
    modifies body, wrapper
    ensures wrapper == null || !wrapper.hasButton || !wrapper.hasPanel ==>
      r.None? && body.overlays == old(body.overlays) && (wrapper != null ==> unchanged(wrapper))
    ensures wrapper != null && wrapper.hasButton && wrapper.hasPanel && old(wrapper.overlay).Some? ==>
      && r == Some(LoginState(old(wrapper.overlay).value))
      && body.overlays == old(body.overlays) && unchanged(wrapper)
    ensures wrapper != null && wrapper.hasButton && wrapper.hasPanel && old(wrapper.overlay).None? ==>
      && r == Some(LoginState(old(body.overlays)))
      && body.overlays == old(body.overlays) + 1
      && wrapper.overlay == Some(old(body.overlays))
  {
    if wrapper == null {
      return None;
    }
    if !wrapper.hasButton || !wrapper.hasPanel {
      return None;
    }
    if wrapper.overlay.None? {
      wrapper.overlay := Some(body.overlays);
      body.overlays := body.overlays + 1;
    }
    return Some(LoginState(wrapper.overlay.value));
  }

  /** Asking twice for the same wrapper's state yields the same overlay, and
      only the first call appends one to the body. */
  method GetLoginStateTwice(wrapper: Wrapper, body: Body) returns (first: Option<LoginState>, second: Option<LoginState>)
    requires wrapper.hasButton && wrapper.hasPanel && wrapper.overlay.None?
    modifies body, wrapper
    ensures first.Some? && first == second
    ensures body.overlays == old(body.overlays) + 1
  {
    first := GetLoginState(wrapper, body);
    second := GetLoginState(wrapper, body);
  }

  // ---------------------------------------------------------------------
  // Panels on the page
  // ---------------------------------------------------------------------

  class LoginPanels {
    /** Number of login instances on the page. */
    const count: nat
    /** The desktop header bar, `null` when the header built its mobile
        layout (then neither `.main-nav-desktop` nor `.header-nav > .top-nav` exists). */
    const bar: DesktopHeader?
    /** Each button's `aria-expanded`. */
    var expanded: seq<bool>
    /** Each panel's `aria-hidden`. */
    var panelHidden: seq<bool>
    /** Each overlay's `is-active`. */
    var overlayActive: seq<bool>
    /** `login-panel-open` on the body. */
    var bodyOpen: bool
    /** The login button that last received focus from a handler. */
    var focused: Option<nat>

    ghost predicate Valid()
      reads this, bar
    {
      && |expanded| == count && |panelHidden| == count && |overlayActive| == count
      && (bar != null ==> bar.Valid())
    }

    /** The page agrees with itself: a panel is hidden exactly when its
        button is collapsed, an overlay is active exactly when its button is
        expanded, the body class says whether any panel is open, and at most
        one is. */
    ghost predicate Consistent()
      reads this
    {
      && |expanded| == count && |panelHidden| == count && |overlayActive| == count
      && AtMostOne(expanded)
      && overlayActive == expanded
      && (forall i | 0 <= i < count :: panelHidden[i] == !expanded[i])
      && (bodyOpen <==> AnySet(expanded))
    }

    /** Every instance as `decorate` leaves it: collapsed and hidden. */
    constructor (count: nat, bar: DesktopHeader?)
      requires bar != null ==> bar.Valid()
      ensures Valid() && Consistent() && this.count == count && this.bar == bar
      ensures expanded == Cleared(count) && focused.None?
    {
      this.count := count;
      this.bar := bar;
      expanded := Cleared(count);
      panelHidden := seq(count, _ => true);
      overlayActive := Cleared(count);
      bodyOpen := false;
      focused := None;
    }

    /** `openPanel`: expands instance `k`, shows its panel and overlay, marks
        the body, and on desktop forces the bar's `is-scrolled` and the top
        nav's `is-hidden`. */
    method OpenPanel(k: nat, isDesktop: bool)
      requires Valid() && k < count
      modifies this, bar
      ensures Valid() && focused == old(focused)
      ensures expanded == old(expanded)[k := true]
      ensures panelHidden == old(panelHidden)[k := false]
      ensures overlayActive == old(overlayActive)[k := true]
      ensures bodyOpen
      ensures bar != null ==> bar.active == old(bar.active) && bar.navItemActive == old(bar.navItemActive)
      ensures bar != null ==> bar.menuTopNavHeight == old(bar.menuTopNavHeight)
      ensures bar != null ==> bar.scrollTopNavHeight == old(bar.scrollTopNavHeight)
      ensures bar != null && isDesktop ==> bar.scrolled && (bar.hasTopNav ==> bar.topNavHidden)
      ensures bar != null && !isDesktop ==> unchanged(bar)
    {
      expanded := expanded[k := true];
      panelHidden := panelHidden[k := false];
      overlayActive := overlayActive[k := true];
      bodyOpen := true;
      if isDesktop && bar != null {
        bar.scrolled := true;
        if bar.hasTopNav {
          bar.topNavHidden := true;
        }
      }
    }

    /** `closePanel`: the exact opposite of the four page flags `OpenPanel`
        sets; on desktop the bar's `is-scrolled` and the top nav's `is-hidden`
        are cleared only when no nav item is active and the page is scrolled
        no further than the top nav's freshly measured height (0 without a
        top nav). */
    method ClosePanel(k: nat, isDesktop: bool, scrollY: int, measured: nat)
      requires Valid() && k < count
      modifies this, bar
      ensures Valid() && focused == old(focused)
      ensures expanded == old(expanded)[k := false]
      ensures panelHidden == old(panelHidden)[k := true]
      ensures overlayActive == old(overlayActive)[k := false]
      ensures !bodyOpen
      ensures bar != null ==> bar.active == old(bar.active) && bar.navItemActive == old(bar.navItemActive)
      ensures bar != null ==> bar.menuTopNavHeight == old(bar.menuTopNavHeight)
      ensures bar != null ==> bar.scrollTopNavHeight == old(bar.scrollTopNavHeight)
      ensures bar != null && isDesktop && !AnySet(bar.active)
              && scrollY <= (if bar.hasTopNav then measured else 0) ==>
        !bar.scrolled && !bar.topNavHidden
      ensures bar != null && !(isDesktop && !AnySet(old(bar.active))
              && scrollY <= (if bar.hasTopNav then measured else 0)) ==>
        unchanged(bar)
    {
      expanded := expanded[k := false];
      panelHidden := panelHidden[k := true];
      overlayActive := overlayActive[k := false];
      bodyOpen := false;
      if isDesktop && bar != null {
        var topNavHeight := if bar.hasTopNav then measured else 0;
        var hasMegamenuActive := AnySetExec(bar.active);
        if !hasMegamenuActive && scrollY <= topNavHeight {
          bar.scrolled := false;
          if bar.hasTopNav {
            bar.topNavHidden := false;
          }
        }
      }
    }

    /** `closeOtherLoginPanels(k)`: collapses every expanded button except
        `k`'s and hides its panel, then deactivates every overlay on the page,
        `k`'s included. */
    method CloseOthers(k: nat)
      requires Valid() && k < count
      modifies this
      ensures Valid() && focused == old(focused) && bodyOpen == old(bodyOpen)
      ensures forall i | 0 <= i < count && i != k :: !expanded[i]
      ensures expanded[k] == old(expanded[k]) && panelHidden[k] == old(panelHidden[k])
      ensures forall i | 0 <= i < count && i != k ::
        panelHidden[i] == (if old(expanded[i]) then true else old(panelHidden[i]))
      ensures overlayActive == Cleared(count)
    {
      var i := 0;
      while i < count
        invariant 0 <= i <= count && |expanded| == count && |panelHidden| == count
        invariant overlayActive == old(overlayActive) && bodyOpen == old(bodyOpen) && focused == old(focused)
        invariant forall j | 0 <= j < i && j != k :: !expanded[j]
        invariant forall j | 0 <= j < i && j != k ::
          panelHidden[j] == (if old(expanded[j]) then true else old(panelHidden[j]))
        invariant forall j | i <= j < count || j == k ::
          0 <= j < count ==> expanded[j] == old(expanded[j]) && panelHidden[j] == old(panelHidden[j])
      {
        if expanded[i] && i != k {
          expanded := expanded[i := false];
          panelHidden := panelHidden[i := true];
        }
        i := i + 1;
      }
      ghost var e, h := expanded, panelHidden;
      var j := 0;
      while j < count
        invariant 0 <= j <= count && |overlayActive| == count
        invariant expanded == e && panelHidden == h && bodyOpen == old(bodyOpen) && focused == old(focused)
        invariant forall m | 0 <= m < j :: !overlayActive[m]
      {
        overlayActive := overlayActive[j := false];
        j := j + 1;
      }
    }
  }

  /** `document.querySelector('.main-nav-item.is-active')` as a condition. */
  function AnySetExec(s: seq<bool>): (r: bool)
    ensures r == AnySet(s)
  {
    if s == [] then false
    else if s[0] then true
    else
      assert forall i | 1 <= i < |s| :: s[i] == s[1..][i - 1];
      AnySetExec(s[1..])
  }

  /** On a consistent page, opening a closed panel and closing it again
      restores the four page flags. */
  method OpenCloseRestores(p: LoginPanels, k: nat, isDesktop: bool, scrollY: int, measured: nat)
    requires p.Valid() && p.Consistent() && k < p.count && !AnySet(p.expanded)
    modifies p, p.bar
    ensures p.Valid() && p.Consistent()
    ensures p.expanded == old(p.expanded) && p.panelHidden == old(p.panelHidden)
    ensures p.overlayActive == old(p.overlayActive) && p.bodyOpen == old(p.bodyOpen)
  {
    p.OpenPanel(k, isDesktop);
    p.ClosePanel(k, isDesktop, scrollY, measured);
    assert p.expanded == old(p.expanded);
  }
}

=== FILE: main_nav_item.dfy ===
/** The main-nav-item block (blocks/main-nav-item/main-nav-item.js): a
    trigger button from the first row, an optional home link from the
    second, and one megamenu column per later row that has cells, with the
    cells classified in place.

    The block reads `rows[1]` and, for a picture cell, `cells[cellIndex + 1]`
    without checking that they exist. `LinkRowAsWritten` and
    `AltSourceAsWritten` model those reads as written (a `TypeError` when
    the element is missing); the rest of the model uses the corrected
    `LinkRow` and `AltSource`, which treat a missing element as absent. */
module MainNavItem {
  import opened Wrappers
  import opened Text

  // ---------------------------------------------------------------------
  // Authored content
  // ---------------------------------------------------------------------

  /** An authored `<li>`: whether it contains an `h3` and an anchor. */
  datatype SourceItem = SourceItem(hasHeading: bool, hasAnchor: bool)

  /** An authored cell: whether it holds a picture (with its `img`), the texts
      of its paragraphs in order, and its lists. */
  datatype Cell = Cell(picture: bool, paragraphs: seq<string>, lists: seq<seq<SourceItem>>)

  /** An authored row: its first paragraph's text, its whole text, its first
      anchor's `href` property (the attribute resolved against the page, so
      an authored `#` is the page URL plus `#`; `None` without an anchor and
      `""` without an attribute), and its cells. */
  datatype Row = Row(paragraph: Option<string>, text: string, anchorHref: Option<string>, cells: seq<Cell>)

  datatype Error = TypeError

  // ---------------------------------------------------------------------
  // Decorated structure
  // ---------------------------------------------------------------------

  /** An `li` after decoration: `megamenu-category` when it holds a heading;
      its anchor, if any, is a `megamenu-link`. */
  datatype LinkItem = LinkItem(category: bool, link: bool)

  /** A cell after decoration. `alt` is the `img` alt the block set, if it set one. */
  datatype DecoratedCell = DecoratedCell(
    image: bool, alt: Option<string>, links: bool, paragraphs: seq<string>, lists: seq<seq<LinkItem>>)

  /** A `.megamenu-column` row with its `data-column-index`. */
  datatype ColumnRow = ColumnRow(index: nat, cells: seq<DecoratedCell>)

  datatype HomeLink = HomeLink(href: string, text: string)

  datatype NavItem = NavItem(
    triggerText: string, triggerExpanded: bool, triggerHasPopup: bool,
    panelHidden: bool, homeLink: Option<HomeLink>, columns: seq<ColumnRow>)

  // ---------------------------------------------------------------------
  // Trigger and home link
  // ---------------------------------------------------------------------

  /** The trigger text: the first row's trimmed paragraph, else its trimmed
      text, else "Navigation". */
  function TriggerText(row: Row): (r: string)
    ensures r != ""
    ensures row.paragraph.Some? && Trim(row.paragraph.value) != "" ==> r == Trim(row.paragraph.value)
    ensures (row.paragraph.None? || Trim(row.paragraph.value) == "") ==>
      r == (if Trim(row.text) != "" then Trim(row.text) else "Navigation")
  {
    OrElse(if row.paragraph.Some? then Trim(row.paragraph.value) else "",
      OrElse(Trim(row.text), "Navigation"))
  }

  /** The link as written: `rows[1].querySelector('a')?.href || '#'`, which
      throws when there is no second row. */
  function LinkRowAsWritten(rows: seq<Row>): (r: Result<string, Error>)
    requires |rows| >= 1
    ensures r.Failure? <==> |rows| == 1
    ensures r.Success? ==> r.value == (if rows[1].anchorHref.Some? then OrElse(rows[1].anchorHref.value, "#") else "#")
  {
    if |rows| < 2 then Failure(TypeError)
    else Success(if rows[1].anchorHref.Some? then OrElse(rows[1].anchorHref.value, "#") else "#")
  }

  /** The link, with a missing second row read as a row without an anchor. */
  function LinkRow(rows: seq<Row>): (r: string)
    requires |rows| >= 1
    ensures r != ""
    ensures |rows| == 1 ==> r == "#"
    ensures LinkRowAsWritten(rows).Success? ==> r == LinkRowAsWritten(rows).value
  {
    if |rows| < 2 then "#"
    else if rows[1].anchorHref.Some? then OrElse(rows[1].anchorHref.value, "#") else "#"
  }

  /** A block with a single row makes the block as written throw. */
  lemma SingleRowThrows(row: Row)
    ensures LinkRowAsWritten([row]) == Failure(TypeError)
    ensures LinkRow([row]) == "#"
  {
  }

  /** The home link: only for a non-empty link other than "#", reading
      "<trigger text> Home". */
  function HomeLinkFor(link: string, text: string): (r: Option<HomeLink>)
    ensures r.Some? <==> link != "" && link != "#"
    ensures r.Some? ==> r.value == HomeLink(link, text + " Home")
  {
    if link != "" && link != "#" then Some(HomeLink(link, text + " Home")) else None
  }

  // ---------------------------------------------------------------------
  // Cells
  // ---------------------------------------------------------------------

  /** The alt text source as written: the first paragraph of
      `cells[i + 1]`, which throws when cell `i` is the last. */
  function AltSourceAsWritten(cells: seq<Cell>, i: nat): (r: Result<Option<string>, Error>)
    requires i < |cells|
    ensures r.Failure? <==> i + 1 == |cells|
  {
    if i + 1 >= |cells| then Failure(TypeError)
    else Success(if |cells[i + 1].paragraphs| > 0 then Some(cells[i + 1].paragraphs[0]) else None)
  }

  /** The alt text source, with a missing next cell read as one without a paragraph. */
  function AltSource(cells: seq<Cell>, i: nat): (r: Option<string>)
    requires i < |cells|
    ensures r.Some? <==> i + 1 < |cells| && |cells[i + 1].paragraphs| > 0
    ensures r.Some? ==> r.value == cells[i + 1].paragraphs[0]
    ensures AltSourceAsWritten(cells, i).Success? ==> r == AltSourceAsWritten(cells, i).value
  {
    if i + 1 < |cells| && |cells[i + 1].paragraphs| > 0 then Some(cells[i + 1].paragraphs[0]) else None
  }

  /** A column whose last cell holds a picture makes the block as written throw. */
  lemma PictureInLastCellThrows(cells: seq<Cell>)
    requires |cells| > 0 && cells[|cells| - 1].picture
    ensures AltSourceAsWritten(cells, |cells| - 1).Failure?
    ensures AltSource(cells, |cells| - 1).None?
  {
  }

  function ItemFor(li: SourceItem): LinkItem {
    LinkItem(li.hasHeading, li.hasAnchor)
  }

  function ListFor(list: seq<SourceItem>): (r: seq<LinkItem>)
    ensures |r| == |list| && forall k | 0 <= k < |list| :: r[k].category == list[k].hasHeading
  {
    seq(|list|, k requires 0 <= k < |list| => ItemFor(list[k]))
  }

  /** Cell `i` as the pass over its row reaches it: when the previous cell
      holds a picture, that cell has already removed this one's first paragraph. */
  function Received(cells: seq<Cell>, i: nat): Cell
    requires i < |cells|
  {
    if i > 0 && cells[i - 1].picture && |cells[i].paragraphs| > 0
    then cells[i].(paragraphs := cells[i].paragraphs[1..]) else cells[i]
  }

  /** The classes and alt text the pass gives a cell, given the paragraph
      the next cell offers. */
  function Classify(c: Cell, altSource: Option<string>): DecoratedCell {
    DecoratedCell(c.picture, if c.picture && altSource.Some? then Some(Trim(altSource.value)) else None,
      |c.lists| > 0, c.paragraphs, seq(|c.lists|, k requires 0 <= k < |c.lists| => ListFor(c.lists[k])))
  }

  function CellAfter(cells: seq<Cell>, i: nat): DecoratedCell
    requires i < |cells|
  {
    Classify(Received(cells, i), AltSource(cells, i))
  }

  /** Cell `i` after the pass: marked as an image exactly when it holds a
      picture, taking its alt from the next cell's first paragraph, trimmed;
      marked as links exactly when it holds a list; and missing its own first
      paragraph exactly when the previous cell holds a picture. */
  lemma CellAfterMeaning(cells: seq<Cell>, i: nat)
    requires i < |cells|
    ensures var r := CellAfter(cells, i);
      && r.image == cells[i].picture && r.links == (|cells[i].lists| > 0)
      && (r.alt.Some? <==> cells[i].picture && i + 1 < |cells| && |cells[i + 1].paragraphs| > 0)
      && (r.alt.Some? ==> r.alt.value == Trim(cells[i + 1].paragraphs[0]))
      && (i > 0 && cells[i - 1].picture && |cells[i].paragraphs| > 0 ==> r.paragraphs == cells[i].paragraphs[1..])
      && (!(i > 0 && cells[i - 1].picture) ==> r.paragraphs == cells[i].paragraphs)
      && |r.lists| == |cells[i].lists|
      && (forall k, m | 0 <= k < |r.lists| && 0 <= m < |r.lists[k]| ::
            r.lists[k][m].category == cells[i].lists[k][m].hasHeading)
  {
  }

  /** The pass over one cell's lists: each list item becomes a link item,
      a category when it holds a heading. */
  method DecorateLists(lists: seq<seq<SourceItem>>) returns (r: seq<seq<LinkItem>>)
    ensures |r| == |lists| && forall m | 0 <= m < |lists| :: r[m] == ListFor(lists[m])
  {
    r := [];
    for k := 0 to |lists|
      invariant |r| == k && forall m | 0 <= m < k :: r[m] == ListFor(lists[m])
    {
      r := r + [ListFor(lists[k])];
    }
  }

  /** The pieces the pass computes for cell `i` make up `CellAfter`. */
  lemma CellAfterIs(cells: seq<Cell>, i: nat, cell: Cell, alt: Option<string>, lists: seq<seq<LinkItem>>)
    requires i < |cells| && cell == Received(cells, i)
    requires alt == (if cell.picture && i + 1 < |cells| && |cells[i + 1].paragraphs| > 0
                     then Some(Trim(cells[i + 1].paragraphs[0])) else None)
    requires |lists| == |cell.lists| && forall m | 0 <= m < |lists| :: lists[m] == ListFor(cell.lists[m])
    ensures DecoratedCell(cell.picture, alt, |cell.lists| > 0, cell.paragraphs, lists) == CellAfter(cells, i)
  {
    assert lists == seq(|cell.lists|, k requires 0 <= k < |cell.lists| => ListFor(cell.lists[k]));
  }

  /** The pass over one row's cells, in place: cell `i`'s picture removes
      the first paragraph of cell `i + 1`. */
  method DecorateCells(cells: seq<Cell>) returns (r: seq<DecoratedCell>)
    ensures r == CellsAfter(cells)
  {
    var current := cells;
    r := [];
    var i := 0;
    while i < |cells|
      invariant 0 <= i <= |cells| && |current| == |cells| && |r| == i
      invariant forall j | 0 <= j < i :: r[j] == CellAfter(cells, j)
      invariant forall j | i < j < |cells| :: current[j] == cells[j]
      invariant i < |cells| ==> current[i] == Received(cells, i)
    {
      var cell := current[i];
      var alt: Option<string> := None;
      if cell.picture && i + 1 < |current| {
        var next := current[i + 1];
        assert next == cells[i + 1];
        if |next.paragraphs| > 0 {
          alt := Some(Trim(next.paragraphs[0]));
          current := current[i + 1 := next.(paragraphs := next.paragraphs[1..])];
        }
      }
      var lists := DecorateLists(cell.lists);
      var decorated := DecoratedCell(cell.picture, alt, |cell.lists| > 0, cell.paragraphs, lists);
      CellAfterIs(cells, i, cell, alt, lists);
      r := r + [decorated];
      i := i + 1;
    }
    assert forall j | 0 <= j < |cells| :: r[j] == CellsAfter(cells)[j];
  }

  function CellsAfter(cells: seq<Cell>): (r: seq<DecoratedCell>)
    ensures |r| == |cells|
  {
    seq(|cells|, i requires 0 <= i < |cells| => CellAfter(cells, i))
  }

  // ---------------------------------------------------------------------
  // Columns
  // ---------------------------------------------------------------------

  /** The columns kept among the first `n` column rows. */
  function KeptColumns(columnRows: seq<Row>, n: nat): seq<ColumnRow>
    requires n <= |columnRows|
  {
    if n == 0 then []
    else
      var last := columnRows[n - 1];
      KeptColumns(columnRows, n - 1) + (if |last.cells| > 0 then [ColumnRow(n - 1, CellsAfter(last.cells))] else [])
  }

  /** Each kept column is the decorated row at its `data-column-index`,
      and that row has cells. */
  lemma {:induction false} KeptColumnsAreRows(columnRows: seq<Row>, n: nat)
    requires n <= |columnRows|
    ensures forall c | c in KeptColumns(columnRows, n) ::
      && c.index < n && |columnRows[c.index].cells| > 0
      && c.cells == CellsAfter(columnRows[c.index].cells)
  {
    if n > 0 {
      KeptColumnsAreRows(columnRows, n - 1);
    }
  }

  /** The `data-column-index` values increase along the columns. */
  lemma {:induction false} KeptColumnsInOrder(columnRows: seq<Row>, n: nat)
    requires n <= |columnRows|
    ensures forall j, k | 0 <= j < k < |KeptColumns(columnRows, n)| ::
      KeptColumns(columnRows, n)[j].index < KeptColumns(columnRows, n)[k].index
  {
    if n > 0 {
      KeptColumnsInOrder(columnRows, n - 1);
      KeptColumnsAreRows(columnRows, n - 1);
      var prefix := KeptColumns(columnRows, n - 1);
      var r := KeptColumns(columnRows, n);
      forall j, k | 0 <= j < k < |r| ensures r[j].index < r[k].index {
        assert r[j] == prefix[j] && prefix[j] in prefix;
        if k < |prefix| {
          assert r[k] == prefix[k];
        } else {
          assert r[k].index == n - 1;
        }
      }
    }
  }

  /** Every row with cells is kept. */
  lemma {:induction false} KeptColumnsComplete(columnRows: seq<Row>, n: nat)
    requires n <= |columnRows|
    ensures forall i | 0 <= i < n && |columnRows[i].cells| > 0 ::
      ColumnRow(i, CellsAfter(columnRows[i].cells)) in KeptColumns(columnRows, n)
  {
    if n > 0 {
      KeptColumnsComplete(columnRows, n - 1);
      var prefix := KeptColumns(columnRows, n - 1);
      var r := KeptColumns(columnRows, n);
      assert forall x | x in prefix :: x in r;
    }
  }

  /** The rows from the third on. */
  function ColumnRows(rows: seq<Row>): seq<Row> {
    if |rows| > 2 then rows[2..] else []
  }

  /** The column pass: rows marked in order, those without cells dropped. */
  method BuildColumns(columnRows: seq<Row>) returns (columns: seq<ColumnRow>)
    ensures columns == KeptColumns(columnRows, |columnRows|)
  {
    columns := [];
    var index := 0;
    while index < |columnRows|
      invariant 0 <= index <= |columnRows|
      invariant columns == KeptColumns(columnRows, index)
    {
      var row := columnRows[index];
      var cells := DecorateCells(row.cells);
      if |row.cells| > 0 {
        columns := columns + [ColumnRow(index, cells)];
      }
      index := index + 1;
    }
  }

  /** `decorate`: nothing for an empty block; otherwise the trigger (collapsed,
      announcing a popup), the hidden panel with the home link, and the
      columns from the third row on. */
  method Decorate(rows: seq<Row>) returns (r: Option<NavItem>)
    ensures r.None? <==> rows == []
    ensures r.Some? ==> r.value.triggerText == TriggerText(rows[0])
    ensures r.Some? ==> !r.value.triggerExpanded && r.value.triggerHasPopup && r.value.panelHidden
    ensures r.Some? ==> r.value.homeLink == HomeLinkFor(LinkRow(rows), TriggerText(rows[0]))
    ensures r.Some? ==> r.value.columns == KeptColumns(ColumnRows(rows), |ColumnRows(rows)|)
  {
    if |rows| == 0 {
      return None;
    }
    var text := TriggerText(rows[0]);
    var home := HomeLinkFor(LinkRow(rows), text);
    var columns := BuildColumns(ColumnRows(rows));
    return Some(NavItem(text, false, true, true, home, columns));
  }
}

=== FILE: megamenu.dfy ===
/** The megamenu block (blocks/megamenu/megamenu.js): one menu item per
    authored row, with a category title button, a dropdown panel of link
    columns and an optional promo; title clicks expand at most one item, and
    Escape or a click outside the block collapses them all. */
module Megamenu {
  import opened Wrappers
  import opened Exclusive

  // ---------------------------------------------------------------------
  // Authored content
  // ---------------------------------------------------------------------

  /** An anchor: its `href` and text. */
  datatype Anchor = Anchor(href: string, text: string)

  /** An authored `<li>`: its first anchor, if any, and its text. */
  datatype SourceItem = SourceItem(anchor: Option<Anchor>, text: string)

  datatype Tag = TagH3 | TagH4 | TagP | TagOther

  /** A child element of the content cell. */
  datatype Element =
    | Heading(tag: Tag, text: string)   // any element that is not a list
    | List(items: seq<SourceItem>)

  /** The first cell: the text of its first `h2, h3, h4, p strong, strong`
      and its first anchor. */
  datatype CategoryCell = CategoryCell(title: Option<string>, link: Option<Anchor>)

  /** The second cell: its child elements and its raw HTML. */
  datatype ContentCell = ContentCell(children: seq<Element>, html: string)

  /** The third cell, by what the promo copies out of it. */
  datatype PromoCell = PromoCell(picture: bool, title: Option<string>, description: Option<string>, link: Option<Anchor>)

  datatype SourceRow = SourceRow(
    category: Option<CategoryCell>, content: Option<ContentCell>, promo: Option<PromoCell>)

  // ---------------------------------------------------------------------
  // Decorated structure
  // ---------------------------------------------------------------------

  datatype TitleButton = TitleButton(text: string, href: Option<string>, ariaExpanded: bool)

  datatype ListItem = LinkItem(href: string, text: string) | TextItem(text: string)

  datatype Column = Column(title: Option<string>, items: seq<ListItem>)

  datatype PanelBody = Columns(columns: seq<Column>) | RawHtml(html: string)

  datatype Panel = Panel(body: PanelBody, promo: Option<PromoCell>)

  datatype MenuItem = MenuItem(category: Option<Option<TitleButton>>, panel: Option<Panel>)

  /** JavaScript's `a || b` on optional strings. */
  function TextOr(a: Option<string>, b: string): string {
    if a.Some? && a.value != "" then a.value else b
  }

  function AnchorText(a: Option<Anchor>): Option<string> {
    if a.Some? then Some(a.value.text) else None
  }

  /** The category title button: present only when the cell has a title or
      a link; its text is the title's, else the link's, else "Menu"; it
      starts collapsed and carries the link's `href`. */
  function TitleFor(c: CategoryCell): (r: Option<TitleButton>)
    ensures r.Some? <==> c.title.Some? || c.link.Some?
    ensures r.Some? ==> !r.value.ariaExpanded && r.value.text != ""
    ensures r.Some? ==> (r.value.href.Some? <==> c.link.Some?)
    ensures r.Some? && c.link.Some? ==> r.value.href == Some(c.link.value.href)
    ensures r.Some? && c.title.Some? && c.title.value != "" ==> r.value.text == c.title.value
    ensures r.Some? && (c.title.None? || c.title.value == "") && c.link.Some? && c.link.value.text != "" ==>
      r.value.text == c.link.value.text
    ensures r.Some? && (c.title.None? || c.title.value == "") && (c.link.None? || c.link.value.text == "") ==>
      r.value.text == "Menu"
  {
    if c.title.None? && c.link.None? then None
    else
      Some(TitleButton(TextOr(c.title, TextOr(AnchorText(c.link), "Menu")),
        if c.link.Some? then Some(c.link.value.href) else None, false))
  }

  function ItemFor(li: SourceItem): (r: ListItem)
    ensures r.LinkItem? <==> li.anchor.Some?
    ensures li.anchor.Some? ==> r == LinkItem(li.anchor.value.href, li.anchor.value.text)
    ensures li.anchor.None? ==> r == TextItem(li.text)
  {
    match li.anchor
    case Some(a) => LinkItem(a.href, a.text)
    case None => TextItem(li.text)
  }

  /** A column title comes from a directly preceding `H3`, `H4` or `P`. */
  function ColumnTitle(children: seq<Element>, k: nat): (r: Option<string>)
    requires k < |children|
    ensures r.Some? <==> k > 0 && children[k - 1].Heading? && children[k - 1].tag in {TagH3, TagH4, TagP}
    ensures r.Some? ==> r.value == children[k - 1].text
  {
    if k > 0 && children[k - 1].Heading? && children[k - 1].tag in {TagH3, TagH4, TagP}
    then Some(children[k - 1].text) else None
  }

  /** The columns for the lists at or after `from`, in order. */
  function ColumnsFrom(children: seq<Element>, from: nat): (r: seq<Column>)
    requires from <= |children|
    decreases |children| - from
  {
    if from == |children| then []
    else if children[from].List? then
      [Column(ColumnTitle(children, from), seq(|children[from].items|,
        k requires 0 <= k < |children[from].items| => ItemFor(children[from].items[k])))]
      + ColumnsFrom(children, from + 1)
    else ColumnsFrom(children, from + 1)
  }

  predicate HasList(children: seq<Element>) {
    exists k | 0 <= k < |children| :: children[k].List?
  }

  /** One column per list, and nothing else. */
  lemma {:induction false} ColumnsPerList(children: seq<Element>, from: nat)
    requires from <= |children|
    ensures |ColumnsFrom(children, from)| == |set k | from <= k < |children| && children[k].List?|
    decreases |children| - from
  {
    var s := set k | from <= k < |children| && children[k].List?;
    if from < |children| {
      ColumnsPerList(children, from + 1);
      var s' := set k | from + 1 <= k < |children| && children[k].List?;
      if children[from].List? {
        assert s == s' + {from};
      } else {
        assert s == s';
      }
    } else {
      assert s == {};
    }
  }

  /** The list items of one column: one per source `li`, in order. */
  method BuildList(items: seq<SourceItem>) returns (r: seq<ListItem>)
    ensures |r| == |items| && forall k | 0 <= k < |items| :: r[k] == ItemFor(items[k])
  {
    r := [];
    for k := 0 to |items|
      invariant |r| == k && forall j | 0 <= j < k :: r[j] == ItemFor(items[j])
    {
      r := r + [ItemFor(items[k])];
    }
  }

  /** The dropdown panel for a content cell and an optional promo cell. */
  function PanelFor(content: ContentCell, promo: Option<PromoCell>): Panel {
    Panel(if HasList(content.children) then Columns(ColumnsFrom(content.children, 0)) else RawHtml(content.html),
      promo)
  }

  /** The menu item for a row: a category only when the first cell exists,
      a panel only when the second does. */
  function MenuItemFor(row: SourceRow): MenuItem {
    MenuItem(if row.category.Some? then Some(TitleFor(row.category.value)) else None,
      if row.content.Some? then Some(PanelFor(row.content.value, row.promo)) else None)
  }

  /** The panel of a menu item has one column per list of its content cell
      when the cell holds a list, and carries the row's promo. */
  lemma MenuItemPanel(row: SourceRow)
    requires row.content.Some?
    ensures MenuItemFor(row).panel.Some?
    ensures var p := MenuItemFor(row).panel.value;
      && p.promo == row.promo
      && (p.body.Columns? <==> HasList(row.content.value.children))
      && (p.body.Columns? ==>
            |p.body.columns| == |set k | 0 <= k < |row.content.value.children| && row.content.value.children[k].List?|)
      && (p.body.RawHtml? ==> p.body.html == row.content.value.html)
  {
    ColumnsPerList(row.content.value.children, 0);
  }

  /** The dropdown panel: columns when the cell has any list, otherwise its
      raw HTML; the promo only when a third cell exists. */
  method BuildPanel(content: ContentCell, promo: Option<PromoCell>) returns (r: Panel)
    ensures r == PanelFor(content, promo)
    ensures r.body.Columns? <==> HasList(content.children)
    ensures r.body.Columns? ==> r.body.columns == ColumnsFrom(content.children, 0)
    ensures r.body.RawHtml? ==> r.body.html == content.html
    ensures r.promo == promo
  {
    var children := content.children;
    var any := false;
    for k := 0 to |children|
      invariant any <==> exists j | 0 <= j < k :: children[j].List?
    {
      if children[k].List? {
        any := true;
      }
    }
    if !any {
      assert !HasList(children);
      return Panel(RawHtml(content.html), promo);
    }
    var columns: seq<Column> := [];
    var k := 0;
    while k < |children|
      invariant 0 <= k <= |children|
      invariant columns + ColumnsFrom(children, k) == ColumnsFrom(children, 0)
    {
      if children[k].List? {
        var items := BuildList(children[k].items);
        assert items == seq(|children[k].items|,
          j requires 0 <= j < |children[k].items| => ItemFor(children[k].items[j]));
        columns := columns + [Column(ColumnTitle(children, k), items)];
      }
      k := k + 1;
    }
    assert HasList(children) && columns == ColumnsFrom(children, 0);
    return Panel(Columns(columns), promo);
  }

  /** The menu item for one row: a category only when the first cell exists,
      a panel only when the second does. */
  method BuildItem(row: SourceRow) returns (r: MenuItem)
    ensures r == MenuItemFor(row)
    ensures r.category.Some? <==> row.category.Some?
    ensures row.category.Some? ==> r.category.value == TitleFor(row.category.value)
    ensures r.panel.Some? <==> row.content.Some?
    ensures r.panel.Some? ==> r.panel.value.promo == row.promo
  {
    var category := if row.category.Some? then Some(TitleFor(row.category.value)) else None;
    var panel: Option<Panel> := None;
    if row.content.Some? {
      var p := BuildPanel(row.content.value, row.promo);
      panel := Some(p);
    }
    return MenuItem(category, panel);
  }

  /** `decorate`'s building pass: one menu item per row, in order. */
  method BuildMenu(rows: seq<SourceRow>) returns (r: seq<MenuItem>)
    ensures |r| == |rows|
    ensures forall k | 0 <= k < |rows| :: r[k] == MenuItemFor(rows[k])
    ensures forall k | 0 <= k < |rows| ::
      && (r[k].category.Some? <==> rows[k].category.Some?)
      && (rows[k].category.Some? ==> r[k].category.value == TitleFor(rows[k].category.value))
      && (r[k].panel.Some? <==> rows[k].content.Some?)
      && (r[k].panel.Some? ==> r[k].panel.value.promo == rows[k].promo)
  {
    r := [];
    for k := 0 to |rows|
      invariant |r| == k
      invariant forall j | 0 <= j < k :: r[j] == MenuItemFor(rows[j])
    {
      var item := BuildItem(rows[k]);
      r := r + [item];
    }
  }

  // ---------------------------------------------------------------------
  // Expansion state
  // ---------------------------------------------------------------------

  class MegamenuState {
    /** Whether each menu item has a title button. */
    const hasTitle: seq<bool>
    /** Each title button's `aria-expanded` (false where there is none). */
    var titleExpanded: seq<bool>
    /** `expanded` on each `.megamenu-item`. */
    var itemExpanded: seq<bool>

    /** A title's `aria-expanded` and its item's `expanded` class agree, and
        only items with a title can be expanded. */
    ghost predicate Valid()
      reads this
    {
      && |titleExpanded| == |hasTitle| && itemExpanded == titleExpanded
      && forall i | 0 <= i < |hasTitle| :: titleExpanded[i] ==> hasTitle[i]
    }

    constructor (hasTitle: seq<bool>)
      ensures Valid() && this.hasTitle == hasTitle && titleExpanded == Cleared(|hasTitle|)
    {
      this.hasTitle := hasTitle;
      titleExpanded := Cleared(|hasTitle|);
      itemExpanded := Cleared(|hasTitle|);
    }

    /** Collapses every expanded title and its item except `keep`'s. */
    method CollapseAllBut(keep: Option<nat>)
      requires Valid()
      modifies this
      ensures Valid()
      ensures forall i | 0 <= i < |hasTitle| && Some(i) != keep :: !titleExpanded[i]
      ensures forall i | 0 <= i < |hasTitle| && Some(i) == keep :: titleExpanded[i] == old(titleExpanded[i])
    {
      var i := 0;
      while i < |hasTitle|
        invariant 0 <= i <= |hasTitle| && Valid()
        invariant forall j | 0 <= j < i && Some(j) != keep :: !titleExpanded[j]
        invariant forall j | 0 <= j < |hasTitle| && (i <= j || Some(j) == keep) ::
          titleExpanded[j] == old(titleExpanded[j])
      {
        if titleExpanded[i] && Some(i) != keep {
          titleExpanded := titleExpanded[i := false];
          itemExpanded := itemExpanded[i := false];
        }
        i := i + 1;
      }
    }

    /** A click on item `i`'s title: every other expanded title collapses,
        then this one flips. */
    method TitleClick(i: nat)
      requires Valid() && i < |hasTitle| && hasTitle[i]
      modifies this
      ensures Valid()
      ensures old(titleExpanded[i]) ==> titleExpanded == Cleared(|hasTitle|)
      ensures !old(titleExpanded[i]) ==> titleExpanded == Single(|hasTitle|, i)
      ensures AtMostOne(titleExpanded)
    {
      var wasExpanded := titleExpanded[i];
      CollapseAllBut(Some(i));
      titleExpanded := titleExpanded[i := !wasExpanded];
      itemExpanded := itemExpanded[i := !wasExpanded];
      if wasExpanded {
        assert titleExpanded == Cleared(|hasTitle|);
      } else {
        assert titleExpanded == Single(|hasTitle|, i);
      }
    }

    /** A `keydown` inside the block: Escape collapses every title. */
    method Keydown(key: string)
      requires Valid()
      modifies this
      ensures Valid()
      ensures key == "Escape" ==> titleExpanded == Cleared(|hasTitle|)
      ensures key != "Escape" ==> unchanged(this)
    {
      if key == "Escape" {
        CollapseAllBut(None);
      }
    }

    /** A click anywhere in the document: one outside the block collapses
        every title. */
    method DocumentClick(insideBlock: bool)
      requires Valid()
      modifies this
      ensures Valid()
      ensures !insideBlock ==> titleExpanded == Cleared(|hasTitle|)
      ensures insideBlock ==> unchanged(this)
    {
      if !insideBlock {
        CollapseAllBut(None);
      }
    }
  }
}

=== FILE: scripts.dfy ===
/** The page-level helpers of scripts/scripts.js that the blocks use:
    moving attributes (and instrumentation attributes) from one element to
    another, the breadcrumb built above the footer, and the metadata switch
    that decides whether it is built. */
module Scripts {
  import opened Wrappers
  import opened Text
  import Breadcrumb

  // ---------------------------------------------------------------------
  // Moving attributes
  // ---------------------------------------------------------------------

  /** An element, seen through its attributes. */
  class Element {
    var attrs: map<string, string>

    constructor (attrs: map<string, string>)
      ensures this.attrs == attrs
    {
      this.attrs := attrs;
    }
  }

  /** The attributes a move takes from `attrs` when asked for `names`: those
      present with a non-empty value (`getAttribute` gives `null` for an
      absent one, and both are falsy), with their values. */
  function Moving(attrs: map<string, string>, names: set<string>): map<string, string> {
    map n | n in names && n in attrs && attrs[n] != "" :: attrs[n]
  }

  /** A move splits the attributes in two: what stays on the source (every
      attribute not asked for or empty) and what goes to the target (every
      asked-for attribute with a value, unchanged); together they are the
      attributes the source had. */
  lemma MovingSplits(attrs: map<string, string>, names: set<string>)
    ensures var moved := Moving(attrs, names);
      && moved.Keys <= attrs.Keys
      && (forall n | n in moved :: moved[n] == attrs[n] && moved[n] != "")
      && (forall n | n in attrs :: n in moved <==> n in names && attrs[n] != "")
      && (attrs - moved.Keys) + moved == attrs
  {
    var moved := Moving(attrs, names);
    var rest := attrs - moved.Keys;
    assert (rest + moved).Keys == attrs.Keys;
    forall n | n in attrs ensures (rest + moved)[n] == attrs[n] {
      if n in moved {
        assert (rest + moved)[n] == moved[n];
      } else {
        assert (rest + moved)[n] == rest[n];
      }
    }
  }

  /** Moving again asks for nothing more: once the attributes have moved,
      the source has none left for the same names. */
  lemma MovingTwice(attrs: map<string, string>, names: set<string>)
    ensures Moving(attrs - Moving(attrs, names).Keys, names) == map[]
  {
    var rest := attrs - Moving(attrs, names).Keys;
    forall n | n in names && n in rest ensures rest[n] == "" {
      assert n !in Moving(attrs, names);
    }
    assert Moving(rest, names).Keys == {};
  }

  /** The names a list holds. */
  function NameSet(names: seq<string>): set<string> {
    set n | n in names
  }

  lemma NameSetSnoc(names: seq<string>, i: nat)
    requires i < |names|
    ensures NameSet(names[..i + 1]) == NameSet(names[..i]) + {names[i]}
  {
    assert names[..i + 1] == names[..i] + [names[i]];
  }

  /** One more name asked for, from a source that has already given up the
      attributes for `done`: the source and the target end up as if the
      whole set had been asked for at once. */
  lemma MovingStep(attrs: map<string, string>, done: set<string>, name: string)
    ensures var cur := attrs - Moving(attrs, done).Keys;
      && cur - Moving(cur, {name}).Keys == attrs - Moving(attrs, done + {name}).Keys
      && Moving(attrs, done) + Moving(cur, {name}) == Moving(attrs, done + {name})
  {
    var cur := attrs - Moving(attrs, done).Keys;
    var all := Moving(attrs, done + {name});
    assert Moving(attrs, done).Keys + Moving(cur, {name}).Keys == all.Keys;
    assert cur - Moving(cur, {name}).Keys == attrs - all.Keys;
  }

  lemma UnionAssoc(a: map<string, string>, b: map<string, string>, c: map<string, string>)
    ensures (a + b) + c == a + (b + c)
  {
  }

  /** One attribute of the `forEach` in `moveAttributes`. */
  method MoveOne(from: Element, to: Element?, attr: string)
    modifies from, to
    ensures from.attrs == old(from.attrs) - Moving(old(from.attrs), {attr}).Keys
    ensures to != null && to != from ==> to.attrs == old(to.attrs) + Moving(old(from.attrs), {attr})
  {
    var value := if attr in from.attrs then from.attrs[attr] else "";
    if value != "" {
      if to != null {
        to.attrs := to.attrs[attr := value];
      }
      from.attrs := from.attrs - {attr};
    }
  }

  /** The `forEach` over a list of names: the asked-for attributes with a
      value leave the source and, when there is a target other than the
      source, are set on it. */
  method MoveNames(from: Element, to: Element?, names: seq<string>)
    modifies from, to
    ensures from.attrs == old(from.attrs) - Moving(old(from.attrs), NameSet(names)).Keys
    ensures to != null && to != from ==> to.attrs == old(to.attrs) + Moving(old(from.attrs), NameSet(names))
  {
    ghost var orig := from.attrs;
    ghost var done: set<string> := {};
    for i := 0 to |names|
      invariant done == NameSet(names[..i])
      invariant from.attrs == orig - Moving(orig, done).Keys
      invariant to != null && to != from ==> to.attrs == old(to.attrs) + Moving(orig, done)
    {
      ghost var cur := from.attrs;
      ghost var given := Moving(cur, {names[i]});
      NameSetSnoc(names, i);
      MovingStep(orig, done, names[i]);
      MoveOne(from, to, names[i]);
      if to != null && to != from {
        UnionAssoc(old(to.attrs), Moving(orig, done), given);
      }
      done := done + {names[i]};
    }
    assert names[..|names|] == names;
  }

  /** `[...from.attributes].map(({ nodeName }) => nodeName)`: the source's
      attribute names, in some order. */
  method AttributeNames(from: Element) returns (names: seq<string>)
    ensures NameSet(names) == from.attrs.Keys
  {
    names := [];
    var rest := from.attrs.Keys;
    while rest != {}
      invariant rest <= from.attrs.Keys
      invariant NameSet(names) + rest == from.attrs.Keys
      decreases rest
    {
      var n :| n in rest;
      names := names + [n];
      rest := rest - {n};
    }
  }

  /** `moveAttributes(from, to, attributes)`: without a list, every
      attribute of the source is asked for. The target may be absent, and
      then the attributes are only removed. */
  method MoveAttributes(from: Element, to: Element?, attributes: Option<seq<string>>)
    modifies from, to
    ensures var names := if attributes.None? then old(from.attrs).Keys else NameSet(attributes.value);
      && from.attrs == old(from.attrs) - Moving(old(from.attrs), names).Keys
      && (to != null && to != from ==> to.attrs == old(to.attrs) + Moving(old(from.attrs), names))
  {
    var names;
    if attributes.None? {
      names := AttributeNames(from);
    } else {
      names := attributes.value;
    }
    MoveNames(from, to, names);
  }

  /** An attribute the authoring environment adds. */
  predicate IsInstrumentation(name: string) {
    StartsWith(name, "data-aue-") || StartsWith(name, "data-richtext-")
  }

  function InstrumentationNames(attrs: map<string, string>): set<string> {
    set n | n in attrs && IsInstrumentation(n)
  }

  /** `moveInstrumentation(from, to)`. */
  method MoveInstrumentation(from: Element, to: Element?)
    modifies from, to
    ensures from.attrs == old(from.attrs) - Moving(old(from.attrs), InstrumentationNames(old(from.attrs))).Keys
    ensures to != null && to != from ==>
      to.attrs == old(to.attrs) + Moving(old(from.attrs), InstrumentationNames(old(from.attrs)))
  {
    var names := AttributeNames(from);
    var instrumentation := [];
    for i := 0 to |names|
      invariant NameSet(instrumentation) == set n | n in NameSet(names[..i]) && IsInstrumentation(n)
      invariant from.attrs == old(from.attrs)
      invariant to != null ==> to.attrs == old(to.attrs)
    {
      NameSetSnoc(names, i);
      assert NameSet(instrumentation + [names[i]]) == NameSet(instrumentation) + {names[i]};
      if IsInstrumentation(names[i]) {
        instrumentation := instrumentation + [names[i]];
      }
    }
    assert names[..|names|] == names;
    forall n ensures n in NameSet(instrumentation) <==> n in InstrumentationNames(from.attrs) {
      assert n in NameSet(names) <==> n in from.attrs;
    }
    MoveAttributes(from, to, Some(instrumentation));
  }

  /** Exactly the instrumentation attributes with a value move; every other
      attribute stays on the source with its value. */
  lemma InstrumentationOnly(attrs: map<string, string>)
    ensures var moved := Moving(attrs, InstrumentationNames(attrs));
      && (forall n | n in attrs :: n in moved <==> IsInstrumentation(n) && attrs[n] != "")
      && (forall n | n in attrs && !IsInstrumentation(n) :: n in attrs - moved.Keys && (attrs - moved.Keys)[n] == attrs[n])
  {
    MovingSplits(attrs, InstrumentationNames(attrs));
  }

  // ---------------------------------------------------------------------
  // The breadcrumb above the footer
  // ---------------------------------------------------------------------

  /** `buildBreadcrumb`: the breadcrumb block's trail, except that the last
      item falls back to the segment's label rather than the document title. */
  method BuildBreadcrumb(pathname: string, shortTitle: string) returns (r: Breadcrumb.Trail, isHomepage: bool)
    ensures var segments := Segments(pathname); var start := Breadcrumb.StartIndex(segments);
      && (isHomepage <==> r.Homepage?)
      && (isHomepage <==> |segments| == start)
      && (r.Items? ==>
            && |r.crumbs| == |segments| - start > 0
            && r.crumbs[|r.crumbs| - 1] == Breadcrumb.CurrentCrumb(OrElse(shortTitle, Breadcrumb.Label(segments[|segments| - 1])))
            && forall k | 0 <= k < |r.crumbs| - 1 ::
                 r.crumbs[k] == Breadcrumb.LinkCrumb(
                   Breadcrumb.CumulativePath(segments, start, start + k + 1), Breadcrumb.Label(segments[start + k])))
  {
    r := Breadcrumb.BuildTrail(pathname, shortTitle, Breadcrumb.SegmentLabel);
    isHomepage := r.Homepage?;
  }

  /** The switch in `loadLazy`: the breadcrumb is inserted before the footer
      when there is a footer and the `breadcrumbs` metadata, `'true'` when
      absent or empty, reads `true` in any letter case. */
  function InsertsBreadcrumb(breadcrumbsMeta: string, hasFooter: bool): (r: bool)
    ensures r <==> hasFooter && (breadcrumbsMeta == "" || Lower(breadcrumbsMeta) == "true")
  {
    hasFooter && Lower(OrElse(breadcrumbsMeta, "true")) == "true"
  }

  /** For every metadata value: letter case never matters, there is no
      breadcrumb without a footer, and with a footer switching it off takes a
      non-empty value other than `true`. */
  lemma BreadcrumbSwitch(breadcrumbsMeta: string, hasFooter: bool)
    ensures InsertsBreadcrumb(breadcrumbsMeta, hasFooter) == InsertsBreadcrumb(Lower(breadcrumbsMeta), hasFooter)
    ensures InsertsBreadcrumb(breadcrumbsMeta, hasFooter) ==> hasFooter
    ensures hasFooter && breadcrumbsMeta != "" ==>
      (InsertsBreadcrumb(breadcrumbsMeta, hasFooter) <==> Lower(breadcrumbsMeta) == "true")
  {
    var l := Lower(breadcrumbsMeta);
    assert Lower(l) == l by {
      forall i | 0 <= i < |l|
        ensures Lower(l)[i] == l[i]
      {
      }
    }
  }

}

=== FILE: social_icons.dfy ===
/** The social icons block (blocks/social-icons/social-icons.js): a list of
    share links built from the authored rows, a container that expands on
    a click and collapses on the next click or on Escape, and a share
    window opened per platform.

    A link's `href` property is the URL resolved against the page, not the
    attribute as written: `resolve` stands for that resolution, and the
    page's URL and title arrive already percent-encoded. The share-link
    click compares the resolved `href` with `'#'`, which a resolved URL
    never equals; `LinkClickAsWritten` models that comparison and
    `LinkClick`, used by the rest of the model, compares the attribute. */
module SocialIcons {
  import opened Wrappers
  import opened Text

  // ---------------------------------------------------------------------
  // The list of share links
  // ---------------------------------------------------------------------

  /** A cell: its text, whether it holds a `picture` or an `img`, and its
      first anchor's `href` (already resolved against the page). */
  datatype Cell = Cell(text: string, picture: bool, img: bool, anchorHref: Option<string>)

  datatype Icon = ClonedPicture | ClonedImg(alt: string) | NoIcon

  /** A share link: its platform, its `href` attribute, class, `aria-label`
      and icon. */
  datatype ShareLink = ShareLink(platform: string, href: string, className: string, ariaLabel: string, icon: Icon)

  /** The share link a row of at least three cells yields: platform from the
      first cell, icon from the second, target from the third. */
  function LinkFor(cells: seq<Cell>): ShareLink
    requires |cells| >= 3
  {
    var platform := Lower(Trim(cells[0].text));
    var href := if cells[2].anchorHref.Some? then cells[2].anchorHref.value else "#";
    var icon := if cells[1].picture then ClonedPicture
                else if cells[1].img then ClonedImg(platform + " icon") else NoIcon;
    ShareLink(platform, href, "icon-" + platform, "Share on " + platform, icon)
  }

  /** The link a row yields, as a list of at most one. */
  function LinkOf(row: seq<Cell>): seq<ShareLink> {
    if |row| >= 3 then [LinkFor(row)] else []
  }

  /** The links the rows yield: one per row of at least three cells, in order. */
  function LinksFor(rows: seq<seq<Cell>>): seq<ShareLink> {
    if rows == [] then [] else LinkOf(rows[0]) + LinksFor(rows[1..])
  }

  lemma {:induction false} LinksForAppend(rows: seq<seq<Cell>>, row: seq<Cell>)
    ensures LinksFor(rows + [row]) == LinksFor(rows) + LinkOf(row)
  {
    if rows == [] {
      assert [row][1..] == [];
    } else {
      assert (rows + [row])[1..] == rows[1..] + [row];
      LinksForAppend(rows[1..], row);
    }
  }

  /** Every link comes from a row of at least three cells; there are never
      more links than rows, and exactly as many when every row has three
      cells or more. */
  lemma {:induction false} LinksFromRows(rows: seq<seq<Cell>>)
    ensures forall l | l in LinksFor(rows) :: exists row | row in rows :: |row| >= 3 && l == LinkFor(row)
    ensures |LinksFor(rows)| <= |rows|
    ensures (forall row | row in rows :: |row| >= 3) ==> |LinksFor(rows)| == |rows|
  {
    if rows != [] {
      var tail := rows[1..];
      LinksFromRows(tail);
      assert LinksFor(rows) == LinkOf(rows[0]) + LinksFor(tail);
      forall l | l in LinksFor(rows) ensures exists row | row in rows :: |row| >= 3 && l == LinkFor(row) {
        if l in LinkOf(rows[0]) {
          assert rows[0] in rows;
        } else {
          var row :| row in tail && |row| >= 3 && l == LinkFor(row);
          assert row in rows;
        }
      }
      assert forall row | row in tail :: row in rows;
    }
  }

  /** The row loop of `decorate`. */
  method BuildList(rows: seq<seq<Cell>>) returns (links: seq<ShareLink>)
    ensures links == LinksFor(rows)
  {
    links := [];
    for i := 0 to |rows|
      invariant links == LinksFor(rows[..i])
    {
      assert rows[..i + 1] == rows[..i] + [rows[i]];
      LinksForAppend(rows[..i], rows[i]);
      if |rows[i]| >= 3 {
        links := links + [LinkFor(rows[i])];
      }
    }
    assert rows[..|rows|] == rows;
  }

  // ---------------------------------------------------------------------
  // Sharing
  // ---------------------------------------------------------------------

  /** `s.replace(p, '')`: the first occurrence of `p` removed. */
  function RemoveFirst(s: string, p: string): (r: string)
    ensures IndexOf(s, p) < 0 ==> r == s
    ensures IndexOf(s, p) >= 0 ==> |r| == |s| - |p|
    ensures IndexOf(s, p) >= 0 ==> r[..IndexOf(s, p)] + p + r[IndexOf(s, p)..] == s
  {
    var i := IndexOf(s, p);
    if i < 0 then s else s[..i] + s[i + |p|..]
  }

  /** The platform a link's class gives back is the platform it was built
      with. */
  lemma PlatformRoundTrip(platform: string)
    ensures RemoveFirst("icon-" + platform, "icon-") == platform
  {
    var s := "icon-" + platform;
    assert s[..5] == "icon-";
    assert IndexOf(s, "icon-") == 0;
    assert s[5..] == platform;
  }

  /** The share URL for a platform: the sharer URL for `facebook`, the
      intent URL with URL and title for `x` and `twitter`, the share URL for
      `line`, the link's own `href` otherwise. */
  function ShareUrl(platform: string, pageUrl: string, pageTitle: string, href: string): (r: string)
    ensures platform == "facebook" ==> r == "https://www.facebook.com/sharer/sharer.php?u=" + pageUrl
    ensures platform == "x" || platform == "twitter" ==>
      r == "https://twitter.com/intent/tweet?url=" + pageUrl + "&text=" + pageTitle
    ensures platform == "line" ==> r == "https://social-plugins.line.me/lineit/share?url=" + pageUrl
    ensures platform !in {"facebook", "x", "twitter", "line"} ==> r == href
  {
    if platform == "facebook" then "https://www.facebook.com/sharer/sharer.php?u=" + pageUrl
    else if platform == "x" || platform == "twitter" then
      "https://twitter.com/intent/tweet?url=" + pageUrl + "&text=" + pageTitle
    else if platform == "line" then "https://social-plugins.line.me/lineit/share?url=" + pageUrl
    else href
  }

  /** A built link names its platform twice over: the click handler reads
      the platform back from the link's class, and the `aria-label` ends
      with it. Its target is the placeholder `#` whenever the third cell
      has no anchor. */
  lemma LinkForPlatform(cells: seq<Cell>)
    requires |cells| >= 3
    ensures var l := LinkFor(cells);
      && RemoveFirst(l.className, "icon-") == l.platform
      && l.platform == Lower(Trim(cells[0].text))
      && l.ariaLabel[|"Share on "|..] == l.platform
      && (cells[2].anchorHref.None? ==> l.href == "#")
      && (cells[2].anchorHref.Some? ==> l.href == cells[2].anchorHref.value)
      && (l.icon.NoIcon? <==> !cells[1].picture && !cells[1].img)
  {
    PlatformRoundTrip(Lower(Trim(cells[0].text)));
  }

  /** A click on a share link as written: the URL handed to `window.open`,
      if any, where the fallback is the link's resolved `href` and the guard
      tests that resolved value against `'#'`. */
  function LinkClickAsWritten(link: ShareLink, pageUrl: string, pageTitle: string, resolve: string -> string): (r: Option<string>)
    ensures var url := ShareUrl(RemoveFirst(link.className, "icon-"), pageUrl, pageTitle, resolve(link.href));
      r == if url != "" && url != "#" then Some(url) else None
  {
    var url := ShareUrl(RemoveFirst(link.className, "icon-"), pageUrl, pageTitle, resolve(link.href));
    if url != "" && url != "#" then Some(url) else None
  }

  /** A click on a share link, with the placeholder compared as authored: no
      window for a link of an unknown platform whose target is `'#'`. */
  function LinkClick(link: ShareLink, pageUrl: string, pageTitle: string, resolve: string -> string): (r: Option<string>)
    ensures var platform := RemoveFirst(link.className, "icon-");
      platform !in {"facebook", "x", "twitter", "line"} && link.href == "#" ==> r.None?
    ensures r.Some? ==> r.value != "" && r.value != "#"
    ensures link.href != "#" ==> r == LinkClickAsWritten(link, pageUrl, pageTitle, resolve)
  {
    var platform := RemoveFirst(link.className, "icon-");
    if platform !in {"facebook", "x", "twitter", "line"} && link.href == "#" then None
    else LinkClickAsWritten(link, pageUrl, pageTitle, resolve)
  }

  /** A link built from a row without an anchor, for an unrecognised
      platform, still opens a window as written (on the page's own URL with
      an empty fragment, which is what `#` resolves to), whereas the
      corrected click opens none. */
  lemma PlaceholderLinkOpensWindow(cells: seq<Cell>, pageUrl: string, pageTitle: string, resolve: string -> string)
    requires |cells| >= 3 && cells[2].anchorHref.None?
    requires Lower(Trim(cells[0].text)) !in {"facebook", "x", "twitter", "line"}
    requires resolve("#") != "" && resolve("#") != "#"
    ensures LinkClickAsWritten(LinkFor(cells), pageUrl, pageTitle, resolve) == Some(resolve("#"))
    ensures LinkClick(LinkFor(cells), pageUrl, pageTitle, resolve).None?
  {
    PlatformRoundTrip(Lower(Trim(cells[0].text)));
  }

  // ---------------------------------------------------------------------
  // The container
  // ---------------------------------------------------------------------

  /** Where a click lands: a share link (its own handler stops the event
      before the container sees it), the close icon, or anywhere else in
      the container. */
  datatype ClickTarget = OnShareLink(k: nat) | OnCloseIcon | OnContainer

  class SocialShare {
    /** The container's `active` class. */
    var active: bool

    constructor ()
      ensures !active
    {
      active := false;
    }

    /** A click inside the block: a share-link click leaves the container as
        it is and yields the window it opens; any other click expands a
        collapsed container and collapses an expanded one. */
    method Click(target: ClickTarget, links: seq<ShareLink>, pageUrl: string, pageTitle: string, resolve: string -> string)
      returns (window: Option<string>)
      requires target.OnShareLink? ==> target.k < |links|
      modifies this
      ensures target.OnShareLink? ==> active == old(active) && window == LinkClick(links[target.k], pageUrl, pageTitle, resolve)
      ensures !target.OnShareLink? ==> active == !old(active) && window.None?
    {
      if target.OnShareLink? {
        window := LinkClick(links[target.k], pageUrl, pageTitle, resolve);
        return;
      }
      window := None;
      if !active {
        active := true;
      } else {
        var clickedIcon := false;
        var clickedClose := target.OnCloseIcon?;
        if clickedClose || !clickedIcon {
          active := false;
        }
      }
    }

    /** Escape collapses an expanded container; other keys do nothing. */
    method Keydown(key: string)
      modifies this
      ensures key == "Escape" ==> !active
      ensures key != "Escape" ==> active == old(active)
    {
      if key == "Escape" && active {
        active := false;
      }
    }
  }
}

=== FILE: story_card.dfy ===
/** The story card block (blocks/story-card/story-card.js): an image beside
    an eyebrow, a title, a description and an optional button, read from
    authored rows whose layout depends on whether the optional alt-text row
    is present, which the block infers from where the position row is. */
module StoryCard {
  import opened Wrappers
  import opened Text

  /** The image in the first row: its `src` and `alt`. */
  datatype Image = Image(src: string, alt: string)

  /** A row: the text of its first `p`, the HTML of its first cell, and the
      first `img` it holds. */
  datatype Row = Row(firstP: Option<string>, firstCell: Option<string>, img: Option<Image>)

  /** `getTextContent`: the first paragraph's trimmed text, or `''` for a
      missing row or paragraph. */
  function TextContent(row: Option<Row>): (r: string)
    ensures row.None? || row.value.firstP.None? ==> r == ""
    ensures row.Some? && row.value.firstP.Some? ==> r == Trim(row.value.firstP.value)
  {
    if row.Some? && row.value.firstP.Some? then Trim(row.value.firstP.value) else ""
  }

  /** `getHTMLContent`: the first cell's trimmed HTML, or `''`. */
  function HtmlContent(row: Option<Row>): string {
    if row.Some? && row.value.firstCell.Some? then Trim(row.value.firstCell.value) else ""
  }

  /** `rows[i]`, `undefined` past the end. */
  function RowAt(rows: seq<Row>, i: int): (r: Option<Row>)
    ensures r.Some? <==> 0 <= i < |rows|
    ensures r.Some? ==> r.value == rows[i]
  {
    if 0 <= i < |rows| then Some(rows[i]) else None
  }

  predicate IsPositionRow(row: Row) {
    var text := Lower(TextContent(Some(row)));
    text == "image-left" || text == "image-right"
  }

  /** `rows.findIndex(...)`: the first position row, or -1. */
  function FindPosition(rows: seq<Row>): (r: int)
    ensures -1 <= r < |rows|
    ensures r >= 0 ==> IsPositionRow(rows[r]) && forall k | 0 <= k < r :: !IsPositionRow(rows[k])
    ensures r < 0 ==> forall k | 0 <= k < |rows| :: !IsPositionRow(rows[k])
  {
    if rows == [] then -1
    else if IsPositionRow(rows[0]) then 0
    else
      var r := FindPosition(rows[1..]);
      assert forall k | 1 <= k < |rows| :: rows[k] == rows[1..][k - 1];
      if r < 0 then -1 else r + 1
  }

  /** The position row's index: the first position row, or 5 (the row
      after the description in the full layout) when there is none. */
  function PositionIndex(rows: seq<Row>): (r: nat)
    ensures (exists k | 0 <= k < |rows| :: IsPositionRow(rows[k])) ==>
      r < |rows| && IsPositionRow(rows[r]) && forall k | 0 <= k < r :: !IsPositionRow(rows[k])
    ensures (forall k | 0 <= k < |rows| :: !IsPositionRow(rows[k])) ==> r == 5
  {
    var p := FindPosition(rows);
    if p < 0 then 5 else p
  }

  /** Which rows hold what. With the alt-text row (position at 5 or
      later) the fields are rows 1 to 4; without it the alt is absent and
      the fields move up one. The button row follows the position row. */
  datatype Layout = Layout(altRow: Option<nat>, eyebrowRow: nat, titleRow: nat, descriptionRow: nat,
                           positionRow: nat, buttonRow: nat)

  function LayoutOf(rows: seq<Row>): (r: Layout)
    ensures r.altRow.Some? <==> PositionIndex(rows) >= 5
    ensures r.altRow.Some? ==> r.altRow.value == 1 && r.eyebrowRow == 2 && r.titleRow == 3 && r.descriptionRow == 4
    ensures r.altRow.None? ==> r.eyebrowRow == 1 && r.titleRow == 2 && r.descriptionRow == 3
    ensures r.positionRow == PositionIndex(rows) && r.buttonRow == r.positionRow + 1
  {
    var p := PositionIndex(rows);
    if p >= 5 then Layout(Some(1), 2, 3, 4, p, p + 1)
    else Layout(None, 1, 2, 3, p, p + 1)
  }

  /** The content column: each text element only when its value is
      non-empty, and the button row's first cell copied as it is. */
  datatype Content = Content(eyebrow: Option<string>, title: Option<string>, description: Option<string>,
                             button: Option<string>)

  /** `buildContent`. */
  function BuildContent(eyebrowText: string, titleText: string, descriptionHtml: string, buttonRow: Option<Row>): (r: Content)
    ensures r.eyebrow.Some? <==> eyebrowText != ""
    ensures r.title.Some? <==> titleText != ""
    ensures r.description.Some? <==> descriptionHtml != ""
    ensures r.eyebrow.Some? ==> r.eyebrow.value == eyebrowText
    ensures r.title.Some? ==> r.title.value == titleText
    ensures r.description.Some? ==> r.description.value == descriptionHtml
    ensures r.button.Some? <==> buttonRow.Some? && buttonRow.value.firstCell.Some?
    ensures r.button.Some? ==> r.button.value == buttonRow.value.firstCell.value
  {
    Content(
      if eyebrowText != "" then Some(eyebrowText) else None,
      if titleText != "" then Some(titleText) else None,
      if descriptionHtml != "" then Some(descriptionHtml) else None,
      if buttonRow.Some? && buttonRow.value.firstCell.Some? then Some(buttonRow.value.firstCell.value) else None)
  }

  /** The decorated block: left as authored, or the wrapper with its
      section title, the optimised picture (if there is an image), the
      content, and the side of the image. */
  datatype Card =
    | Untouched
    | Card(sectionTitle: string, picture: Option<Image>, content: Content, imageRight: bool)

  /** `decorate`. */
  function Decorate(rows: seq<Row>): Card {
    if |rows| < 5 then Untouched
    else
      var layout := LayoutOf(rows);
      var img := rows[0].img;
      var altText := if layout.altRow.Some? then TextContent(Some(rows[layout.altRow.value])) else "";
      var imageAlt := OrElse(altText, if img.Some? then img.value.alt else "");
      var eyebrowText := TextContent(Some(rows[layout.eyebrowRow]));
      var titleText := TextContent(Some(rows[layout.titleRow]));
      var descriptionHtml := HtmlContent(Some(rows[layout.descriptionRow]));
      var positionValue := Lower(TextContent(RowAt(rows, layout.positionRow)));
      var picture := if img.Some? then Some(Image(img.value.src, OrElse(imageAlt, img.value.alt))) else None;
      Card(OrElse(eyebrowText, titleText),
           picture,
           BuildContent(eyebrowText, titleText, descriptionHtml, RowAt(rows, layout.buttonRow)),
           positionValue == "image-right")
  }

  /** A block of fewer than five rows is left as authored; any other block
      is decorated. */
  lemma DecorateUntouched(rows: seq<Row>)
    ensures Decorate(rows).Untouched? <==> |rows| < 5
  {
  }

  /** The image goes right exactly when the position row (if it exists)
      reads `image-right`; when a position row was found and the image
      goes left, that row reads `image-left`. */
  lemma ImageSide(rows: seq<Row>)
    requires |rows| >= 5
    ensures var p := PositionIndex(rows);
      Decorate(rows).imageRight <==> p < |rows| && Lower(TextContent(Some(rows[p]))) == "image-right"
    ensures FindPosition(rows) >= 0 && !Decorate(rows).imageRight ==>
      Lower(TextContent(Some(rows[FindPosition(rows)]))) == "image-left"
  {
  }

  /** The section title is the eyebrow, else the title; it is empty only
      when both are. */
  lemma SectionTitle(rows: seq<Row>)
    requires |rows| >= 5
    ensures var layout := LayoutOf(rows);
      var eyebrow := TextContent(Some(rows[layout.eyebrowRow]));
      var title := TextContent(Some(rows[layout.titleRow]));
      && Decorate(rows).sectionTitle == (if eyebrow != "" then eyebrow else title)
      && (Decorate(rows).sectionTitle == "" <==> eyebrow == "" && title == "")
      && (Decorate(rows).content.eyebrow.Some? <==> eyebrow != "")
      && (Decorate(rows).content.title.Some? <==> title != "")
  {
  }

  /** The picture's alt text is the alt row's text when the alt row is
      present and non-empty, and the image's own alt otherwise. */
  lemma PictureAlt(rows: seq<Row>)
    requires |rows| >= 5 && rows[0].img.Some?
    ensures var layout := LayoutOf(rows);
      var altText := if layout.altRow.Some? then TextContent(Some(rows[1])) else "";
      && Decorate(rows).picture == Some(Image(rows[0].img.value.src, OrElse(altText, rows[0].img.value.alt)))
  {
    var img := rows[0].img.value;
    var layout := LayoutOf(rows);
    var altText := if layout.altRow.Some? then TextContent(Some(rows[1])) else "";
    assert OrElse(OrElse(altText, img.alt), img.alt) == OrElse(altText, img.alt);
  }

  /** The full layout: without a position row, rows 1 to 4 are alt,
      eyebrow, title and description, row 5 is read for the side (and,
      lacking the position text, gives the left side) and row 6 holds the
      button. */
  lemma FullLayout(rows: seq<Row>)
    requires |rows| >= 5 && forall k | 0 <= k < |rows| :: !IsPositionRow(rows[k])
    ensures LayoutOf(rows) == Layout(Some(1), 2, 3, 4, 5, 6)
    ensures !Decorate(rows).imageRight
  {
    if 5 < |rows| {
      assert !IsPositionRow(rows[5]);
    }
  }

  /** The short layout: a position row in row 4 means there is no alt-text
      row; eyebrow, title and description are rows 1 to 3 and the button
      is row 5. */
  lemma ShortLayout(rows: seq<Row>)
    requires |rows| >= 5 && FindPosition(rows) == 4
    ensures LayoutOf(rows) == Layout(None, 1, 2, 3, 4, 5)
    ensures Decorate(rows).content.button.Some? <==> |rows| > 5 && rows[5].firstCell.Some?
  {
  }
}

=== FILE: text.dfy ===
/** String operations the block scripts rely on (`trim`, `toLowerCase`,
    `startsWith`, `includes`, `split`, `join`, `filter(Boolean)`), written
    out over `seq<char>` so that the blocks' contracts can speak about them. */
module Text {

  /** The white-space characters that `trim` removes and that this model
      knows about (ASCII white space, no-break space and the byte-order mark). */
  predicate IsSpace(c: char) {
    c == ' ' || c == '\t' || c == '\n' || c == '\r' ||
    c == '\U{000B}' || c == '\U{000C}' || c == '\U{00A0}' || c == '\U{FEFF}'
  }

  predicate AllSpace(s: string) {
    forall i | 0 <= i < |s| :: IsSpace(s[i])
  }

  /** Drops leading white space. */
  function TrimStart(s: string): (r: string)
    ensures |r| <= |s|
    ensures r == [] || !IsSpace(r[0])
  {
    if s != [] && IsSpace(s[0]) then TrimStart(s[1..]) else s
  }

  /** Drops trailing white space. */
  function TrimEnd(s: string): (r: string)
    ensures |r| <= |s|
    ensures r == [] || !IsSpace(r[|r| - 1])
    ensures r != [] ==> r[0] == s[0]
  {
    if s != [] && IsSpace(s[|s| - 1]) then TrimEnd(s[..|s| - 1]) else s
  }

  /** `TrimStart` keeps a suffix and drops only white space before it. */
  lemma {:induction false} TrimStartSuffix(s: string)
    ensures var r := TrimStart(s); r == s[|s| - |r|..] && AllSpace(s[..|s| - |r|])
  {
    if s != [] && IsSpace(s[0]) {
      var t := s[1..];
      TrimStartSuffix(t);
      var r := TrimStart(t);
      assert t[|t| - |r|..] == s[|s| - |r|..];
      var dropped := s[..|s| - |r|];
      forall i | 0 <= i < |dropped| ensures IsSpace(dropped[i]) {
        if i > 0 {
          assert dropped[i] == t[..|t| - |r|][i - 1];
        }
      }
    } else {
      assert s[..0] == [];
    }
  }

  /** `TrimEnd` keeps a prefix and drops only white space after it. */
  lemma {:induction false} TrimEndPrefix(s: string)
    ensures var r := TrimEnd(s); r == s[..|r|] && AllSpace(s[|r|..])
  {
    if s != [] && IsSpace(s[|s| - 1]) {
      var t := s[..|s| - 1];
      TrimEndPrefix(t);
      var r := TrimEnd(t);
      assert t[..|r|] == s[..|r|];
      var dropped := s[|r|..];
      forall i | 0 <= i < |dropped| ensures IsSpace(dropped[i]) {
        if |r| + i < |s| - 1 {
          assert dropped[i] == t[|r|..][i];
        }
      }
    } else {
      assert s[|s|..] == [];
    }
  }

  /** Trimming only removes characters. */
  lemma TrimKeepsAbsent(s: string, c: char)
    requires c !in s
    ensures c !in Trim(s)
  {
    var ts := TrimStart(s);
    TrimStartSuffix(s);
    assert c !in ts by {
      assert ts == s[|s| - |ts|..];
    }
    var r := TrimEnd(ts);
    TrimEndPrefix(ts);
    assert r == ts[..|r|];
  }

  /** `String.prototype.trim`. */
  function Trim(s: string): (r: string)
    ensures |r| <= |s|
    ensures r == [] || (!IsSpace(r[0]) && !IsSpace(r[|r| - 1]))
  {
    TrimEnd(TrimStart(s))
  }

  lemma {:induction false} TrimStartSkip(a: string, t: string)
    requires AllSpace(a)
    ensures TrimStart(a + t) == TrimStart(t)
  {
    if a != [] {
      assert (a + t)[0] == a[0];
      assert (a + t)[1..] == a[1..] + t;
      assert AllSpace(a[1..]) by {
        forall i | 0 <= i < |a| - 1 ensures IsSpace(a[1..][i]) {
          assert a[1..][i] == a[i + 1];
        }
      }
      TrimStartSkip(a[1..], t);
    } else {
      assert a + t == t;
    }
  }

  lemma {:induction false} TrimEndSkip(t: string, b: string)
    requires AllSpace(b)
    ensures TrimEnd(t + b) == TrimEnd(t)
  {
    if b != [] {
      var b' := b[..|b| - 1];
      assert (t + b)[..|t + b| - 1] == t + b';
      TrimEndSkip(t, b');
    } else {
      assert t + b == t;
    }
  }

  lemma {:induction false} TrimStartAppend(s: string, b: string)
    requires !AllSpace(s)
    ensures TrimStart(s + b) == TrimStart(s) + b
  {
    if s != [] && IsSpace(s[0]) {
      assert !AllSpace(s[1..]) by {
        var i :| 0 <= i < |s| && !IsSpace(s[i]);
        assert s[1..][i - 1] == s[i];
      }
      assert (s + b)[1..] == s[1..] + b;
      TrimStartAppend(s[1..], b);
    }
  }

  lemma AllSpaceTrimStart(s: string)
    requires AllSpace(s)
    ensures TrimStart(s) == []
  {
    TrimStartSkip(s, []);
    assert s + [] == s;
  }

  /** Surrounding white space never changes what `trim` returns. */
  lemma TrimPadded(a: string, s: string, b: string)
    requires AllSpace(a) && AllSpace(b)
    ensures Trim(a + s + b) == Trim(s)
  {
    assert a + s + b == a + (s + b);
    TrimStartSkip(a, s + b);
    if AllSpace(s) {
      assert AllSpace(s + b);
      AllSpaceTrimStart(s + b);
      AllSpaceTrimStart(s);
    } else {
      TrimStartAppend(s, b);
      TrimEndSkip(TrimStart(s), b);
    }
  }

  function LowerChar(c: char): char {
    if 'A' <= c <= 'Z' then (c as int + 32) as char else c
  }

  function UpperChar(c: char): char {
    if 'a' <= c <= 'z' then (c as int - 32) as char else c
  }

  /** JavaScript's `a || b` on strings: the empty string is falsy. */
  function OrElse(a: string, b: string): string {
    if a != "" then a else b
  }

  /** `toLowerCase`, for the ASCII letters. */
  function Lower(s: string): (r: string)
    ensures |r| == |s| && forall i | 0 <= i < |s| :: r[i] == LowerChar(s[i])
  {
    seq(|s|, i requires 0 <= i < |s| => LowerChar(s[i]))
  }

  lemma SpaceLower(c: char)
    ensures IsSpace(LowerChar(c)) == IsSpace(c)
  {
  }

  lemma {:induction false} LowerTrimStart(s: string)
    ensures TrimStart(Lower(s)) == Lower(TrimStart(s))
  {
    if s != [] {
      var l := Lower(s);
      SpaceLower(s[0]);
      assert l[0] == LowerChar(s[0]);
      if IsSpace(s[0]) {
        assert l[1..] == Lower(s[1..]);
        LowerTrimStart(s[1..]);
      }
    }
  }

  lemma {:induction false} LowerTrimEnd(s: string)
    ensures TrimEnd(Lower(s)) == Lower(TrimEnd(s))
  {
    if s != [] {
      var l := Lower(s);
      SpaceLower(s[|s| - 1]);
      assert l[|s| - 1] == LowerChar(s[|s| - 1]);
      if IsSpace(s[|s| - 1]) {
        assert l[..|s| - 1] == Lower(s[..|s| - 1]);
        LowerTrimEnd(s[..|s| - 1]);
      }
    }
  }

  /** The `textContent.trim().toLowerCase()` normalisation used by every
      configuration reader. */
  function Normalize(s: string): (r: string)
    ensures |r| <= |s|
  {
    Lower(Trim(s))
  }

  /** A string `Normalize` leaves alone: no surrounding white space and no
      upper-case letter. */
  predicate Canonical(s: string) {
    (s == [] || (!IsSpace(s[0]) && !IsSpace(s[|s| - 1]))) &&
    forall i | 0 <= i < |s| :: !('A' <= s[i] <= 'Z')
  }

  lemma CanonicalNormalize(s: string)
    requires Canonical(s)
    ensures Normalize(s) == s
  {
    assert TrimStart(s) == s;
    assert TrimEnd(s) == s;
    assert Lower(s) == s;
  }

  /** Letter case never matters to `Normalize`. */
  lemma NormalizeIgnoresCase(s: string, t: string)
    requires Lower(s) == Lower(t)
    ensures Normalize(s) == Normalize(t)
  {
    LowerTrimStart(s); LowerTrimEnd(TrimStart(s));
    LowerTrimStart(t); LowerTrimEnd(TrimStart(t));
  }

  /** Surrounding white space never matters to `Normalize`. */
  lemma NormalizeIgnoresPadding(a: string, s: string, b: string)
    requires AllSpace(a) && AllSpace(b)
    ensures Normalize(a + s + b) == Normalize(s)
  {
    TrimPadded(a, s, b);
  }

  predicate StartsWith(s: string, p: string) {
    |p| <= |s| && s[..|p|] == p
  }

  predicate EndsWith(s: string, p: string) {
    |p| <= |s| && s[|s| - |p|..] == p
  }

  predicate OccursAt(s: string, p: string, k: int) {
    0 <= k && k + |p| <= |s| && s[k..k + |p|] == p
  }

  lemma OccursShift(s: string, p: string)
    requires s != []
    ensures forall k | 1 <= k :: OccursAt(s, p, k) <==> OccursAt(s[1..], p, k - 1)
  {
    forall k | 1 <= k
      ensures OccursAt(s, p, k) <==> OccursAt(s[1..], p, k - 1)
    {
      if k + |p| <= |s| {
        assert s[1..][k - 1..k - 1 + |p|] == s[k..k + |p|];
      }
    }
  }

  /** `indexOf`: the first position where `p` occurs in `s`, or -1. */
  function IndexOf(s: string, p: string): (r: int)
    ensures -1 <= r
    ensures r >= 0 ==> OccursAt(s, p, r) && forall k | 0 <= k < r :: !OccursAt(s, p, k)
    ensures r < 0 ==> forall k | 0 <= k :: !OccursAt(s, p, k)
    decreases |s|
  {
    if |s| < |p| then -1
    else if s[..|p|] == p then 0
    else
      OccursShift(s, p);
      assert !OccursAt(s, p, 0);
      var k := IndexOf(s[1..], p);
      assert k >= 0 ==> OccursAt(s, p, k + 1);
      if k < 0 then -1 else k + 1
  }

  /** `includes`. */
  predicate Contains(s: string, p: string) {
    IndexOf(s, p) >= 0
  }

  /** `lastIndexOf` for a single character. */
  function LastIndexOfChar(s: string, c: char): (r: int)
    ensures -1 <= r < |s|
    ensures r >= 0 ==> s[r] == c && forall k | r < k < |s| :: s[k] != c
    ensures r < 0 ==> c !in s
  {
    if s == [] then -1
    else if s[|s| - 1] == c then |s| - 1
    else
      var r := LastIndexOfChar(s[..|s| - 1], c);
      assert r < 0 ==> forall k | 0 <= k < |s| :: s[k] != c by {
        if r < 0 {
          forall k | 0 <= k < |s| ensures s[k] != c {
            if k < |s| - 1 { assert s[..|s| - 1][k] == s[k]; }
          }
        }
      }
      r
  }

  /** `split(p)` with a non-empty separator: the pieces between occurrences. */
  function SplitOn(s: string, p: string): (r: seq<string>)
    requires |p| > 0
    ensures |r| >= 1
    decreases |s|
  {
    var i := IndexOf(s, p);
    if i < 0 then [s] else [s[..i]] + SplitOn(s[i + |p|..], p)
  }

  /** `join(p)`. */
  function Join(xs: seq<string>, p: string): string {
    if |xs| == 0 then ""
    else if |xs| == 1 then xs[0]
    else xs[0] + p + Join(xs[1..], p)
  }

  /** Splitting and joining again with the same separator gives back the string. */
  lemma {:induction false} JoinSplit(s: string, p: string)
    requires |p| > 0
    ensures Join(SplitOn(s, p), p) == s
    decreases |s|
  {
    var i := IndexOf(s, p);
    if i >= 0 {
      var rest := SplitOn(s[i + |p|..], p);
      JoinSplit(s[i + |p|..], p);
      assert ([s[..i]] + rest)[1..] == rest;
      assert s == s[..i] + p + s[i + |p|..];
    }
  }

  /** `filter(Boolean)` on strings: the non-empty ones, in order. */
  function NonEmpty(xs: seq<string>): (r: seq<string>)
    ensures |r| <= |xs|
    ensures forall k | 0 <= k < |r| :: r[k] != ""
    ensures forall x :: x in r <==> x in xs && x != ""
  {
    if xs == [] then []
    else (if xs[0] != "" then [xs[0]] else []) + NonEmpty(xs[1..])
  }

  /** A path's segments: `split('/').filter(Boolean)`. */
  function Segments(path: string): seq<string> {
    NonEmpty(SplitOn(path, "/"))
  }

  /** `replace(/[..]/g, sub)`: every character of `cs` becomes `sub`. */
  function ReplaceChars(s: string, cs: set<char>, sub: char): (r: string)
    ensures |r| == |s|
    ensures forall i | 0 <= i < |s| :: r[i] == (if s[i] in cs then sub else s[i])
  {
    seq(|s|, i requires 0 <= i < |s| => if s[i] in cs then sub else s[i])
  }

  function DigitChar(d: nat): char
    requires d < 10
  {
    ('0' as int + d) as char
  }

  /** Decimal rendering of a natural number (`String(n)`). */
  function NatToString(n: nat): (r: string)
    ensures |r| >= 1
    ensures forall i | 0 <= i < |r| :: '0' <= r[i] <= '9'
  {
    if n < 10 then [DigitChar(n)] else NatToString(n / 10) + [DigitChar(n % 10)]
  }

  lemma {:induction false} NatToStringShort(n: nat)
    ensures |NatToString(n)| == 1 <==> n < 10
  {
    if n >= 10 {
      assert |NatToString(n / 10)| >= 1;
    }
  }

  /** Distinct numbers render as distinct strings. */
  lemma {:induction false} NatToStringInjective(n: nat, m: nat)
    ensures NatToString(n) == NatToString(m) ==> n == m
  {
    if NatToString(n) == NatToString(m) {
      NatToStringShort(n);
      NatToStringShort(m);
      if n >= 10 && m >= 10 {
        var s, t := NatToString(n), NatToString(m);
        assert s[..|s| - 1] == NatToString(n / 10);
        assert t[..|t| - 1] == NatToString(m / 10);
        NatToStringInjective(n / 10, m / 10);
        assert DigitChar(n % 10) == s[|s| - 1] == t[|t| - 1] == DigitChar(m % 10);
      }
    }
  }
}

=== FILE: top_nav.dfy ===
/** The top nav block (blocks/top-nav/top-nav.js): one list item per
    authored row, classified as `link-icon` or `link-only`, and, when more
    than one `link-icon` item exists, the items whose link points at the
    document's language hidden.

    URL resolution is an input twice over: `pathname` stands for
    `new URL(url, base).pathname` (`None` where the constructor throws) and
    `resolve` for a link's `href` property, its attribute resolved against
    the page (the empty attribute gives the page's own URL). */
module TopNav {
  import opened Wrappers
  import opened Text

  // ---------------------------------------------------------------------
  // Language matching
  // ---------------------------------------------------------------------

  /** A path segment names the language: lower-cased, it is the language
      itself or starts with the language and a hyphen. */
  predicate SegmentMatches(seg: string, lang: string) {
    Lower(seg) == lang || StartsWith(Lower(seg), lang + "-")
  }

  /** `segments.some(...)`. */
  function SomeSegmentMatches(segments: seq<string>, lang: string): (r: bool)
    ensures r <==> exists k | 0 <= k < |segments| :: SegmentMatches(segments[k], lang)
  {
    if segments == [] then false
    else
      assert forall k | 1 <= k < |segments| :: segments[k] == segments[1..][k - 1];
      SegmentMatches(segments[0], lang) || SomeSegmentMatches(segments[1..], lang)
  }

  /** `pathnameSegmentMatches`: the string is made absolute with a leading
      slash, then its non-empty segments are compared. */
  function PathnameSegmentMatches(pathOrUrl: string, lang: string): bool {
    var path := if StartsWith(pathOrUrl, "/") then pathOrUrl else "/" + pathOrUrl;
    SomeSegmentMatches(Segments(path), lang)
  }

  lemma {:induction false} SplitAfterSlash(p: string)
    ensures SplitOn("/" + p, "/") == [""] + SplitOn(p, "/")
  {
    var s := "/" + p;
    assert s[..1] == "/";
    assert IndexOf(s, "/") == 0;
    assert s[1..] == p;
  }

  /** The leading slash `pathnameSegmentMatches` adds never changes its
      answer: it is the segment comparison on the string as given. */
  lemma {:induction false} PathnameSegmentMatchesIgnoresSlash(pathOrUrl: string, lang: string)
    ensures PathnameSegmentMatches(pathOrUrl, lang) == SomeSegmentMatches(Segments(pathOrUrl), lang)
  {
    if !StartsWith(pathOrUrl, "/") {
      SplitAfterSlash(pathOrUrl);
      var parts := SplitOn(pathOrUrl, "/");
      assert ([""] + parts)[1..] == parts;
      assert Segments("/" + pathOrUrl) == NonEmpty([""] + parts);
      assert NonEmpty([""] + parts) == NonEmpty(parts);
    }
  }

  /** The language code: the lower-cased language up to its first hyphen. */
  function NormalizeLang(lang: string): (r: string)
    ensures var l := Lower(lang); var i := IndexOf(l, "-");
      r == if i >= 0 then l[..i] else l
    ensures forall k | 0 <= k < |r| :: r[k] != '-'
  {
    var l := Lower(lang);
    var r := SplitOn(l, "-")[0];
    var i := IndexOf(l, "-");
    assert forall k | 0 <= k < |l| :: OccursAt(l, "-", k) <==> l[k] == '-' by {
      forall k | 0 <= k < |l| ensures OccursAt(l, "-", k) <==> l[k] == '-' {
        if l[k] == '-' { assert l[k..k + 1] == "-"; }
      }
    }
    r
  }

  /** `urlMatchesLang`: the link's parsed pathname, or the link itself when
      it cannot be parsed, names the document's language code. */
  function UrlMatchesLang(url: string, lang: string, pathname: string -> Option<string>): bool {
    if url == "" || lang == "" then false
    else
      var code := NormalizeLang(lang);
      if code == "" then false
      else match pathname(url)
        case Some(path) => SomeSegmentMatches(Segments(path), code)
        case None => PathnameSegmentMatches(url, code)
  }

  /** An empty link, an empty language or an empty language code never
      matches; otherwise a link matches exactly when some non-empty segment
      of its pathname (of the link itself, when it cannot be parsed) is the
      language code or starts with the code and a hyphen. */
  lemma UrlMatchesLangMeaning(url: string, lang: string, pathname: string -> Option<string>)
    ensures url == "" || lang == "" || NormalizeLang(lang) == "" ==> !UrlMatchesLang(url, lang, pathname)
    ensures url != "" && lang != "" && NormalizeLang(lang) != "" ==>
      var path := if pathname(url).Some? then pathname(url).value else url;
      (UrlMatchesLang(url, lang, pathname) <==>
         exists k | 0 <= k < |Segments(path)| :: SegmentMatches(Segments(path)[k], NormalizeLang(lang)))
  {
    if url != "" && lang != "" && NormalizeLang(lang) != "" && pathname(url).None? {
      PathnameSegmentMatchesIgnoresSlash(url, NormalizeLang(lang));
    }
  }

  // ---------------------------------------------------------------------
  // Decoration
  // ---------------------------------------------------------------------

  /** An authored anchor: its `href` property (the attribute resolved
      against the page, or `""` when the anchor has no `href` attribute)
      and its text. */
  datatype Anchor = Anchor(href: string, text: string)

  /** An authored row: its HTML, its first anchor and whether it holds a picture. */
  datatype Row = Row(html: string, anchor: Option<Anchor>, picture: bool, text: string)

  datatype Kind = LinkIcon | LinkOnly

  /** A built link's `href` is the attribute written on it (the authored
      anchor's `href` property); its `href` property is that attribute
      resolved against the page. */
  datatype Content =
    | LinkContent(href: string, icon: bool, text: string)
    | TextContent(text: string)

  datatype Item = Item(kind: Kind, content: Content, hidden: bool)

  /** `link-icon` when the row's HTML mentions `link-logo`. */
  function KindOf(row: Row): Kind {
    if Contains(row.html, "link-logo") then LinkIcon else LinkOnly
  }

  /** The list item a row yields, if any: a link (with the picture as an
      icon only for `link-icon` rows) when the row has an anchor, otherwise
      its trimmed text when that is non-empty; always visible at first. */
  function ItemFor(row: Row): (r: Option<Item>)
    ensures r.None? <==> row.anchor.None? && Trim(row.text) == ""
    ensures r.Some? ==> r.value.kind == KindOf(row) && !r.value.hidden
    ensures r.Some? ==> (r.value.content.LinkContent? <==> row.anchor.Some?)
    ensures r.Some? && row.anchor.Some? ==>
      r.value.content.href == row.anchor.value.href && r.value.content.text == row.anchor.value.text
    ensures r.Some? && row.anchor.None? ==> r.value.content.text == Trim(row.text)
    ensures r.Some? && r.value.content.LinkContent? ==>
      r.value.content.icon == (row.picture && KindOf(row) == LinkIcon)
  {
    match row.anchor
    case Some(a) => Some(Item(KindOf(row), LinkContent(a.href, row.picture && KindOf(row) == LinkIcon, a.text), false))
    case None =>
      var text := Trim(row.text);
      if text != "" then Some(Item(KindOf(row), TextContent(text), false)) else None
  }

  /** The items the rows yield, in order. */
  function ItemsFor(rows: seq<Row>): seq<Item> {
    if rows == [] then [] else AsList(ItemFor(rows[0])) + ItemsFor(rows[1..])
  }

  function AsList(o: Option<Item>): seq<Item> {
    if o.Some? then [o.value] else []
  }

  function CountIcons(items: seq<Item>): nat {
    if items == [] then 0
    else (if items[0].kind == LinkIcon then 1 else 0) + CountIcons(items[1..])
  }

  /** Whether the hiding pass hides an item: `a[href]` finds the built link
      (whose `href` attribute is always set), and its `href` property,
      `resolve` of the attribute, is tested against the document language. */
  predicate HiddenByLang(it: Item, manyIcons: bool, docLang: string, pathname: string -> Option<string>,
                         resolve: string -> string) {
    manyIcons && it.kind == LinkIcon && it.content.LinkContent?
    && UrlMatchesLang(resolve(it.content.href), docLang, pathname)
  }

  /** A `link-icon` row whose anchor has no `href` attribute yields a link
      whose empty attribute resolves to the page's own URL; with more than
      one `link-icon` item, it is hidden exactly when the page's path names
      the document language. */
  lemma EmptyHrefFollowsPage(row: Row, docLang: string, pathname: string -> Option<string>,
                             resolve: string -> string, pageUrl: string)
    requires row.anchor.Some? && row.anchor.value.href == "" && KindOf(row) == LinkIcon
    requires resolve("") == pageUrl
    ensures ItemFor(row).Some?
    ensures HiddenByLang(ItemFor(row).value, true, docLang, pathname, resolve) <==>
      UrlMatchesLang(pageUrl, docLang, pathname)
  {
  }

  lemma {:induction false} ItemsForAppend(rows: seq<Row>, row: Row)
    ensures ItemsFor(rows + [row]) == ItemsFor(rows) + AsList(ItemFor(row))
  {
    if rows == [] {
      assert [row][1..] == [];
    } else {
      assert (rows + [row])[1..] == rows[1..] + [row];
      ItemsForAppend(rows[1..], row);
    }
  }

  /** The row pass: one list item per row that yields one, in order. */
  method BuildItems(rows: seq<Row>) returns (items: seq<Item>)
    ensures items == ItemsFor(rows)
  {
    items := [];
    var i := 0;
    while i < |rows|
      invariant 0 <= i <= |rows|
      invariant items == ItemsFor(rows[..i])
    {
      assert rows[..i + 1] == rows[..i] + [rows[i]];
      ItemsForAppend(rows[..i], rows[i]);
      var item := ItemFor(rows[i]);
      if item.Some? {
        items := items + [item.value];
      }
      i := i + 1;
    }
    assert rows[..i] == rows;
  }

  /** Counts the `link-icon` items. */
  method CountLinkIcons(items: seq<Item>) returns (n: nat)
    ensures n == CountIcons(items)
  {
    n := 0;
    var i := |items|;
    while i > 0
      invariant 0 <= i <= |items|
      invariant n == CountIcons(items[i..])
    {
      i := i - 1;
      assert items[i..][1..] == items[i + 1..];
      n := n + (if items[i].kind == LinkIcon then 1 else 0);
    }
  }

  /** The hiding pass: `display: none` on each `link-icon` item whose link
      matches the document language; every other item is left alone. */
  method HideCurrentLanguage(built: seq<Item>, docLang: string, pathname: string -> Option<string>,
                             resolve: string -> string) returns (items: seq<Item>)
    requires forall j | 0 <= j < |built| :: !built[j].hidden
    ensures |items| == |built|
    ensures forall k | 0 <= k < |items| ::
      items[k] == built[k].(hidden := HiddenByLang(built[k], true, docLang, pathname, resolve))
  {
    items := built;
    for k := 0 to |items|
      invariant |items| == |built|
      invariant forall j | 0 <= j < k ::
        items[j] == built[j].(hidden := HiddenByLang(built[j], true, docLang, pathname, resolve))
      invariant forall j | k <= j < |items| :: items[j] == built[j]
    {
      var it := items[k];
      if it.kind == LinkIcon && it.content.LinkContent? && UrlMatchesLang(resolve(it.content.href), docLang, pathname) {
        items := items[k := it.(hidden := true)];
      }
    }
  }

  /** `decorate`: the items, with `display: none` on each `link-icon` item
      whose link matches the document language, but only when there is more
      than one `link-icon` item. */
  method Decorate(rows: seq<Row>, docLang: string, pathname: string -> Option<string>, resolve: string -> string)
    returns (items: seq<Item>)
    ensures |items| == |ItemsFor(rows)|
    ensures forall k | 0 <= k < |items| ::
      items[k] == ItemsFor(rows)[k].(hidden :=
        HiddenByLang(ItemsFor(rows)[k], CountIcons(ItemsFor(rows)) > 1, docLang, pathname, resolve))
  {
    items := BuildItems(rows);
    ItemsNeverHidden(rows);
    var icons := CountLinkIcons(items);
    if icons > 1 {
      items := HideCurrentLanguage(items, docLang, pathname, resolve);
    }
  }

  lemma {:induction false} ItemsNeverHidden(rows: seq<Row>)
    ensures forall j | 0 <= j < |ItemsFor(rows)| :: !ItemsFor(rows)[j].hidden
  {
    if rows != [] {
      ItemsNeverHidden(rows[1..]);
    }
  }
}

=== FILE: wrappers.dfy ===
/** Optional values and results with an error, used wherever the scripts
    return `null`/`undefined` or throw. */
module Wrappers {

  datatype Option<+T> = None | Some(value: T) {
    function GetOr(default: T): T {
      match this
      case Some(v) => v
      case None => default
    }
  }

  datatype Result<+T, +E> = Success(value: T) | Failure(error: E)
}
